=== FILE: README.md ===
# Math tutoring app — a Dafny model of its core

The application is a React front end for teaching lower-secondary mathematics (grades 6 to
9) in Vietnamese. Teachers manage classes, students, lessons, exercises and worksheets.
Students browse lessons and sit worksheets that are generated by a language model and graded
on the spot. A hosted database stores everything.

This project models the deterministic core of that front end:

- the answer normaliser and the grading chain of the smart worksheet;
- the worksheet session: locks, score, save and the file-viewer mode;
- the worksheet library: filters, folder counts, upload, delete guards and the HTML export;
- the edges of the AI service: JSON cleaning, data-URL payloads, the question plan,
  attachment classification and error rewriting;
- the application shell: the navigation bar, back-button routing, the student grade and
  row mapping;
- the dashboard cards, the exam list, the leaderboard, the progress screen and attendance;
- teacher remarks;
- class, lesson and student administration;
- login and registration.

Database calls, the model call, `JSON.parse`, `atob` and the file reader are not modelled
as code. Their outcomes are parameters: a `bool` for success, a `Result` for a reply, or a
function for a parser. A store is a list of rows, and an operation returns the new list
together with its outcome.

Modules, one per source file:

| module | models |
|---|---|
| `Wrappers`, `Text`, `Lists`, `Types` | `Option`/`Result`, the JS string operations used, `filter` and `find`, and the records of `types.ts` |
| `AnswerNormalizer`, `AnswerMatcher`, `WorksheetSession` | `screens/SmartWorksheet.tsx` |
| `WorksheetLibrary` | `screens/AdminWorksheets.tsx` |
| `AiBoundary` | `services/geminiService.ts` |
| `Navigation` | `App.tsx` |
| `DashboardView`, `ExamList`, `Leaderboard`, `Scores`, `ResultsView`, `AttendanceBook`, `RemarkBook` | the screens of the same names |
| `ClassAdmin`, `LessonAdmin`, `LessonCatalog`, `LessonQuiz` | `AdminClasses`, `AdminLessons`, `LessonList`, `LessonDetail` |
| `Accounts` | `screens/AdminStudents.tsx` and `screens/Login.tsx` |

Marks (`diem`) are Dafny `real`. A worksheet score is counted in whole half-points. An
absent optional string is modelled as `""`, because the source tests it with `||` or with
a truthiness check and so treats `""` the same way.

`normalizeAnswer` is not idempotent: `"a..5"` normalises to `"a.5"`, which normalises to
`"a5"`.
`AnswerNormalizer.NormalizeIdempotent` proves idempotence for every output that does not
start with an option letter followed by `.` or `:`. `AnswerNormalizer.NotIdempotentExample`
proves the exception.

## Model

| member | source | states |
|---|---|---|
| AnswerNormalizer.CleanPipeline | screens/SmartWorksheet.tsx:20-28 | lower-casing, trimming, removing `$()\` and whitespace, and turning `,` into `.` equal the character-by-character reference definition `Canon` |
| AnswerNormalizer.CanonClean | screens/SmartWorksheet.tsx:20-28 | the reference form has no upper-case letter, whitespace, `$()\` or comma |
| AnswerNormalizer.CanonAppend | screens/SmartWorksheet.tsx:21-25 | the reference form of a concatenation is the concatenation of the reference forms |
| AnswerNormalizer.CanonOfLower | screens/SmartWorksheet.tsx:21-25 | lower-casing first changes nothing in the reference form |
| AnswerNormalizer.NormalizeAnswer | screens/SmartWorksheet.tsx:20-29 | a missing answer normalises to `""`; any other answer gets its canonical form, the reference form followed by the option-prefix rewrite |
| AnswerNormalizer.NormalizeClean | screens/SmartWorksheet.tsx:20-29 | a normalised answer has no upper-case letter, whitespace, `$()\` or comma |
| AnswerNormalizer.CanonFixed | screens/SmartWorksheet.tsx:20-28 | an already clean string is its own reference form |
| AnswerNormalizer.NormalizeIdempotent | screens/SmartWorksheet.tsx:20-29 | normalising twice equals normalising once unless the output starts with an option letter followed by `.` or `:` |
| AnswerNormalizer.NotIdempotentExample | screens/SmartWorksheet.tsx:27 | `"a..5"` gives `"a.5"`, and `"a.5"` gives `"a5"` |
| AnswerNormalizer.PrefixExamples | screens/SmartWorksheet.tsx:20-29 | `"A. 50km"` and `"a)50 km"` both become `"a50km"`; `" 2,5 "` becomes `"2.5"` |
| AnswerMatcher.IsCorrect | screens/SmartWorksheet.tsx:355-406 | an answer that normalises like the expected one is accepted under every kind, and a short answer only then |
| AnswerMatcher.SelectedIndex | screens/SmartWorksheet.tsx:384 | an empty answer has no index (NaN); otherwise the index is the first UTF-16 code unit minus 65 |
| AnswerMatcher.SelectedOption | screens/SmartWorksheet.tsx:384-386 | an option is selected exactly when the index is in range and the option is a non-empty string of the list |
| AnswerMatcher.SameReading | screens/SmartWorksheet.tsx:396-404 | true/false answers agree when equal after normalisation, or both in the true set, or both in the false set; exactly when their readings agree |
| AnswerMatcher.TruthIsSameReading | screens/SmartWorksheet.tsx:396-404 | the true/false verdict equals the agreement of the two readings, an equivalence relation |
| AnswerMatcher.TruthSymmetric | screens/SmartWorksheet.tsx:396-404 | swapping the answer and the expected answer never changes a true/false verdict |
| AnswerMatcher.ShortIsEquality | screens/SmartWorksheet.tsx:405-406 | a short answer is correct exactly when it normalises like the expected one |
| AnswerMatcher.SameFormAccepted | screens/SmartWorksheet.tsx:371-406 | under every question kind, an answer that normalises like the expected one is accepted |
| AnswerMatcher.LabelSelects | screens/SmartWorksheet.tsx:384-386 | the button label of option `i` selects option `i` |
| AnswerMatcher.SelectedLabel | screens/SmartWorksheet.tsx:384 | a single upper-case letter selects the option whose label it is |
| AnswerMatcher.OptionTextAccepted | screens/SmartWorksheet.tsx:383-390 | clicking the option whose text normalises like the expected answer is accepted |
| AnswerMatcher.EmptyCorrectAcceptsAnyOption | screens/SmartWorksheet.tsx:386-390 | an expected answer that normalises to `""` accepts every non-empty option, through the containment test |
| AnswerMatcher.LowerCaseSelectsNothing | screens/SmartWorksheet.tsx:384-386 | a lower-case letter indexes past the end of any list of at most 32 options, so the option-text step never applies |
| AnswerMatcher.LabelCaseExample | screens/SmartWorksheet.tsx:371-390 | with the expected answer `"60km"`, the text of option B, a submitted label `"B"` is accepted and a submitted `"b"` is rejected |
| AnswerMatcher.PartialTextAccepted | screens/SmartWorksheet.tsx:386-388 | containment accepts option `"5"` for the expected `"45"` |
| AnswerMatcher.TruthButtonYes | screens/SmartWorksheet.tsx:396-404 | the "Đúng" button is accepted exactly when the expected answer normalises to a word of the true set |
| AnswerMatcher.TruthButtonNo | screens/SmartWorksheet.tsx:396-404 | the "Sai" button is accepted exactly when the expected answer normalises to a word of the false set |
| AnswerMatcher.TruthSynonymExample | screens/SmartWorksheet.tsx:400-403 | "Đúng" is accepted for the expected "True" |
| Text.LowerChar | screens/SmartWorksheet.tsx:22 | `toLowerCase` on a character: it changes exactly the upper-case letters of the modelled blocks, never yields one, and keeps whitespace whitespace |
| AnswerMatcher.TruthCapitalsExample | screens/SmartWorksheet.tsx:20-24 | "Đúng" is accepted for the expected "ĐÚNG", whose lower case is "đúng" |
| AnswerMatcher.FractionNotDecimal | screens/SmartWorksheet.tsx:405-406 | `"1/2"` is not accepted for `"0.5"`; there is no numeric reading |
| WorksheetSession.Initial | screens/SmartWorksheet.tsx:110-140 | the screen starts on the input step, with no worksheet, grade 6, and consistent bookkeeping |
| WorksheetSession.QuestionTotal | screens/SmartWorksheet.tsx:415 | the question count is at least 1 and equals the length of a non-empty question list |
| WorksheetSession.PointHalves | screens/SmartWorksheet.tsx:415-416 | a question is worth half a point from twenty questions on, and one point below that |
| WorksheetSession.ResetGrading | screens/SmartWorksheet.tsx:195-205 | answers, verdicts, locks, hints, explanations, score and counters are emptied, the saved flag is cleared, and nothing else changes |
| WorksheetSession.Submit | screens/SmartWorksheet.tsx:355-424 | a locked question changes nothing; otherwise the question is locked, the verdict and the answer are recorded, and the score and counters move by the verdict |
| WorksheetSession.RecordVerdict | screens/SmartWorksheet.tsx:408-424 | a locked question changes nothing; otherwise the verdict, the lock and the answer are recorded, exactly one counter goes up, the point value is added for a correct verdict, and nothing else changes |
| WorksheetSession.ToggleHint | screens/SmartWorksheet.tsx:897 | the question's hint flips, every other hint and the rest of the session stay |
| WorksheetSession.ShowExplanation | screens/SmartWorksheet.tsx:921 | the question's explanation is opened and the rest of the session stays |
| WorksheetSession.Edit | screens/SmartWorksheet.tsx:426-429 | typing into a locked question changes nothing; otherwise only that question's answer changes |
| WorksheetSession.LoadInitial | screens/SmartWorksheet.tsx:207-225 | opening a worksheet shows it on the worksheet step with its grade and fresh grading; with no worksheet the input step comes back empty on the given grade |
| WorksheetSession.GenerateTitle | screens/SmartWorksheet.tsx:302-304 | with a file or no chapter the title is the lesson name; otherwise it is "chapter - lesson" |
| WorksheetSession.Generate | screens/SmartWorksheet.tsx:291-318 | with no lesson and no file nothing happens; a failure only resets grading; a success shows the new worksheet |
| WorksheetSession.SaveName | screens/SmartWorksheet.tsx:326 | the saved name is the worksheet's own name, else the typed lesson name, else "Bài tập mới"; it is never empty |
| WorksheetSession.SaveRequest | screens/SmartWorksheet.tsx:321-334 | no row is sent without a worksheet or after a save; otherwise the row carries the worksheet, grade and type |
| WorksheetSession.Save | screens/SmartWorksheet.tsx:321-345 | the saved flag is set exactly when a save is allowed and the insert succeeds; nothing else changes |
| WorksheetSession.SavedTimerElapsed | screens/SmartWorksheet.tsx:338-340 | the timer only clears the saved flag |
| WorksheetSession.RenderedQuestions | screens/SmartWorksheet.tsx:775-784 | file mode renders no question card; otherwise the cards are the worksheet's questions |
| WorksheetSession.FileModeExclusive | screens/SmartWorksheet.tsx:523-950 | in file mode neither cards, scoreboard nor footer are shown; on the worksheet step with a worksheet outside file mode the footer is, and it is shown exactly when the scoreboard is |
| WorksheetSession.Dispatch | screens/SmartWorksheet.tsx:784-921 | a click on a control that is not shown does nothing; an option, true/false or confirm click submits the matching answer, typing edits the answer, the hint button toggles the hint and the explanation button shows the explanation |
| WorksheetSession.CorrectIdsAdd | screens/SmartWorksheet.tsx:418-424 | a new verdict adds one correct id exactly when it is correct |
| WorksheetSession.RecordPreservesValid | screens/SmartWorksheet.tsx:414-424 | recording a verdict keeps the counters equal to the verdicts and the score equal to the correct verdicts times the point value |
| WorksheetSession.SubmitPreservesValid | screens/SmartWorksheet.tsx:355-424 | grading keeps the bookkeeping consistent |
| WorksheetSession.EditPreservesValid | screens/SmartWorksheet.tsx:426-429 | typing keeps the bookkeeping consistent |
| WorksheetSession.TransitionsPreserveValid | screens/SmartWorksheet.tsx:195-429 | every click, load, generation, save and timer keeps the bookkeeping consistent |
| WorksheetSession.LockedFrozen | screens/SmartWorksheet.tsx:362 | no click changes a locked question's answer or verdict, and it stays locked |
| WorksheetSession.LockedClickNoOp | screens/SmartWorksheet.tsx:362-427 | a grading or typing click on a locked question changes nothing at all |
| WorksheetSession.RecordAllCorrect | screens/SmartWorksheet.tsx:414-421 | correct first answers to distinct questions each add one correct answer and one point value to the score |
| WorksheetSession.FullMarksIsTen | screens/SmartWorksheet.tsx:414-421 | a whole sheet of ten or twenty questions answered correctly scores ten points |
| WorksheetLibrary.CurrentCategory | screens/AdminWorksheets.tsx:50-66 | the save category is one of the three, and it equals the view type for self practice and essays |
| WorksheetLibrary.CategoryTable | screens/AdminWorksheets.tsx:69-79 | each view accepts its own labels, legacy ones included, and a label outside the table appears in no view |
| WorksheetLibrary.OwnCategoryShown | screens/AdminWorksheets.tsx:50-79 | a worksheet saved under a view's category is shown in that view |
| WorksheetLibrary.FilteredWorksheets | screens/AdminWorksheets.tsx:69-87 | every listed worksheet passes the category, grade and search tests |
| WorksheetLibrary.FilteredIsSublist | screens/AdminWorksheets.tsx:69-87 | the list keeps store order, and a worksheet is listed exactly when it is stored and passes the tests |
| WorksheetLibrary.EmptySearchKeepsAll | screens/AdminWorksheets.tsx:84 | an empty search filters nothing out |
| WorksheetLibrary.GradeCounts | screens/AdminWorksheets.tsx:90-100 | there are folders for grades 6 to 9 only, each with its count |
| WorksheetLibrary.GradeCountAgrees | screens/AdminWorksheets.tsx:69-100 | a folder's count is the length of the list shown when the folder is opened |
| WorksheetLibrary.ApplyUserGrade | screens/AdminWorksheets.tsx:44-48 | a student's grade is selected; no grade changes nothing |
| WorksheetLibrary.StripExtension | screens/AdminWorksheets.tsx:125 | a name with no `.` strips to `""` |
| WorksheetLibrary.StripExtensionSplits | screens/AdminWorksheets.tsx:125 | the stripped name, a `.` and a dot-free last segment rebuild the file name |
| WorksheetLibrary.ChooseFile | screens/AdminWorksheets.tsx:119-129 | the file is kept, and the name is filled from the file only when it is empty |
| WorksheetLibrary.UploadRequest | screens/AdminWorksheets.tsx:131-159 | the upload is refused exactly without a name or a file; otherwise the row carries the file under the view's category and the upload grade |
| WorksheetLibrary.UploadDone | screens/AdminWorksheets.tsx:161-173 | a successful insert closes and clears the form; a failure leaves it |
| WorksheetLibrary.UploadIsFileMode | screens/AdminWorksheets.tsx:144-159 | an uploaded worksheet opens in the file viewer and is listed in its own view |
| WorksheetLibrary.CreateClick | screens/AdminWorksheets.tsx:103-107 | read-only changes nothing; otherwise the dialog opens on the selected grade |
| WorksheetLibrary.SelectAi | screens/AdminWorksheets.tsx:109-112 | the dialog closes and the creator gets the selected grade, if any |
| WorksheetLibrary.ConfirmDelete | screens/AdminWorksheets.tsx:179-185 | read-only changes nothing; otherwise the worksheet becomes the delete target |
| WorksheetLibrary.ExecuteDelete | screens/AdminWorksheets.tsx:187-204 | without a target no delete is issued; otherwise the target is cleared and its id deleted |
| WorksheetLibrary.ReadOnlyNeverDeletes | screens/AdminWorksheets.tsx:103-189 | in read-only mode neither the create click nor a delete does anything |
| WorksheetLibrary.HtmlLabel | screens/AdminWorksheets.tsx:233 | a one-character label: the code `65 + i` taken modulo 2^16, equal to the grading label below the surrogate range, and the replacement character for a lone surrogate |
| WorksheetLibrary.OptionLines | screens/AdminWorksheets.tsx:233-238 | one labelled line per option, in order |
| WorksheetLibrary.ExportWorksheet | screens/AdminWorksheets.tsx:206-291 | broken data, a raw file, an HTML exam or nothing to download, each in exactly its case, with the file names of the source; the HTML file holds the exam document of the worksheet |
| WorksheetLibrary.UploadExportsRaw | screens/AdminWorksheets.tsx:131-226 | an uploaded worksheet downloads as the stored file under the file's own name |
| WorksheetLibrary.ExamLayout | screens/AdminWorksheets.tsx:229-277 | question `i`'s block is in the exam part after the earlier blocks, and its answer is in the key after the earlier answers |
| WorksheetLibrary.QuestionBlockMentions | screens/AdminWorksheets.tsx:229-245 | a question's block holds "Câu i+1 (level):" and the question text |
| WorksheetLibrary.AnswerEntryMentions | screens/AdminWorksheets.tsx:247-249 | an answer entry holds the expected answer and the explanation |
| WorksheetLibrary.OptionsLabelled | screens/AdminWorksheets.tsx:231-243 | every multiple-choice option appears in its block with its label; a true/false question shows the true/false line |
| AiBoundary.CleanJsonString | services/geminiService.ts:7-9 | no fence survives cleaning, and there is no whitespace at either end |
| AiBoundary.NoFencesFree | services/geminiService.ts:8 | removing every fence leaves no fence, even where pieces meet |
| AiBoundary.CleanJsonIdempotent | services/geminiService.ts:7-9 | cleaning a cleaned reply changes nothing |
| AiBoundary.Base64Part | services/geminiService.ts:165 | the payload has no comma, and a string without a comma is kept |
| AiBoundary.Base64AfterFirstComma | services/geminiService.ts:165 | the payload runs from the first comma up to the second comma or the end |
| AiBoundary.DataUrlPayload | services/geminiService.ts:165 | `header,payload` gives the payload back |
| AiBoundary.QuestionPlan | services/geminiService.ts:121-147 | self practice asks for twenty questions, every other type for ten |
| AiBoundary.PlanPartsContiguous | services/geminiService.ts:124-147 | the three parts are non-empty, contiguous and end at the total; an essay puts every question in part III |
| AiBoundary.PlanScoresTen | services/geminiService.ts:121-147 | a sheet with the planned number of questions is worth ten points |
| AiBoundary.Classify | services/geminiService.ts:165-190 | PDFs and images go inline; HTML and text are decoded to text; anything else goes inline as PDF with the Word note |
| AiBoundary.ClassifyShapes | services/geminiService.ts:165-190 | inline data is the stripped payload; a text part is the decoded text or the fallback; the Word note is added exactly for unrecognised types |
| AiBoundary.Rewrap | services/geminiService.ts:289-301 | a missing key and a safety block get their fixed messages exactly in their cases; anything else gets the generation prefix |
| AiBoundary.GenerateSmartWorksheet | services/geminiService.ts:112-301 | a missing key fails first; a success always has at least one question |
| AiBoundary.GenerateErrorsRewrapped | services/geminiService.ts:286-301 | with a key every error is rewritten, and a parsed sheet with questions is returned unchanged |
| AiBoundary.NoQuestionsMessage | services/geminiService.ts:290-301 | the empty-sheet error is reported after the generation prefix |
| AiBoundary.ChatImagePart | services/geminiService.ts:31-40 | an image part is sent exactly when an image is given, as JPEG without the data-URL header |
| AiBoundary.AskGemini | services/geminiService.ts:11-57 | only a missing key is an error; every answer is non-empty; a non-empty reply is passed on unchanged |
| AiBoundary.AskFailureApologises | services/geminiService.ts:52-57 | a failed call gets the key apology exactly when its message names the API key, and the connection apology otherwise |
| Navigation.Insert | App.tsx:231-245 | `splice` puts the item at the position and shifts the rest |
| Navigation.NavItems | App.tsx:223-245 | the teacher and student bars, tab by tab |
| Navigation.NavRoles | App.tsx:223-245 | the student bar is the teacher bar without the lessons tab, and no tab appears twice |
| Navigation.TypeHome | App.tsx:270-276 | each worksheet type leads back to its own listing |
| Navigation.Back | App.tsx:265-281 | students go to the dashboard; teachers go to the remembered screen, else to their type's listing |
| Navigation.OpenFromDashboard | App.tsx:300-304 | opening from the dashboard forgets the screen to return to |
| Navigation.OpenFromListing | App.tsx:323-435 | opening from a listing remembers that listing |
| Navigation.CreateNew | App.tsx:316-430 | creating opens an empty editor on the grade (6 by default) with the screen's type, and remembers the screen |
| Navigation.BackAfterOpen | App.tsx:265-327 | a teacher returns to the listing a worksheet was opened from |
| Navigation.BackAfterCreate | App.tsx:265-321 | a teacher returns to the screen that created the worksheet |
| Navigation.CreatedTypeLeadsHome | App.tsx:270-435 | for the type listings the remembered screen and the worksheet type lead to the same listing |
| Navigation.LessonsTabNotTypeHome | App.tsx:270-355 | the lessons tab and the lesson manager do not match their type's listing |
| Navigation.BackAfterDashboard | App.tsx:265-304 | after a dashboard opening, a teacher falls back on the type of the last created worksheet |
| Navigation.StudentGrade | App.tsx:288-290 | only a signed-in student whose class is not `--` has a grade, and it is the first digit run |
| Navigation.StudentGradeFromClass | App.tsx:288-290 | the grade is a non-empty digit run of the class, with no digit before it |
| Navigation.MapWorksheetRows | App.tsx:140-147 | one record per row in store order, with the class as a string; no rows means an empty list |
| Navigation.NumericGradeText | App.tsx:143 | a grade stored as the number 6 to 9 becomes the one-digit text the filters compare with |
| Navigation.MapRowsAppend | App.tsx:140-147 | mapping keeps the row order |
| DashboardView.DashboardGrade | screens/Dashboard.tsx:21-23 | a non-teacher whose class is not `--` and has a digit run gets that run as grade |
| DashboardView.WorksheetsToDisplay | screens/Dashboard.tsx:29-41 | at most four cards, each passing the grade and type tests |
| DashboardView.DisplayIsPrefix | screens/Dashboard.tsx:29-41 | the cards are the first four matching worksheets in order, and all of them when there are at most four |
| DashboardView.TeacherSeesNewest | screens/Dashboard.tsx:29-41 | a teacher sees the four newest worksheets |
| DashboardView.StudentSeesPractice | screens/Dashboard.tsx:31-37 | a student sees only self-practice and essay worksheets of the student's grade |
| DashboardView.WorksheetLabel | screens/Dashboard.tsx:44-48 | the label is self practice, essay or practice, following the type |
| DashboardView.LabelsAgreeWithLibrary | screens/Dashboard.tsx:44-48 | a card is labelled self practice or essay exactly when that library view lists it |
| DashboardView.Cards | screens/Dashboard.tsx:44-110 | one card per shown worksheet, with its label |
| DashboardView.NewestBadgeOnce | screens/Dashboard.tsx:107-110 | only the first card carries the newest badge, and it is the newest matching worksheet |
| ExamList.MockExams | screens/Exams.tsx:14-45 | three samples of 15, 45 and 90 minutes |
| ExamList.AllExams | screens/Exams.tsx:47 | the stored exams come first, then the samples |
| ExamList.FilteredExams | screens/Exams.tsx:49-55 | every listed exam is in the chosen duration range |
| ExamList.Bucket | screens/Exams.tsx:49-55 | every duration has a bucket other than "all" |
| ExamList.BucketExclusive | screens/Exams.tsx:49-55 | a duration passes a bucket filter exactly when it is its bucket |
| ExamList.BucketsPartition | screens/Exams.tsx:49-55 | the three buckets split the list between them; "all" keeps it whole; every filter keeps the order |
| ExamList.SamplesFillBuckets | screens/Exams.tsx:14-55 | no filter of the full list is empty |
| ExamList.BadgeFollowsBucket | screens/Exams.tsx:57-67 | each colour and icon appears exactly for its bucket |
| Scores.SumDiemAppend | screens/Leaderboard.tsx:11-16 | the sum of a concatenation is the sum of the sums |
| Scores.SumDiemNonNegative | screens/Leaderboard.tsx:11-16 | non-negative marks have a non-negative sum |
| Scores.TotalIsYearSum | screens/Leaderboard.tsx:11-20 | the total is the sum of the year's marks in term order, and the count is their number |
| Leaderboard.InsertByScore | screens/Leaderboard.tsx:37 | one more student; what it holds and its order are stated by `Leaderboard.InsertKeepsStudents` and `Leaderboard.InsertKeepsOrder` |
| Leaderboard.RankStudents | screens/Leaderboard.tsx:31-37 | as many students as given; the permutation and the order are stated by `Leaderboard.RankingIsSortedPermutation` |
| Leaderboard.InsertKeepsStudents | screens/Leaderboard.tsx:31-37 | inserting adds exactly the student |
| Leaderboard.InsertKeepsOrder | screens/Leaderboard.tsx:31-37 | inserting into a ranked list keeps it ranked |
| Leaderboard.RankingIsSortedPermutation | screens/Leaderboard.tsx:31-37 | the ranking holds exactly the students and is non-increasing by total score |
| Leaderboard.LeaderboardView | screens/Leaderboard.tsx:39-42 | the empty state shows exactly when there are no students |
| Leaderboard.PodiumPartition | screens/Leaderboard.tsx:39-42 | the places and the rest split the ranking in order |
| Leaderboard.PodiumOrdered | screens/Leaderboard.tsx:39-42 | the podium follows the ranking, and every other student scores at most the third place |
| Leaderboard.Initials | screens/Leaderboard.tsx:22-26 | at most two characters, with no lower-case ASCII letter |
| Leaderboard.InitialsOfTwoWords | screens/Leaderboard.tsx:22-26 | two or more words give the upper-cased first letters of the first two |
| Leaderboard.InitialsNeverUnknown | screens/Leaderboard.tsx:22-26 | the `'?'` fallback never applies, because splitting always gives a part |
| ResultsView.TermEntries | screens/Results.tsx:12-17 | one bar per mark, with the subject and term name and the mark |
| ResultsView.ChartData | screens/Results.tsx:12-17 | the first term's bars, one per mark with the subject and "HK1", then the second term's with "HK2" |
| ResultsView.SumValuesAppend | screens/Results.tsx:18 | the sum of a concatenation is the sum of the sums |
| ResultsView.TermSum | screens/Results.tsx:12-18 | a term's bars sum to the term's marks |
| ResultsView.ProgressMatchesLeaderboard | screens/Results.tsx:12-21 | the progress total is the leaderboard total, and the exercise count is the leaderboard count |
| ResultsView.ClassGrade | screens/Results.tsx:24 | a grade exists exactly when the class is not `--` and has a digit run |
| ResultsView.GradeAsOnDashboard | screens/Results.tsx:24 | the progress screen reads the same grade as the student dashboard |
| ResultsView.TotalAvailable | screens/Results.tsx:25-29 | the number of worksheets whose grade is the student's, or all of them when the class names no grade |
| ResultsView.DisplayTotal | screens/Results.tsx:30 | the maximum of the available count and five more than the exercises done |
| ResultsView.RatioBelowOne | screens/Results.tsx:49-52 | a count below the total gives a ratio below one |
| ResultsView.ProgressBelowFull | screens/Results.tsx:30-52 | the divisor is positive and the bar never fills |
| AttendanceBook.Existing | screens/Attendance.tsx:19 | the found record belongs to that day and student, and none is found exactly when no record does |
| AttendanceBook.Toggle | screens/Attendance.tsx:17-35 | a failed insert changes nothing; a successful one appends the new record |
| AttendanceBook.PresentIsExisting | screens/Attendance.tsx:19-70 | a row shows the record that the toggle reads |
| AttendanceBook.ToggleFlips | screens/Attendance.tsx:17-70 | after a toggle the day and student have exactly one record, and the presence is flipped |
| AttendanceBook.ToggleKeepsOthers | screens/Attendance.tsx:33 | the records of other days and students stay the same and in order |
| Lists.Find | screens/Remarks.tsx:17 | `find`: a found element passes the test and comes before every other passing one; none is found exactly when no element passes |
| RemarkBook.SelectedStudent | screens/Remarks.tsx:17 | a found student has the id, and none is found exactly when no student has it |
| RemarkBook.InitialInput | screens/Remarks.tsx:19-25 | the input holds the selected student's remark, and is empty without a selected student |
| RemarkBook.SaveRemark | screens/Remarks.tsx:27-54 | no selection or a failed update changes nothing; only the selected student's remark changes |
| RemarkBook.SetRemark | screens/Remarks.tsx:32-35 | the students with the id take the remark; every other student is unchanged |
| RemarkBook.SavedRemarkReloads | screens/Remarks.tsx:19-42 | after a save the input shows the saved remark again for the same student |
| RemarkBook.SavedSelection | screens/Remarks.tsx:17-41 | after a successful save the same student is selected, now holding the typed remark |
| RemarkBook.OthersKeepRemarks | screens/Remarks.tsx:39-41 | another student's remark does not change |
| RemarkBook.OthersKeepSelection | screens/Remarks.tsx:17-41 | selecting another student finds the same record as before |
| ClassAdmin.ClassStats | screens/AdminClasses.tsx:21-30 | one card per class, counting the students whose class is that class, with rate 95 exactly when the class has students |
| ClassAdmin.CardCountsEnrolled | screens/AdminClasses.tsx:21-30 | a card's count is positive exactly when some student is in that class |
| ClassAdmin.SaveClass | screens/AdminClasses.tsx:46-83 | a blank name is ignored; an add is passed on with the trimmed name; only a successful update changes the store |
| ClassAdmin.UpdateClass | screens/AdminClasses.tsx:52-56 | every class with the edited id takes the new name and grade; every other class is unchanged |
| ClassAdmin.RenameClass | screens/AdminClasses.tsx:61-66 | the same number of students; which students move is stated by `ClassAdmin.RenameMovesStudents` |
| ClassAdmin.RenameMovesStudents | screens/AdminClasses.tsx:61-68 | renaming moves every student of the old class to the new name, and other classes are untouched |
| ClassAdmin.RenameKeepsClassSize | screens/AdminClasses.tsx:61-68 | the renamed class keeps its student count |
| ClassAdmin.StudentsStayWithoutCascade | screens/AdminClasses.tsx:61-71 | a failed cascade leaves every student where they were |
| ClassAdmin.DeleteClass | screens/AdminClasses.tsx:85-98 | students are never touched; unconfirmed or failed deletes change nothing |
| ClassAdmin.DeleteRemovesOnly | screens/AdminClasses.tsx:85-98 | a delete removes exactly the classes with that id, keeping the order |
| LessonCatalog.ToggleGrade | screens/LessonList.tsx:13-24 | clicking the open grade closes it, and any other click opens that grade |
| LessonCatalog.ToggleTwice | screens/LessonList.tsx:22-24 | a second click undoes the first exactly when the grade was open |
| LessonCatalog.GradeLessons | screens/LessonList.tsx:28-31 | the listed lessons are of the grade, in list order |
| LessonCatalog.EmptySearchKeepsGrade | screens/LessonList.tsx:28-31 | an empty search lists every lesson of the grade |
| LessonCatalog.SearchIgnoresCase | screens/LessonList.tsx:28-31 | on the characters whose case mapping is modelled, an upper-cased term finds the same lessons |
| LessonCatalog.ListedIffMatches | screens/LessonList.tsx:28-31 | a lesson is listed exactly when it matches |
| LessonCatalog.SectionHiddenIff | screens/LessonList.tsx:33 | a section hides exactly when a non-empty search matches nothing in it |
| LessonQuiz.ChoiceExercises | screens/LessonDetail.tsx:19 | every listed exercise is multiple choice |
| LessonQuiz.EssayExercises | screens/LessonDetail.tsx:20 | every listed exercise is an essay |
| LessonQuiz.KindsPartition | screens/LessonDetail.tsx:19-20 | every exercise is in exactly one of the two lists |
| LessonQuiz.QuizKey | screens/LessonDetail.tsx:99 | the key is non-empty, and an exercise without id is keyed by decimal digits |
| LessonQuiz.Submit | screens/LessonDetail.tsx:14-17 | the clicked option is recorded and its feedback shown; other answers are kept |
| LessonQuiz.Feedback | screens/LessonDetail.tsx:110-117 | feedback shows exactly after a click |
| LessonQuiz.SubmitKeepsConsistent | screens/LessonDetail.tsx:14-17 | shown feedback always has a recorded answer |
| LessonQuiz.FeedbackAfterSubmit | screens/LessonDetail.tsx:110-117 | after a click the feedback says whether the option is exactly the stored correct one |
| LessonQuiz.ResubmitOverwrites | screens/LessonDetail.tsx:14-17 | only the last click counts |
| LessonQuiz.AnswersIndependent | screens/LessonDetail.tsx:14-117 | a click does not change another exercise's feedback |
| LessonQuiz.KeysOfListDistinct | screens/LessonDetail.tsx:99 | distinct ids, or no ids at different positions, never share answer state |
| LessonQuiz.NatToStringInjective | screens/LessonDetail.tsx:99 | different indices are written differently |
| LessonAdmin.FindGrade | screens/AdminLessons.tsx:27-34 | a found plan has the grade, and none is found exactly when no plan has it |
| LessonAdmin.FindChapter | screens/AdminLessons.tsx:27-34 | a found chapter has the title, and none is found exactly when no chapter has it |
| LessonAdmin.GetChapters | screens/AdminLessons.tsx:27-29 | an unknown grade has no chapters; a known one has its chapter titles in order |
| LessonAdmin.GetLessonsInChapter | screens/AdminLessons.tsx:30-34 | an unknown grade or chapter has no lessons |
| LessonAdmin.LookupsAgree | screens/AdminLessons.tsx:27-34 | a chapter with lessons is among the grade's chapters |
| LessonAdmin.LessonChange | screens/AdminLessons.tsx:55-63 | the custom choice opens the custom title; a listed lesson sets the title and clears the requirements; nothing else changes |
| LessonAdmin.LessonChangeIdempotent | screens/AdminLessons.tsx:55-63 | choosing the same lesson twice is choosing it once |
| LessonAdmin.GradeDefaults | screens/AdminLessons.tsx:36-53 | a new lesson gets the grade's first chapter and first lesson |
| LessonAdmin.DefaultsAreListed | screens/AdminLessons.tsx:36-53 | the defaults are listed options of the grade |
| LessonAdmin.FilteredLessons | screens/AdminLessons.tsx:111 | no grade selected lists everything; otherwise an order-keeping sublist that holds a lesson exactly when it is of that grade |
| LessonAdmin.LessonCounts | screens/AdminLessons.tsx:114-117 | there are counts for grades 6 to 9 only |
| LessonAdmin.CountsAgreeWithFilter | screens/AdminLessons.tsx:111-117 | a grade's count is the length of its filtered list |
| LessonAdmin.CountsCoverAll | screens/AdminLessons.tsx:111-117 | the four counts sum to the number of lessons of grades 6 to 9 |
| LessonAdmin.ExerciseRows | screens/AdminLessons.tsx:98-103 | one row per exercise, in order, tied to the lesson |
| LessonAdmin.SaveLesson | screens/AdminLessons.tsx:80-109 | a missing title or chapter is refused; only a saved lesson changes the store; only a failed insert fails; a new lesson's row is appended and an existing lesson's row is replaced when the update succeeds |
| LessonAdmin.UpdateRows | screens/AdminLessons.tsx:92 | the rows with the lesson's id take the editor's fields; every other row is unchanged |
| LessonAdmin.SaveReplacesExercises | screens/AdminLessons.tsx:92-103 | a saved lesson's exercises are exactly its form's exercises; other lessons keep theirs |
| Accounts.CreateAccount | screens/AdminStudents.tsx:100-122 | the name is taken exactly when the lookup succeeds and finds it; success appends the student account and profile; otherwise profiles are unchanged |
| Accounts.RollbackRestores | screens/AdminStudents.tsx:119-122 | a failed profile insert that is rolled back leaves the accounts as before |
| Accounts.CreatedUsernameUnique | screens/AdminStudents.tsx:100-122 | after a checked creation the user name belongs to exactly one account |
| Accounts.FilteredStudents | screens/AdminStudents.tsx:65-67 | an empty class filter lists everyone; otherwise an order-keeping sublist that holds a student exactly when the student is of that class |
| Accounts.SanitizeUsername | screens/AdminStudents.tsx:297 | the typed name loses its whitespace and is lower-cased |
| Accounts.SanitizedIsNormal | screens/AdminStudents.tsx:297 | a sanitised name is unchanged by sanitising, trimming or lower-casing again |
| Accounts.NormalizeStudent | screens/AdminStudents.tsx:70-73 | fields are trimmed, and a blank password becomes "123456" |
| Accounts.SaveStudent | screens/AdminStudents.tsx:69-135 | missing fields are refused; an edit changes only the edited profile; a new student goes through account creation |
| Accounts.EditChangesOnlyNameClassUsername | screens/AdminStudents.tsx:91-98 | an edit changes the name, class and user name only |
| Accounts.EditProfiles | screens/AdminStudents.tsx:91-95 | the profile with the edited id takes the form's name, class and user name and keeps its id, account and remark; every other profile is unchanged |
| Accounts.Login | screens/Login.tsx:21-52 | success holds exactly when the fetch succeeds and exactly one account matches the trimmed, lower-cased name and the untrimmed password; its password is not returned; every failure gives one message |
| Accounts.Register | screens/Login.tsx:54-115 | missing fields are refused; a creation failure keeps the form with the message of its outcome; success switches to login with the name filled |
| Accounts.RegisterError | screens/Login.tsx:77-108 | a taken name gives the fixed message, a failed account insert its own message, a failed profile insert its message after the profile prefix |
| Accounts.RegisterFailureMessages | screens/Login.tsx:70-108 | a taken name is reported exactly when the lookup finds the cleaned name, and each failure shows its own message |
| Accounts.RegisterThenLogin | screens/Login.tsx:26-109 | after registering, logging in with the same name and password succeeds |
| Accounts.PasswordNotTrimmed | screens/Login.tsx:29-34 | a password with surrounding spaces is not trimmed before comparing |

## Left out

- Rendering, styles, MathJax typesetting, sounds, animations and spinners. They do not change state.
- The three-second saved timer and the attendance "syncing" marker. The timer is the explicit event `WorksheetSession.SavedTimerElapsed`.
- `FileReader`, `atob`, `Blob` and object URLs. Their results are parameters or plain strings.
- The blob URL of the file viewer is left out for the same reason.
- Concurrency and stale closures of the asynchronous handlers. Every handler is modelled as one atomic step that receives its call outcomes.
- Local storage and the session restore in `App.tsx`.
- The response schema and prompt text of the model calls. Only the deterministic wrapping around them is modelled.
- `generateLessonContent` in `services/geminiService.ts`, and the AI lesson generation in `AdminLessons` that uses it. They produce model text with no logic beyond the model call.
- `QuizSystem`, `AIChat` and `AdminDashboard` screens. Apart from the `askGemini` wrapper, they only display data.
- Text.LowerChar: case mapping covers Basic Latin, Latin-1, Latin Extended-A, `Ơ`, `Ư` and Latin Extended Additional, which hold every Vietnamese letter. `İ`, whose lower case is two characters, and the letters of other scripts are left unchanged.
- Text.UpperChar: the inverse mapping on the same blocks. `ß`, `ŉ`, `ı`, `ſ` and `µ`, whose upper case is two characters or lies outside these blocks, are left unchanged.
- Floating point. Marks are exact reals, worksheet scores count half-points, and `toFixed` and `Math.round` in the display are not modelled.
- `toLocaleDateString`. The formatted date is a parameter of the export.
- WorksheetLibrary.ExamHtml: the document is modelled without the style block and without the line breaks and indentation of the template literals; the tags and texts appear in the same order.
- Leaderboard.Initials: characters are code points, where `n[0]` and `substring(0, 2)` count UTF-16 code units. A word that starts outside the Basic Multilingual Plane is not modelled.
- Leaderboard.RankStudents: the contract states a permutation in non-increasing score order. It does not state the stability of `Array.prototype.sort`.
- The remote delete of old attendance rows. The source awaits it but never reads its result, so it has no effect on the local list, which is all the model keeps.
- The curriculum table in `constants.tsx`. It is a parameter with its shape modelled, not its contents.
- JS object-key quirks. Keys such as `__proto__` and the integer-like key order of records are not modelled.
- Accounts.CreateAccount: a lookup that returns an error counts as "user name free", as in the source. A timeout of the profile insert throws without the rollback; the model treats it as a returned error.
- LessonAdmin.SaveLesson: errors of the exercise delete and re-insert are not read by the source, and the model ignores them in the same way.
- The student delete of `AdminStudents` (`executeDelete`). It deletes the `hoc_sinh` row, then, for a student with a user name, the `nguoi_dung` row with that user name, whose failure only logs a warning, and then refreshes. It changes only remote rows, which the model does not keep.

=== FILE: accounts.dfy ===
/** Accounts (`screens/AdminStudents.tsx`, `screens/Login.tsx`): the teacher's student form
    and the login/registration form. Both normalise the typed fields, check the required
    ones before any store call, refuse a username already taken, create the account (always
    with the student role) and then the student profile, and delete the account again when
    the profile cannot be created. The store is an account table and a profile table; the
    answer of each store call is a parameter. */
module Accounts {
  import opened Wrappers
  import opened Text
  import opened Lists
  import opened Types

  // ---------------------------------------------------------------- store

  /** A profile row as inserted: name, class, username, owning account and the remark. */
  datatype Profile = Profile(id: string, ten: string, lop: string, username: string, userId: string, nhanXet: string)

  datatype AccountStore = AccountStore(users: seq<NguoiDung>, profiles: seq<Profile>)

  /** The answers of the store to one account creation: whether the username lookup
      answered (a failed lookup reads as "not taken"), whether the account insert succeeded
      and the id it returned ("" when none came back), whether the profile insert succeeded
      and the id given to the profile, and whether the clean-up delete succeeded. */
  datatype AccountCalls = AccountCalls(lookupOk: bool, userOk: bool, newUserId: string,
                                       profileOk: bool, profileId: string, rollbackOk: bool)

  datatype CreateOutcome =
    | UsernameTaken
    | AccountFailed
    | NoAccountId
    | ProfileFailed
    | Created

  datatype CreateResult = CreateResult(store: AccountStore, outcome: CreateOutcome)

  predicate HasUsername(name: string, u: NguoiDung) {
    u.username == name
  }

  predicate NotUserId(id: string, u: NguoiDung) {
    u.id != id
  }

  /** The username is taken when some account has exactly that username. */
  predicate Taken(store: AccountStore, username: string) {
    exists i :: 0 <= i < |store.users| && store.users[i].username == username
  }

  /** The shared creation sequence of both forms. `checkId` is the teacher form's extra
      check that the insert returned an id. */
  function CreateAccount(store: AccountStore, username: string, password: string, ten: string, lop: string,
                         welcome: string, checkId: bool, calls: AccountCalls): (r: CreateResult)
    ensures r.outcome == UsernameTaken <==> calls.lookupOk && Taken(store, username)
    ensures r.outcome in {UsernameTaken, AccountFailed} ==> r.store == store
    ensures r.outcome == Created ==>
      r.store.users == store.users + [NguoiDung(calls.newUserId, username, password, HocSinhRole)]
      && r.store.profiles == store.profiles + [Profile(calls.profileId, ten, lop, username, calls.newUserId, welcome)]
    ensures r.outcome != Created ==> r.store.profiles == store.profiles
  {
    if calls.lookupOk && Taken(store, username) then CreateResult(store, UsernameTaken)
    else if !calls.userOk then CreateResult(store, AccountFailed)
    else
      var user := NguoiDung(calls.newUserId, username, password, HocSinhRole);
      var withUser := store.(users := store.users + [user]);
      if checkId && calls.newUserId == "" then CreateResult(withUser, NoAccountId)
      else if calls.profileOk then
        var profile := Profile(calls.profileId, ten, lop, username, calls.newUserId, welcome);
        CreateResult(withUser.(profiles := store.profiles + [profile]), Created)
      else if calls.rollbackOk then
        CreateResult(withUser.(users := Filter(withUser.users, u => NotUserId(calls.newUserId, u))), ProfileFailed)
      else CreateResult(withUser, ProfileFailed)
  }

  /** A profile that cannot be created leaves no account behind: when the clean-up delete
      succeeds and the new account's id was not in use, the store is as before. */
  lemma RollbackRestores(store: AccountStore, username: string, password: string, ten: string, lop: string,
                         welcome: string, checkId: bool, calls: AccountCalls)
    requires !(calls.lookupOk && Taken(store, username)) && calls.userOk && !calls.profileOk && calls.rollbackOk
    requires !checkId || calls.newUserId != ""
    requires forall i :: 0 <= i < |store.users| ==> store.users[i].id != calls.newUserId
    ensures CreateAccount(store, username, password, ten, lop, welcome, checkId, calls)
      == CreateResult(store, ProfileFailed)
  {
    var user := NguoiDung(calls.newUserId, username, password, HocSinhRole);
    FilterAppend(store.users, [user], u => NotUserId(calls.newUserId, u));
    FilterAll(store.users, u => NotUserId(calls.newUserId, u));
    assert Filter([user], u => NotUserId(calls.newUserId, u)) == [];
  }

  /** When the lookup answers, a creation never makes a second account with the same
      username. */
  lemma {:induction false} CreatedUsernameUnique(store: AccountStore, username: string, password: string,
                                                 ten: string, lop: string, welcome: string, checkId: bool,
                                                 calls: AccountCalls)
    requires calls.lookupOk
    requires CreateAccount(store, username, password, ten, lop, welcome, checkId, calls).outcome == Created
    ensures |Filter(CreateAccount(store, username, password, ten, lop, welcome, checkId, calls).store.users,
                    u => HasUsername(username, u))| == 1
  {
    var user := NguoiDung(calls.newUserId, username, password, HocSinhRole);
    FilterAppend(store.users, [user], u => HasUsername(username, u));
    FilterNone(store.users, u => HasUsername(username, u));
    assert Filter([user], u => HasUsername(username, u)) == [user];
  }

  // ---------------------------------------------------------------- teacher form

  /** `filteredStudents`: every student without a class filter ("" for none), else the
      students of exactly that class. */
  function FilteredStudents(students: seq<HocSinh>, filterClass: string): (r: seq<HocSinh>)
    ensures filterClass == "" ==> r == students
    ensures filterClass != "" ==> forall i :: 0 <= i < |r| ==> r[i].lop == filterClass
    ensures IsSubsequence(r, students)
    ensures filterClass != "" ==> forall s :: s in r <==> s in students && s.lop == filterClass
  {
    if filterClass == "" then
      FilterAll(students, s => true);
      FilterIsSubsequence(students, s => true);
      students
    else
      FilterIsSubsequence(students, s => InFilterClass(filterClass, s));
      FilterMembers(students, s => InFilterClass(filterClass, s));
      Filter(students, s => InFilterClass(filterClass, s))
  }

  predicate InFilterClass(c: string, s: HocSinh) {
    s.lop == c
  }

  /** The username field's input filter: every whitespace character removed, the rest
      lower-cased. */
  function SanitizeUsername(typed: string): (r: string)
    ensures forall i :: 0 <= i < |r| ==> !IsSpace(r[i]) && !('A' <= r[i] <= 'Z')
  {
    Lower(Drop(typed, IsSpace))
  }

  lemma LowerLower(s: string)
    ensures Lower(Lower(s)) == Lower(s)
  {
  }

  /** A username typed through the field is already in the form the save stores: the save's
      trimming and lower-casing leave it unchanged. */
  lemma SanitizedIsNormal(typed: string)
    ensures Lower(Trim(SanitizeUsername(typed))) == SanitizeUsername(typed)
  {
    var r := SanitizeUsername(typed);
    TrimTrimmed(r);
    LowerLower(Drop(typed, IsSpace));
  }

  /** The student form: `id` is "" for a new student. */
  datatype StudentForm = StudentForm(id: string, ten: string, lop: string, username: string, password: string)

  const DEFAULT_PASSWORD: string := "123456"
  const ADMIN_WELCOME: string := "Chào mừng em!"

  /** The fields as the save uses them: name and class trimmed, username trimmed and
      lower-cased, password trimmed and defaulting to "123456" when blank. */
  function NormalizeStudent(f: StudentForm): (g: StudentForm)
    ensures g.id == f.id && g.ten == Trim(f.ten) && g.lop == Trim(f.lop)
    ensures g.username == Lower(Trim(f.username))
    ensures g.password != ""
    ensures Trim(f.password) != "" ==> g.password == Trim(f.password)
  {
    var p := Trim(f.password);
    StudentForm(f.id, Trim(f.ten), Trim(f.lop), Lower(Trim(f.username)), if p == "" then DEFAULT_PASSWORD else p)
  }

  datatype StudentOutcome =
    | MissingFields
    | StudentUpdated
    | UpdateFailed
    | Creation(outcome: CreateOutcome)

  datatype StudentResult = StudentResult(store: AccountStore, outcome: StudentOutcome)

  /** An edited profile: name, class and username replaced, everything else kept. */
  function EditProfiles(profiles: seq<Profile>, f: StudentForm): (r: seq<Profile>)
    ensures |r| == |profiles|
    ensures forall i :: 0 <= i < |r| && profiles[i].id == f.id ==>
      r[i].ten == f.ten && r[i].lop == f.lop && r[i].username == f.username
      && r[i].id == profiles[i].id && r[i].userId == profiles[i].userId && r[i].nhanXet == profiles[i].nhanXet
    ensures forall i :: 0 <= i < |r| && profiles[i].id != f.id ==> r[i] == profiles[i]
  {
    seq(|profiles|, i requires 0 <= i < |profiles| =>
      if profiles[i].id == f.id then profiles[i].(ten := f.ten, lop := f.lop, username := f.username)
      else profiles[i])
  }

  /** `handleSave` of the student form. A missing name, username or class stops it before
      any store call; an edit writes name, class and username of the student; a new student
      goes through the account creation. */
  function SaveStudent(store: AccountStore, form: StudentForm, updateOk: bool, calls: AccountCalls): (r: StudentResult)
    ensures r.outcome == MissingFields <==> Trim(form.ten) == "" || Trim(form.username) == "" || Trim(form.lop) == ""
    ensures r.outcome in {MissingFields, UpdateFailed} ==> r.store == store
    ensures r.outcome == StudentUpdated ==> form.id != "" && r.store.users == store.users
    ensures r.outcome == Creation(Created) ==>
      var g := NormalizeStudent(form);
      form.id == "" && r.store.users == store.users + [NguoiDung(calls.newUserId, g.username, g.password, HocSinhRole)]
  {
    var g := NormalizeStudent(form);
    if g.ten == "" || g.username == "" || g.lop == "" then
      assert Lower(Trim(form.username)) == "" <==> Trim(form.username) == "";
      StudentResult(store, MissingFields)
    else if form.id != "" then
      if updateOk then StudentResult(store.(profiles := EditProfiles(store.profiles, g)), StudentUpdated)
      else StudentResult(store, UpdateFailed)
    else
      var c := CreateAccount(store, g.username, g.password, g.ten, g.lop, ADMIN_WELCOME, true, calls);
      StudentResult(c.store, Creation(c.outcome))
  }

  /** An edit changes only the name, class and username of the edited student: its account
      link, its remark and every other profile stay, and no password is written. */
  lemma EditChangesOnlyNameClassUsername(store: AccountStore, form: StudentForm, calls: AccountCalls)
    requires form.id != "" && Trim(form.ten) != "" && Trim(form.username) != "" && Trim(form.lop) != ""
    ensures var r := SaveStudent(store, form, true, calls);
      var g := NormalizeStudent(form);
      r.outcome == StudentUpdated && r.store.users == store.users
      && |r.store.profiles| == |store.profiles|
      && forall i :: 0 <= i < |store.profiles| ==>
        (if store.profiles[i].id == form.id
         then r.store.profiles[i] == store.profiles[i].(ten := g.ten, lop := g.lop, username := g.username)
         else r.store.profiles[i] == store.profiles[i])
  {
    assert Lower(Trim(form.username)) != "";
  }

  // ---------------------------------------------------------------- login form

  const LOGIN_ERROR: string := "Tên đăng nhập hoặc " + "mật khẩu không đúng."
  const MISSING_INFO: string := "Vui lòng điền " + "đầy đủ thông tin."

  predicate Credentials(username: string, password: string, u: NguoiDung) {
    u.username == username && u.password == password
  }

  /** The signed-in user is this account, found by these credentials. */
  predicate Signed(account: NguoiDung, user: NguoiDung, username: string, password: string) {
    account.id == user.id && account.vaiTro == user.vaiTro && Credentials(username, password, account)
  }

  /** `handleLogin`: the username trimmed and lower-cased, the password as typed; the query
      must return exactly one account (as `single` demands), and every failure gives the
      same message. The signed-in user carries no password. */
  function Login(users: seq<NguoiDung>, username: string, password: string, fetchOk: bool): (r: Result<NguoiDung, string>)
    ensures r.Err? ==> r.error == LOGIN_ERROR
    ensures r.Ok? ==> r.value.username == Lower(Trim(username)) && r.value.password == ""
    ensures r.Ok? ==> exists i :: 0 <= i < |users| && Signed(users[i], r.value, Lower(Trim(username)), password)
    ensures r.Ok? <==> fetchOk && |Filter(users, u => Credentials(Lower(Trim(username)), password, u))| == 1
  {
    var clean := Lower(Trim(username));
    var found := Filter(users, u => Credentials(clean, password, u));
    FilterMembers(users, u => Credentials(clean, password, u));
    if fetchOk && |found| == 1 then
      assert found[0] in users;
      Ok(NguoiDung(found[0].id, found[0].username, "", found[0].vaiTro))
    else Err(LOGIN_ERROR)
  }

  /** The registration/login form. */
  datatype LoginForm = LoginForm(registering: bool, username: string, password: string, fullName: string,
                                 className: string, error: Option<string>)

  const REGISTER_WELCOME: string := "Chào mừng em đến " + "với Math.TQT"
  const USERNAME_TAKEN: string := "Tên đăng nhập này " + "đã được sử dụng."
  const PROFILE_ERROR: string := "Lỗi tạo hồ sơ " + "học sinh: "

  /** The message the registration form shows for a failed creation: the fixed message for
      a taken name, the profile insert's message after a prefix, and otherwise the account
      insert's own message. */
  function RegisterError(outcome: CreateOutcome, accountError: string, profileError: string): (m: string)
    ensures outcome == UsernameTaken ==> m == USERNAME_TAKEN
    ensures outcome == ProfileFailed ==> m == PROFILE_ERROR + profileError
    ensures outcome == AccountFailed ==> m == accountError
  {
    match outcome
    case UsernameTaken => USERNAME_TAKEN
    case ProfileFailed => PROFILE_ERROR + profileError
    case _ => accountError
  }

  /** `handleRegister`: a missing username, password, name or class is refused before any
      store call (the password is not trimmed); then the account creation runs, and on
      success the form returns to the login mode with the password cleared. A failure
      shows the message of its outcome; `accountError` and `profileError` are the messages
      of the two inserts' errors. */
  function Register(store: AccountStore, form: LoginForm, calls: AccountCalls, accountError: string,
                    profileError: string): (r: (AccountStore, LoginForm, Option<CreateOutcome>))
    ensures r.2.None? <==> Lower(Trim(form.username)) == "" || form.password == "" || Trim(form.fullName) == ""
                           || Trim(form.className) == ""
    ensures r.2.None? ==> r.0 == store && r.1 == form.(error := Some(MISSING_INFO))
    ensures r.2 == Some(Created) ==> r.1 == form.(registering := false, password := "", error := None)
    ensures r.2.Some? && r.2 != Some(Created) ==>
      r.1 == form.(error := Some(RegisterError(r.2.value, accountError, profileError)))
  {
    var clean := Lower(Trim(form.username));
    var name := Trim(form.fullName);
    var cls := Trim(form.className);
    if clean == "" || form.password == "" || name == "" || cls == "" then
      (store, form.(error := Some(MISSING_INFO)), None)
    else
      var c := CreateAccount(store, clean, form.password, name, cls, REGISTER_WELCOME, false, calls);
      if c.outcome == Created then (c.store, form.(registering := false, password := "", error := None), Some(Created))
      else (c.store, form.(error := Some(RegisterError(c.outcome, accountError, profileError))), Some(c.outcome))
  }

  /** Each failed registration shows its own message: the fixed one for a taken name, which
      happens exactly when the lookup succeeds and finds the cleaned name, the account
      insert's message, or the profile insert's message after its prefix. */
  lemma RegisterFailureMessages(store: AccountStore, form: LoginForm, calls: AccountCalls, accountError: string,
                                profileError: string)
    ensures var r := Register(store, form, calls, accountError, profileError);
      r.2 == Some(UsernameTaken) <==> r.2.Some? && calls.lookupOk && Taken(store, Lower(Trim(form.username)))
    ensures var r := Register(store, form, calls, accountError, profileError);
      r.2 == Some(UsernameTaken) ==> r.1.error == Some(USERNAME_TAKEN)
    ensures var r := Register(store, form, calls, accountError, profileError);
      r.2 == Some(AccountFailed) ==> r.1.error == Some(accountError)
    ensures var r := Register(store, form, calls, accountError, profileError);
      r.2 == Some(ProfileFailed) ==> r.1.error == Some(PROFILE_ERROR + profileError)
  {
    var r := Register(store, form, calls, accountError, profileError);
    if r.2.Some? && r.2 != Some(Created) {
      assert r.1.error == Some(RegisterError(r.2.value, accountError, profileError));
    }
  }

  /** A student who registers can then sign in with the same username, however it is
      spaced or capitalised, and the same password; the account has the student role. */
  lemma RegisterThenLogin(store: AccountStore, form: LoginForm, calls: AccountCalls, accountError: string,
                          profileError: string, typed: string)
    requires calls.lookupOk
    requires Register(store, form, calls, accountError, profileError).2 == Some(Created)
    requires Lower(Trim(typed)) == Lower(Trim(form.username))
    ensures var users := Register(store, form, calls, accountError, profileError).0.users;
      var r := Login(users, typed, form.password, true);
      r.Ok? && r.value.id == calls.newUserId && r.value.vaiTro == HocSinhRole
  {
    var clean := Lower(Trim(form.username));
    var user := NguoiDung(calls.newUserId, clean, form.password, HocSinhRole);
    assert Register(store, form, calls, accountError, profileError).0.users == store.users + [user];
    LoginFindsAppended(store.users, user, typed);
  }

  /** An account appended to accounts with other usernames is the one sign-in finds, for
      any spelling of its username that trims and lower-cases to it. */
  lemma LoginFindsAppended(existing: seq<NguoiDung>, user: NguoiDung, typed: string)
    requires user.username == Lower(Trim(typed))
    requires forall i :: 0 <= i < |existing| ==> existing[i].username != user.username
    ensures var r := Login(existing + [user], typed, user.password, true);
      r.Ok? && r.value.id == user.id && r.value.vaiTro == user.vaiTro
  {
    var p := u => Credentials(user.username, user.password, u);
    FilterAppend(existing, [user], p);
    FilterNone(existing, p);
    assert Filter([user], p) == [user];
    FilterExt(existing + [user], u => Credentials(Lower(Trim(typed)), user.password, u), p);
  }

  /** The password is compared as typed: with no account holding exactly the typed
      password, sign-in fails, so a stray space fails where the trimmed password would
      succeed. */
  lemma PasswordNotTrimmed(users: seq<NguoiDung>, username: string, password: string, fetchOk: bool)
    requires forall i :: 0 <= i < |users| ==> users[i].password != password
    ensures Login(users, username, password, fetchOk) == Err(LOGIN_ERROR)
  {
    FilterNone(users, u => Credentials(Lower(Trim(username)), password, u));
  }
}

=== FILE: admin_classes.dfy ===
/** Class management (`screens/AdminClasses.tsx`): the per-class statistics, saving a new
    or edited class with the renaming of its students, and deleting a class. The store's
    class table and student table are a pair of lists; each store call is a success flag. */
module ClassAdmin {
  import opened Wrappers
  import opened Text
  import opened Lists
  import opened Types

  // ---------------------------------------------------------------- statistics

  /** The student is enrolled in the class of that name. */
  predicate InClass(name: string, s: HocSinh) {
    s.lop == name
  }

  /** The students whose class is exactly `name`, in list order. */
  function ClassMembers(students: seq<HocSinh>, name: string): seq<HocSinh> {
    Filter(students, s => InClass(name, s))
  }

  function ClassSize(students: seq<HocSinh>, name: string): nat {
    |ClassMembers(students, name)|
  }

  /** One card of the class list. */
  datatype ClassStat = ClassStat(id: string, name: string, khoi: string, count: nat, attendanceRate: int)

  /** `classStats`: one card per class, in order, counting the students of the class; the
      attendance rate is the placeholder 95 for a class with students and 0 otherwise. */
  function ClassStats(classes: seq<LopHoc>, students: seq<HocSinh>): (r: seq<ClassStat>)
    ensures |r| == |classes|
    ensures forall i :: 0 <= i < |r| ==>
      r[i].id == classes[i].id && r[i].name == classes[i].tenLop && r[i].khoi == classes[i].khoi
    ensures forall i :: 0 <= i < |r| ==> r[i].count == ClassSize(students, classes[i].tenLop)
    ensures forall i :: 0 <= i < |r| ==> r[i].count <= |students|
    ensures forall i :: 0 <= i < |r| ==>
      (r[i].attendanceRate == 95 <==> r[i].count > 0) && (r[i].attendanceRate == 0 <==> r[i].count == 0)
  {
    seq(|classes|, i requires 0 <= i < |classes| =>
      var n := ClassSize(students, classes[i].tenLop);
      ClassStat(classes[i].id, classes[i].tenLop, classes[i].khoi, n, if n > 0 then 95 else 0))
  }

  /** A class card shows students exactly when some student's class is that class's name. */
  lemma CardCountsEnrolled(classes: seq<LopHoc>, students: seq<HocSinh>, i: nat)
    requires i < |classes|
    ensures ClassStats(classes, students)[i].count > 0
      <==> exists j :: 0 <= j < |students| && students[j].lop == classes[i].tenLop
  {
    var name := classes[i].tenLop;
    var m := Filter(students, s => InClass(name, s));
    FilterMembers(students, s => InClass(name, s));
    if m != [] {
      assert m[0] in students;
    } else {
      assert forall j :: 0 <= j < |students| ==> students[j] !in m;
    }
  }

  // ---------------------------------------------------------------- save

  /** Every row with that id gets the new name and grade. */
  function UpdateClass(classes: seq<LopHoc>, id: string, name: string, khoi: string): (r: seq<LopHoc>)
    ensures |r| == |classes|
    ensures forall i :: 0 <= i < |classes| && classes[i].id == id ==> r[i].tenLop == name && r[i].khoi == khoi
    ensures forall i :: 0 <= i < |classes| && classes[i].id != id ==> r[i] == classes[i]
  {
    seq(|classes|, i requires 0 <= i < |classes| =>
      if classes[i].id == id then classes[i].(tenLop := name, khoi := khoi) else classes[i])
  }

  /** The students of class `from` moved to class `to`. */
  function RenameClass(students: seq<HocSinh>, from: string, to: string): (r: seq<HocSinh>)
    ensures |r| == |students|
  {
    if students == [] then []
    else
      var head := if students[0].lop == from then students[0].(lop := to) else students[0];
      [head] + RenameClass(students[1..], from, to)
  }

  /** The class modal: the class being edited (none for a new class), the typed name and
      the chosen grade. */
  datatype ClassForm = ClassForm(editing: Option<LopHoc>, name: string, grade: string)

  datatype ClassStore = ClassStore(classes: seq<LopHoc>, students: seq<HocSinh>)

  /** What a save did: nothing, handed a new class to the application's add handler, updated
      the edited class, or failed on the class update. */
  datatype SaveOutcome =
    | Ignored
    | AddRequested(name: string, grade: string, redirect: bool)
    | Updated
    | UpdateFailed

  datatype SaveResult = SaveResult(store: ClassStore, outcome: SaveOutcome)

  /** `handleSave`: a blank name does nothing; otherwise the trimmed name is added (through
      the application) or written to the edited class, whose students follow the new name
      when it differs from the old one. A failed student update is only a warning: the class
      update stands. */
  function SaveClass(store: ClassStore, form: ClassForm, redirect: bool, updateOk: bool, cascadeOk: bool): (r: SaveResult)
    ensures Trim(form.name) == [] <==> r.outcome.Ignored?
    ensures r.outcome.AddRequested? ==>
      form.editing.None? && r.outcome.name == Trim(form.name) && r.outcome.name != []
      && Trim(r.outcome.name) == r.outcome.name && r.outcome.grade == form.grade
      && r.outcome.redirect == redirect
    ensures !r.outcome.Updated? ==> r.store == store
    ensures r.outcome.Updated? ==>
      form.editing.Some? && updateOk && |r.store.classes| == |store.classes|
    ensures r.outcome.Updated? ==>
      forall i :: 0 <= i < |store.classes| && store.classes[i].id == form.editing.value.id ==>
        r.store.classes[i].tenLop == Trim(form.name) && r.store.classes[i].khoi == form.grade
    ensures r.outcome.Updated? ==>
      forall i :: 0 <= i < |store.classes| && store.classes[i].id != form.editing.value.id ==>
        r.store.classes[i] == store.classes[i]
  {
    var name := Trim(form.name);
    if name == [] then SaveResult(store, Ignored)
    else
      match form.editing
      case None =>
        TrimIdempotent(form.name);
        SaveResult(store, AddRequested(name, form.grade, redirect))
      case Some(c) =>
        if !updateOk then SaveResult(store, UpdateFailed)
        else SaveResult(UpdatedStore(store, c, name, form.grade, cascadeOk), Updated)
  }

  /** The store after a successful update of class `c`: its rows renamed and regraded, and
      its students moved when the name changed and the student update succeeded. */
  function UpdatedStore(store: ClassStore, c: LopHoc, name: string, grade: string, cascadeOk: bool): (r: ClassStore)
    ensures |r.classes| == |store.classes|
    ensures forall i :: 0 <= i < |store.classes| && store.classes[i].id == c.id ==>
      r.classes[i].tenLop == name && r.classes[i].khoi == grade
    ensures forall i :: 0 <= i < |store.classes| && store.classes[i].id != c.id ==> r.classes[i] == store.classes[i]
    ensures r.students == (if c.tenLop != name && cascadeOk then RenameClass(store.students, c.tenLop, name)
                           else store.students)
  {
    ClassStore(UpdateClass(store.classes, c.id, name, grade),
               if c.tenLop != name && cascadeOk then RenameClass(store.students, c.tenLop, name) else store.students)
  }

  /** Renaming moves every student of the old class to the new one, leaving the old class
      empty and the rest of the list as it was. */
  lemma {:induction false} RenameMovesStudents(students: seq<HocSinh>, from: string, to: string)
    requires from != to
    ensures ClassSize(RenameClass(students, from, to), to) == ClassSize(students, from) + ClassSize(students, to)
    ensures ClassSize(RenameClass(students, from, to), from) == 0
    ensures forall other :: other != from && other != to ==>
      ClassMembers(RenameClass(students, from, to), other) == ClassMembers(students, other)
    decreases |students|
  {
    if students != [] {
      RenameMovesStudents(students[1..], from, to);
      var r := RenameClass(students, from, to);
      assert r[1..] == RenameClass(students[1..], from, to);
      forall other | other != from && other != to
        ensures ClassMembers(r, other) == ClassMembers(students, other)
      {
        assert students[0].lop == other ==> r[0] == students[0];
        assert ClassMembers(r, other)
          == (if r[0].lop == other then [r[0]] else []) + ClassMembers(r[1..], other);
        assert ClassMembers(students, other)
          == (if students[0].lop == other then [students[0]] else []) + ClassMembers(students[1..], other);
      }
    }
  }

  /** Editing the name of a class whose new name no student uses yet: the card of the class
      counts, under the new name, the students it counted under the old one, and no student
      is left under the old name. */
  lemma RenameKeepsClassSize(store: ClassStore, c: LopHoc, name: string, grade: string, redirect: bool)
    requires Trim(name) != [] && Trim(name) != c.tenLop
    requires ClassSize(store.students, Trim(name)) == 0
    ensures var r := SaveClass(store, ClassForm(Some(c), name, grade), redirect, true, true);
      ClassSize(r.store.students, Trim(name)) == ClassSize(store.students, c.tenLop)
      && ClassSize(r.store.students, c.tenLop) == 0
  {
    RenameMovesStudents(store.students, c.tenLop, Trim(name));
  }

  /** Keeping the name, or failing to update the students, leaves every student where it
      was, while the class row is still updated. */
  lemma StudentsStayWithoutCascade(store: ClassStore, c: LopHoc, name: string, grade: string, redirect: bool,
                                   cascadeOk: bool)
    requires Trim(name) != []
    requires Trim(name) == c.tenLop || !cascadeOk
    ensures var r := SaveClass(store, ClassForm(Some(c), name, grade), redirect, true, cascadeOk);
      r.outcome == Updated && r.store.students == store.students
  {
  }

  // ---------------------------------------------------------------- delete

  predicate NotId(id: string, c: LopHoc) {
    c.id != id
  }

  /** `handleDeleteClass`: after the confirmation, and when the store's delete succeeds, the
      classes with that id are gone; the students are never touched. */
  function DeleteClass(store: ClassStore, id: string, confirmed: bool, deleteOk: bool): (r: ClassStore)
    ensures r.students == store.students
    ensures !confirmed || !deleteOk ==> r == store
    ensures forall i :: 0 <= i < |r.classes| ==> r.classes[i] in store.classes
  {
    if confirmed && deleteOk then
      FilterMembers(store.classes, c => NotId(id, c));
      ClassStore(Filter(store.classes, c => NotId(id, c)), store.students)
    else store
  }

  /** A confirmed delete removes exactly the class with that id and keeps the others in
      order. */
  lemma DeleteRemovesOnly(store: ClassStore, id: string)
    ensures var r := DeleteClass(store, id, true, true);
      (forall i :: 0 <= i < |r.classes| ==> r.classes[i].id != id)
      && IsSubsequence(r.classes, store.classes)
      && (forall c :: c in store.classes && c.id != id ==> c in r.classes)
  {
    FilterIsSubsequence(store.classes, c => NotId(id, c));
    FilterMembers(store.classes, c => NotId(id, c));
  }
}

=== FILE: admin_lessons.dfy ===
/** Lesson administration (`screens/AdminLessons.tsx`): the textbook curriculum lookups
    that fill the editor's chapter and title lists, the title choice, the grade filter with
    its per-grade counts, and saving a lesson with its exercises. The curriculum table of
    `constants.tsx` is a parameter (its contents are data); the store is a lesson table and an
    exercise table, and each store call is a success flag. */
module LessonAdmin {
  import opened Wrappers
  import opened Lists
  import opened Types
  import LessonCatalog

  // ---------------------------------------------------------------- curriculum

  /** A chapter of the textbook with its lesson titles. */
  datatype Chapter = Chapter(title: string, lessons: seq<string>)

  /** The chapters of one grade, in the order of the table. */
  datatype GradePlan = GradePlan(grade: string, chapters: seq<Chapter>)

  type Curriculum = seq<GradePlan>

  /** The table's entry for a grade (the first one, as an object literal has one key per
      grade). */
  function FindGrade(cur: Curriculum, grade: string): (r: Option<GradePlan>)
    ensures r.Some? ==> r.value in cur && r.value.grade == grade
    ensures r.None? <==> forall i :: 0 <= i < |cur| ==> cur[i].grade != grade
  {
    Find(cur, (g: GradePlan) => g.grade == grade)
  }

  /** The first chapter with that title. */
  function FindChapter(chapters: seq<Chapter>, title: string): (r: Option<Chapter>)
    ensures r.Some? ==> r.value in chapters && r.value.title == title
    ensures r.None? <==> forall i :: 0 <= i < |chapters| ==> chapters[i].title != title
  {
    Find(chapters, (c: Chapter) => c.title == title)
  }

  function Titles(chapters: seq<Chapter>): (r: seq<string>)
    ensures |r| == |chapters|
    ensures forall i :: 0 <= i < |r| ==> r[i] == chapters[i].title
  {
    seq(|chapters|, i requires 0 <= i < |chapters| => chapters[i].title)
  }

  /** `getChapters`: the chapter titles of the grade, none for a grade the table lacks. */
  function GetChapters(cur: Curriculum, grade: string): (r: seq<string>)
    ensures (forall i :: 0 <= i < |cur| ==> cur[i].grade != grade) ==> r == []
  {
    match FindGrade(cur, grade)
    case None => []
    case Some(g) => Titles(g.chapters)
  }

  /** `getLessonsInChapter`: the lesson titles of the chapter, none when the grade or the
      chapter is missing. */
  function GetLessonsInChapter(cur: Curriculum, grade: string, chapter: string): (r: seq<string>)
    ensures (forall i :: 0 <= i < |cur| ==> cur[i].grade != grade) ==> r == []
  {
    match FindGrade(cur, grade)
    case None => []
    case Some(g) =>
      match FindChapter(g.chapters, chapter)
      case None => []
      case Some(c) => c.lessons
  }

  /** The two lookups agree: a chapter with lessons is one of the grade's chapters, and a
      chapter not listed for the grade has no lessons. */
  lemma LookupsAgree(cur: Curriculum, grade: string, chapter: string)
    ensures GetLessonsInChapter(cur, grade, chapter) != [] ==> chapter in GetChapters(cur, grade)
    ensures chapter !in GetChapters(cur, grade) ==> GetLessonsInChapter(cur, grade, chapter) == []
  {
    match FindGrade(cur, grade)
    case None =>
    case Some(g) =>
      match FindChapter(g.chapters, chapter)
      case None =>
      case Some(c) =>
        var k :| 0 <= k < |g.chapters| && g.chapters[k] == c;
        assert GetChapters(cur, grade)[k] == chapter;
  }

  // ---------------------------------------------------------------- editor

  /** The editor: the lesson being written and whether the title is typed by hand. */
  datatype Editor = Editor(lesson: BaiHoc, customTitle: bool, customChapter: bool)

  const CUSTOM: string := "CUSTOM"

  /** `handleLessonChange`: the "other title" entry switches to a typed, empty title; any
      other entry becomes the title. Both clear the learning outcomes and keep every other
      field. */
  function LessonChange(e: Editor, title: string): (r: Editor)
    ensures r.customTitle <==> title == CUSTOM
    ensures r.lesson.tenBai == (if title == CUSTOM then "" else title)
    ensures r.lesson.yeuCauCanDat == ""
    ensures r.lesson.(tenBai := e.lesson.tenBai, yeuCauCanDat := e.lesson.yeuCauCanDat) == e.lesson
    ensures r.customChapter == e.customChapter
  {
    if title == CUSTOM then Editor(e.lesson.(tenBai := "", yeuCauCanDat := ""), true, e.customChapter)
    else Editor(e.lesson.(tenBai := title, yeuCauCanDat := ""), false, e.customChapter)
  }

  /** Choosing a title twice is choosing it once. */
  lemma LessonChangeIdempotent(e: Editor, title: string)
    ensures LessonChange(LessonChange(e, title), title) == LessonChange(e, title)
  {
  }

  /** The effect run when the grade changes: for a new lesson with chosen (not typed) title
      and chapter, the first chapter of the grade (grade 9 when none is set) and its first
      title are filled in, and the outcomes cleared; a grade without chapters changes
      nothing. */
  function GradeDefaults(cur: Curriculum, e: Editor): (r: Editor)
    ensures r.customTitle == e.customTitle && r.customChapter == e.customChapter
    ensures r.lesson.(chuong := e.lesson.chuong, tenBai := e.lesson.tenBai, yeuCauCanDat := e.lesson.yeuCauCanDat)
      == e.lesson
    ensures r != e ==> e.lesson.id == "" && !e.customTitle && !e.customChapter
  {
    var grade := if e.lesson.lop == "" then "9" else e.lesson.lop;
    var chapters := GetChapters(cur, grade);
    if e.lesson.id != "" || e.customTitle || e.customChapter || chapters == [] then e
    else
      var titles := GetLessonsInChapter(cur, grade, chapters[0]);
      var first := if titles == [] then "" else titles[0];
      e.(lesson := e.lesson.(chuong := chapters[0], tenBai := first, yeuCauCanDat := ""))
  }

  /** The filled-in chapter and title are ones the editor's lists offer. */
  lemma DefaultsAreListed(cur: Curriculum, e: Editor)
    requires GradeDefaults(cur, e) != e
    ensures var r := GradeDefaults(cur, e);
      var grade := if e.lesson.lop == "" then "9" else e.lesson.lop;
      r.lesson.chuong in GetChapters(cur, grade)
      && (r.lesson.tenBai == "" || r.lesson.tenBai in GetLessonsInChapter(cur, grade, r.lesson.chuong))
  {
  }

  // ---------------------------------------------------------------- grade filter

  predicate OfGrade(grade: string, l: BaiHoc) {
    l.lop == grade
  }

  /** `filteredLessons`: every lesson without a selected grade, else those of exactly that
      grade, in order. */
  function FilteredLessons(lessons: seq<BaiHoc>, selected: Option<string>): (r: seq<BaiHoc>)
    ensures selected.None? ==> r == lessons
    ensures selected.Some? ==> forall i :: 0 <= i < |r| ==> r[i].lop == selected.value
    ensures selected.Some? ==> IsSubsequence(r, lessons) && forall l :: l in r <==> l in lessons && l.lop == selected.value
  {
    match selected
    case None => lessons
    case Some(g) =>
      FilterMembers(lessons, l => OfGrade(g, l));
      FilterIsSubsequence(lessons, l => OfGrade(g, l));
      Filter(lessons, l => OfGrade(g, l))
  }

  /** The grades of the filter buttons. */
  const GRADES: set<string> := {"6", "7", "8", "9"}

  function GradeCount(lessons: seq<BaiHoc>, g: string): nat {
    |Filter(lessons, l => OfGrade(g, l))|
  }

  /** `lessonCounts`: the number of lessons of each of grades 6 to 9. */
  function LessonCounts(lessons: seq<BaiHoc>): (m: map<string, nat>)
    ensures m.Keys == GRADES
    ensures forall g :: g in m ==> m[g] == GradeCount(lessons, g)
  {
    map g | g in GRADES :: GradeCount(lessons, g)
  }

  /** The count on a grade's button is the length of the list that clicking it shows. */
  lemma CountsAgreeWithFilter(lessons: seq<BaiHoc>, g: string)
    requires g in GRADES
    ensures LessonCounts(lessons)[g] == |FilteredLessons(lessons, LessonCatalog.ToggleGrade(None, g))|
  {
  }

  predicate InGrades(l: BaiHoc) {
    l.lop in GRADES
  }

  /** When every lesson belongs to one of the four grades, the counts add up to the number
      of lessons. */
  lemma CountsCoverAll(lessons: seq<BaiHoc>)
    requires forall i :: 0 <= i < |lessons| ==> InGrades(lessons[i])
    ensures var m := LessonCounts(lessons);
      m["6"] + m["7"] + m["8"] + m["9"] == |lessons|
  {
    FourCountsCover(lessons);
  }

  /** The first lesson counts for its own grade only. */
  lemma GradeCountCons(lessons: seq<BaiHoc>, g: string)
    requires lessons != []
    ensures GradeCount(lessons, g) == (if lessons[0].lop == g then 1 else 0) + GradeCount(lessons[1..], g)
  {
  }

  lemma {:induction false} FourCountsCover(lessons: seq<BaiHoc>)
    requires forall i :: 0 <= i < |lessons| ==> InGrades(lessons[i])
    ensures GradeCount(lessons, "6") + GradeCount(lessons, "7") + GradeCount(lessons, "8") + GradeCount(lessons, "9")
      == |lessons|
    decreases |lessons|
  {
    if lessons != [] {
      assert InGrades(lessons[0]);
      FourCountsCover(lessons[1..]);
      GradeCountCons(lessons, "6");
      GradeCountCons(lessons, "7");
      GradeCountCons(lessons, "8");
      GradeCountCons(lessons, "9");
    }
  }

  // ---------------------------------------------------------------- save

  /** A lesson row as stored (the exercises live in their own table). */
  datatype LessonRow = LessonRow(id: string, tenBai: string, lop: string, chuong: string,
                                 lyThuyet: string, yeuCauCanDat: string)

  /** An exercise row as stored: the lesson it belongs to and the exercise's content. */
  datatype ExerciseRow = ExerciseRow(baiHocId: string, loai: LoaiBaiTap, deBai: string,
                                     dapAn: seq<string>, dapAnDung: Option<string>)

  datatype LessonStore = LessonStore(lessons: seq<LessonRow>, exercises: seq<ExerciseRow>)

  /** The outcome of each store call. */
  datatype LessonCalls = LessonCalls(lessonOk: bool, newId: string, deleteOk: bool, insertOk: bool)

  datatype LessonSaveOutcome = MissingInfo | LessonSaved | LessonSaveFailed

  datatype LessonSaveResult = LessonSaveResult(store: LessonStore, outcome: LessonSaveOutcome)

  function ExerciseRows(exercises: seq<BaiTap>, lessonId: string): (r: seq<ExerciseRow>)
    ensures |r| == |exercises|
    ensures forall i :: 0 <= i < |r| ==>
      (r[i].baiHocId == lessonId && r[i].deBai == exercises[i].deBai
       && r[i].loai == exercises[i].loai && r[i].dapAn == exercises[i].dapAn
       && r[i].dapAnDung == exercises[i].dapAnDung)
  {
    seq(|exercises|, i requires 0 <= i < |exercises| =>
      ExerciseRow(lessonId, exercises[i].loai, exercises[i].deBai, exercises[i].dapAn, exercises[i].dapAnDung))
  }

  predicate OfLesson(id: string, x: ExerciseRow) {
    x.baiHocId == id
  }

  predicate NotOfLesson(id: string, x: ExerciseRow) {
    x.baiHocId != id
  }

  /** The delete of the lesson's exercises, then the insert of the editor's exercises. The
      store's answers to these two calls are not read. */
  function ReplaceExercises(rows: seq<ExerciseRow>, lessonId: string, exercises: seq<BaiTap>,
                            deleteOk: bool, insertOk: bool): seq<ExerciseRow>
  {
    var kept := if deleteOk then Filter(rows, x => NotOfLesson(lessonId, x)) else rows;
    if insertOk then kept + ExerciseRows(exercises, lessonId) else kept
  }

  function PayloadRow(id: string, l: BaiHoc): LessonRow {
    LessonRow(id, l.tenBai, l.lop, l.chuong, l.lyThuyet, l.yeuCauCanDat)
  }

  /** The `update ... eq('id', id)` of the lesson table: the rows with that id take the
      editor's fields, the others stay as they are. */
  function UpdateRows(rows: seq<LessonRow>, id: string, l: BaiHoc): (r: seq<LessonRow>)
    ensures |r| == |rows|
    ensures forall i :: 0 <= i < |r| && rows[i].id == id ==> r[i] == PayloadRow(id, l)
    ensures forall i :: 0 <= i < |r| && rows[i].id != id ==> r[i] == rows[i]
  {
    seq(|rows|, i requires 0 <= i < |rows| => if rows[i].id == id then PayloadRow(id, l) else rows[i])
  }

  /** `handleSave`: without a title or a chapter nothing is stored. An existing lesson is
      updated (the answer is not read); a new one is inserted and a failed insert ends the
      save. Then, for a known lesson id, its exercises are replaced by the editor's. */
  function SaveLesson(store: LessonStore, l: BaiHoc, calls: LessonCalls): (r: LessonSaveResult)
    ensures l.tenBai == "" || l.chuong == "" <==> r.outcome == MissingInfo
    ensures r.outcome != LessonSaved ==> r.store == store
    ensures r.outcome == LessonSaveFailed <==> l.tenBai != "" && l.chuong != "" && l.id == "" && !calls.lessonOk
    ensures r.outcome == LessonSaved && l.id == "" ==>
      r.store.lessons == store.lessons + [PayloadRow(calls.newId, l)]
    ensures r.outcome == LessonSaved && l.id != "" ==>
      r.store.lessons == (if calls.lessonOk then UpdateRows(store.lessons, l.id, l) else store.lessons)
  {
    if l.tenBai == "" || l.chuong == "" then LessonSaveResult(store, MissingInfo)
    else if l.id == "" && !calls.lessonOk then LessonSaveResult(store, LessonSaveFailed)
    else
      var lessonId := if l.id != "" then l.id else calls.newId;
      var lessons := if l.id != "" then (if calls.lessonOk then UpdateRows(store.lessons, l.id, l) else store.lessons)
                     else store.lessons + [PayloadRow(calls.newId, l)];
      var exercises := if lessonId != "" then ReplaceExercises(store.exercises, lessonId, l.baiTap, calls.deleteOk, calls.insertOk)
                       else store.exercises;
      LessonSaveResult(LessonStore(lessons, exercises), LessonSaved)
  }

  /** When the store accepts every call, the saved lesson's exercises are exactly the
      editor's, in order, and every other lesson keeps its exercises. */
  lemma SaveReplacesExercises(store: LessonStore, l: BaiHoc, newId: string, other: string)
    requires l.tenBai != "" && l.chuong != ""
    requires var id := if l.id != "" then l.id else newId; id != "" && other != id
    ensures var id := if l.id != "" then l.id else newId;
      var r := SaveLesson(store, l, LessonCalls(true, newId, true, true));
      Filter(r.store.exercises, x => OfLesson(id, x)) == ExerciseRows(l.baiTap, id)
      && Filter(r.store.exercises, x => OfLesson(other, x)) == Filter(store.exercises, x => OfLesson(other, x))
  {
    var id := if l.id != "" then l.id else newId;
    var kept := Filter(store.exercises, x => NotOfLesson(id, x));
    var added := ExerciseRows(l.baiTap, id);
    FilterAppend(kept, added, x => OfLesson(id, x));
    FilterAppend(kept, added, x => OfLesson(other, x));
    FilterFilter(store.exercises, x => NotOfLesson(id, x), x => OfLesson(id, x), x => false);
    FilterNone(store.exercises, x => false);
    FilterAll(added, x => OfLesson(id, x));
    FilterNone(added, x => OfLesson(other, x));
    FilterFilter(store.exercises, x => NotOfLesson(id, x), x => OfLesson(other, x), x => OfLesson(other, x));
  }
}

=== FILE: ai_boundary.dfy ===
/** The deterministic edges of the AI service (`services/geminiService.ts`): cleaning the
    model's JSON reply, stripping data-URL prefixes, the question plan of each worksheet
    type, the classification of attachments, the validation of generated worksheets and
    the rewriting of errors. The model calls themselves are parameters: their outcome is
    given as a `Result`, and `JSON.parse` and `atob` are given as functions. */
module AiBoundary {
  import opened Wrappers
  import opened Text
  import opened Types
  import WorksheetSession

  // ---------------------------------------------------------------- JSON fences

  const FENCE: string := "```"
  const JSON_FENCE: string := "```json"

  /** Every fence removed (`replace(/```/g, '')`). */
  function NoFences(s: string): string {
    ReplaceAll(s, FENCE, "")
  }

  /** `cleanJsonString`: every "```json" removed, then every "```", then trimmed. No fence
      survives, even one formed by joining the pieces around a removed one, and the result
      has no whitespace at either end. */
  function CleanJsonString(s: string): (r: string)
    ensures !Contains(r, FENCE)
    ensures r == [] || (!IsSpace(r[0]) && !IsSpace(r[|r| - 1]))
  {
    var x := NoFences(ReplaceAll(s, JSON_FENCE, ""));
    NoFencesFree(ReplaceAll(s, JSON_FENCE, ""));
    TrimKeepsAbsent(x, FENCE);
    Trim(x)
  }

  lemma NoFenceCons(c: char, z: string)
    requires c != '`' && !Contains(z, FENCE)
    ensures !Contains([c] + z, FENCE)
  {
    var s := [c] + z;
    assert s[1..] == z;
    if |s| >= 3 {
      assert s[..3][0] == c;
    }
  }

  lemma NoFenceTick(z: string)
    requires (z == [] || z[0] != '`') && !Contains(z, FENCE)
    ensures !Contains("`" + z, FENCE)
  {
    var s := "`" + z;
    assert s[1..] == z;
    if |s| >= 3 {
      assert s[..3][1] == z[0];
    }
  }

  lemma NoFenceTicks(z: string)
    requires (z == [] || z[0] != '`') && !Contains(z, FENCE)
    ensures !Contains("``" + z, FENCE)
  {
    var s := "``" + z;
    NoFenceTick(z);
    assert s[1..] == "`" + z;
    if |s| >= 3 {
      assert s[..3][2] == z[0];
    }
  }

  /** A string not starting with a backtick keeps its first character. */
  lemma NoFencesHead(s: string)
    requires s != [] && s[0] != '`'
    ensures NoFences(s) == [s[0]] + NoFences(s[1..])
  {
    if |s| >= 3 {
      assert s[..3][0] == s[0];
    }
  }

  /** Removing every fence leaves no fence: a run of backticks shrinks to fewer than three,
      and the runs left are never joined, since a removed fence was itself a whole part of
      a run. */
  lemma {:induction false} NoFencesFree(s: string)
    ensures !Contains(NoFences(s), FENCE)
    decreases |s|
  {
    if |s| == 0 {
    } else if StartsWith(s, FENCE) {
      NoFencesFree(s[3..]);
      assert NoFences(s) == NoFences(s[3..]);
    } else if s[0] != '`' {
      NoFencesFree(s[1..]);
      NoFencesHead(s);
      NoFenceCons(s[0], NoFences(s[1..]));
    } else {
      var t := s[1..];
      assert NoFences(s) == "`" + NoFences(t);
      if t == [] || t[0] != '`' {
        NoFencesFree(t);
        if t != [] {
          NoFencesHead(t);
        }
        NoFenceTick(NoFences(t));
      } else {
        var u := t[1..];
        if u != [] {
          assert s[..3] == [s[0], t[0], u[0]];
        }
        if |t| >= 3 {
          assert t[..3][1] == u[0];
        }
        assert NoFences(t) == "`" + NoFences(u);
        NoFencesFree(u);
        if u != [] {
          NoFencesHead(u);
        }
        NoFenceTicks(NoFences(u));
        assert NoFences(s) == "``" + NoFences(u);
      }
    }
  }

  /** Cleaning a cleaned reply changes nothing. */
  lemma CleanJsonIdempotent(s: string)
    ensures CleanJsonString(CleanJsonString(s)) == CleanJsonString(s)
  {
    var r := CleanJsonString(s);
    if Contains(r, JSON_FENCE) {
      assert JSON_FENCE == FENCE + "json";
      ContainsPrefixPart(r, FENCE, "json");
    }
    ReplaceAbsent(r, JSON_FENCE, "");
    ReplaceAbsent(r, FENCE, "");
    TrimTrimmed(r);
  }

  // ---------------------------------------------------------------- data URLs

  /** `s.includes(',') ? s.split(',')[1] : s`: the base64 payload of a data URL. */
  function Base64Part(s: string): (r: string)
    ensures ',' !in r
    ensures ',' !in s ==> r == s
  {
    if ',' in s then
      SplitOnPresent(s, ',');
      Split(s, ',')[1]
    else s
  }

  /** With a comma, the payload is the text after the first comma, up to the second comma
      or the end. */
  lemma Base64AfterFirstComma(s: string)
    requires ',' in s
    ensures IndexOf(s, ',').Some?
    ensures var i := IndexOf(s, ',').value;
      var r := Base64Part(s);
      StartsWith(s[i + 1..], r) && (i + 1 + |r| == |s| || s[i + 1 + |r|] == ',')
  {
    match IndexOf(s, ',')
    case Some(i) =>
      var t := s[i + 1..];
      assert Split(s, ',') == [s[..i]] + Split(t, ',');
      SplitHead(t, ',');
  }

  /** A data URL `header,payload` gives its payload back. */
  lemma DataUrlPayload(header: string, payload: string)
    requires ',' !in header && ',' !in payload
    ensures Base64Part(header + "," + payload) == payload
  {
    var s := header + "," + payload;
    assert s[..|header|] == header;
    IndexOfAt(s, ',', |header|);
    assert s[|header| + 1..] == payload;
    assert Split(s, ',') == [header] + Split(payload, ',');
  }

  // ---------------------------------------------------------------- question plan

  /** How many questions a worksheet asks for and which numbers make up part I (multiple
      choice, 1..part1End), part II (true/false) and part III (short answers). */
  datatype Plan = Plan(total: nat, part1End: nat, part2Start: nat, part2End: nat, part3Start: nat,
                       part3End: nat)

  /** The plan of each worksheet type: twenty questions for self practice, ten essay
      questions all in part III, ten questions otherwise. */
  function QuestionPlan(worksheetType: string): (p: Plan)
    ensures worksheetType == TU_LUYEN ==> p.total == 20
    ensures worksheetType != TU_LUYEN ==> p.total == 10
  {
    if worksheetType == TU_LUYEN then Plan(20, 8, 9, 14, 15, 20)
    else if worksheetType == TU_LUAN then Plan(10, 0, 0, 0, 1, 10)
    else Plan(10, 4, 5, 7, 8, 10)
  }

  /** Outside essays the three parts are non-empty, follow each other without gap and end
      at the total; an essay puts every question in part III. */
  lemma PlanPartsContiguous(worksheetType: string)
    ensures var p := QuestionPlan(worksheetType);
      worksheetType != TU_LUAN ==> (
        1 <= p.part1End && p.part2Start == p.part1End + 1 && p.part2Start <= p.part2End
        && p.part3Start == p.part2End + 1 && p.part3Start <= p.part3End && p.part3End == p.total)
    ensures var p := QuestionPlan(worksheetType);
      worksheetType == TU_LUAN ==> (p.part1End == 0 && p.part2End == 0 && p.part3Start == 1
        && p.part3End == p.total)
  {
  }

  /** A sheet with as many questions as planned is worth ten points in total: the point
      value the worksheet screen derives from the question count times the count is twenty
      half-points. */
  lemma PlanScoresTen(worksheetType: string, content: WorksheetContent)
    requires content.questions.Some? && |content.questions.value| == QuestionPlan(worksheetType).total
    ensures QuestionPlan(worksheetType).total * WorksheetSession.PointHalves(Some(content)) == 20
  {
  }

  // ---------------------------------------------------------------- attachments

  /** A part of the request: inline binary data with its MIME type, or text. */
  datatype FilePart = Inline(mimeType: string, data: string) | TextPart(text: string)

  /** The request part made from an attachment, and whether the Word note is added to the
      instructions. */
  datatype Attachment = Attachment(part: FilePart, wordNote: bool)

  const TEXT_HEADER: string := "NỘI DUNG FILE ĐÍNH KÈM (HTML/TEXT):\n\n"
  const UNREADABLE_TEXT: string := "Có file đính kèm nhưng không đọc được nội dung text."
  const PDF_MIME: string := "application/pdf"

  predicate IsPdfOrImage(mimeType: string) {
    Contains(mimeType, "pdf") || StartsWith(mimeType, "image/")
  }

  predicate IsTextLike(mimeType: string) {
    Contains(mimeType, "html") || Contains(mimeType, "text")
  }

  /** The attachment classification: PDFs and images go inline with their own type; HTML
      and text are decoded (`atob`, `None` when it throws) and sent as text, with a fixed
      text when decoding fails; anything else goes inline as PDF with the Word note. */
  function Classify(mimeType: string, base64: string, atob: string -> Option<string>): (a: Attachment)
    ensures IsPdfOrImage(mimeType) ==> a == Attachment(Inline(mimeType, Base64Part(base64)), false)
    ensures !IsPdfOrImage(mimeType) && IsTextLike(mimeType) ==>
      a.part.TextPart? && !a.wordNote
    ensures !IsPdfOrImage(mimeType) && !IsTextLike(mimeType) ==>
      a == Attachment(Inline(PDF_MIME, Base64Part(base64)), true)
  {
    var data := Base64Part(base64);
    if IsPdfOrImage(mimeType) then Attachment(Inline(mimeType, data), false)
    else if IsTextLike(mimeType) then
      match atob(data)
      case Some(text) => Attachment(TextPart(TEXT_HEADER + text), false)
      case None => Attachment(TextPart(UNREADABLE_TEXT), false)
    else Attachment(Inline(PDF_MIME, data), true)
  }

  /** Whatever the attachment, inline data is its stripped payload under a PDF or image
      type, a text part is the decoded text under its header or the fixed fallback, and
      the Word note is added exactly for the types recognised neither as PDF, image, HTML
      nor text. */
  lemma ClassifyShapes(mimeType: string, base64: string, atob: string -> Option<string>)
    ensures var a := Classify(mimeType, base64, atob);
      a.part.Inline? ==> a.part.data == Base64Part(base64) && IsPdfOrImage(a.part.mimeType)
    ensures var a := Classify(mimeType, base64, atob);
      a.part.TextPart? ==> (
        match atob(Base64Part(base64))
        case Some(text) => a.part.text == TEXT_HEADER + text
        case None => a.part.text == UNREADABLE_TEXT)
    ensures Classify(mimeType, base64, atob).wordNote <==> !IsPdfOrImage(mimeType) && !IsTextLike(mimeType)
  {
    assert PDF_MIME[12..15] == "pdf";
    ContainsAt(PDF_MIME, "pdf", 12);
  }

  // ---------------------------------------------------------------- worksheet generation

  const KEY_MISSING: string := "Lỗi: Chưa cấu hình " + "API Key cho ứng dụng."
  const NO_QUESTIONS: string := "AI không tạo được " + "câu hỏi nào. " + "Vui lòng thử lại " + "với nội dung khác."
  const API_KEY_MARK: string := "API key"
  const BLOCKED_MARK: string := "Candidate was blocked"
  const CONFIG_ERROR: string := "Lỗi cấu hình: " + "Thiếu API Key."
  const BLOCKED_ERROR: string := "Nội dung bị chặn " + "bởi bộ lọc an toàn AI."
  const GENERATE_PREFIX: string := "Lỗi tạo đề: "
  const UNKNOWN_ERROR: string := "Không xác định"

  /** The rewrite of an error caught while generating: a missing-key error and a safety
      block get fixed messages, any other error is reported after a fixed prefix (an empty
      message as "unknown"). */
  function Rewrap(message: string): (e: string)
    ensures e == CONFIG_ERROR <==> Contains(message, API_KEY_MARK)
    ensures e == BLOCKED_ERROR <==> !Contains(message, API_KEY_MARK) && Contains(message, BLOCKED_MARK)
    ensures !Contains(message, API_KEY_MARK) && !Contains(message, BLOCKED_MARK) ==>
      e == GENERATE_PREFIX + (if message == "" then UNKNOWN_ERROR else message)
  {
    if Contains(message, API_KEY_MARK) then CONFIG_ERROR
    else if Contains(message, BLOCKED_MARK) then BLOCKED_ERROR
    else
      var e := GENERATE_PREFIX + (if message == "" then UNKNOWN_ERROR else message);
      assert e[4] == 't';
      e
  }

  /** The shapes a rewritten error can have. */
  predicate IsRewrapped(e: string) {
    e == CONFIG_ERROR || e == BLOCKED_ERROR || StartsWith(e, GENERATE_PREFIX)
  }

  /** `generateSmartWorksheet`: a missing key fails before any call; otherwise the reply
      (`"{}"` when empty) is cleaned and parsed, a result without questions is refused, and
      every failure inside is rewritten. `call` is the outcome of the model call and
      `parse` is `JSON.parse` followed by the reading of the worksheet fields. */
  function GenerateSmartWorksheet(apiKey: string, call: Result<string, string>,
                                  parse: string -> Result<WorksheetContent, string>)
    : (r: Result<WorksheetContent, string>)
    ensures r.Ok? ==> r.value.questions.Some? && |r.value.questions.value| > 0
    ensures apiKey == "" ==> r == Err(KEY_MISSING)
  {
    if apiKey == "" then Err(KEY_MISSING)
    else match call
      case Err(m) => Err(Rewrap(m))
      case Ok(text) =>
        match parse(CleanJsonString(if text == "" then "{}" else text))
        case Err(m) => Err(Rewrap(m))
        case Ok(c) =>
          if c.questions.None? || |c.questions.value| == 0 then Err(Rewrap(NO_QUESTIONS))
          else Ok(c)
  }

  /** With a key, every failure is a rewritten one, never the missing-key error, and a
      parsed worksheet with questions is returned as it is. */
  lemma GenerateErrorsRewrapped(apiKey: string, call: Result<string, string>,
                                parse: string -> Result<WorksheetContent, string>)
    requires apiKey != ""
    ensures var r := GenerateSmartWorksheet(apiKey, call, parse);
      r.Err? ==> IsRewrapped(r.error) && r.error != KEY_MISSING
    ensures call.Ok? ==>
      var c := parse(CleanJsonString(if call.value == "" then "{}" else call.value));
      c.Ok? && c.value.questions.Some? && |c.value.questions.value| > 0 ==>
        GenerateSmartWorksheet(apiKey, call, parse) == c
  {
    match call
    case Err(m) => RewrapIsRewrapped(m);
    case Ok(text) =>
      match parse(CleanJsonString(if text == "" then "{}" else text))
      case Err(m) => RewrapIsRewrapped(m);
      case Ok(_) => RewrapIsRewrapped(NO_QUESTIONS);
  }

  /** A rewritten error has one of the three shapes and is never the missing-key error. */
  lemma RewrapIsRewrapped(m: string)
    ensures IsRewrapped(Rewrap(m)) && Rewrap(m) != KEY_MISSING
  {
    var e := Rewrap(m);
    if e != CONFIG_ERROR && e != BLOCKED_ERROR {
      assert GENERATE_PREFIX <= e;
      assert e[3] == ' ' && KEY_MISSING[3] == ':';
    }
  }

  /** An empty question list is reported after the generation prefix: its message mentions
      neither an API key nor a blocked candidate. */
  lemma NoQuestionsMessage()
    ensures Rewrap(NO_QUESTIONS) == GENERATE_PREFIX + NO_QUESTIONS
  {
    NoQuestionsLacksKeyMark();
    NoQuestionsLacksBlockedMark();
  }

  /** The empty-list message has no capital P, so no API-key mark. */
  lemma NoQuestionsLacksKeyMark()
    ensures !Contains(NO_QUESTIONS, API_KEY_MARK)
  {
    assert 'P' !in NO_QUESTIONS;
    MissingCharNotContained(NO_QUESTIONS, API_KEY_MARK, 1);
  }

  /** The empty-list message has no capital C, so no blocked mark. */
  lemma NoQuestionsLacksBlockedMark()
    ensures !Contains(NO_QUESTIONS, BLOCKED_MARK)
  {
    assert 'C' !in NO_QUESTIONS;
    MissingCharNotContained(NO_QUESTIONS, BLOCKED_MARK, 0);
  }

  // ---------------------------------------------------------------- chat answers

  const ASK_KEY_MISSING: string := "Chưa cấu hình API Key. Vui lòng kiểm tra biến môi trường."
  const NO_ANSWER: string := "Xin lỗi, tôi không thể tìm thấy câu trả lời lúc này."
  const BAD_KEY: string := "Lỗi: API Key không hợp lệ hoặc bị thiếu."
  const CONNECTION_ERROR: string := "Có lỗi xảy ra khi kết nối với trợ lý AI. Vui lòng thử lại sau."

  /** The image part of a chat request: the payload of the image as JPEG, when an image is
      given. */
  function ChatImagePart(image: string): (p: Option<FilePart>)
    ensures p.Some? <==> image != ""
    ensures p.Some? ==> p.value.Inline? && p.value.mimeType == "image/jpeg" && ',' !in p.value.data
  {
    if image == "" then None else Some(Inline("image/jpeg", Base64Part(image)))
  }

  /** `askGemini`: only a missing key is an error; an empty reply and a failed call become
      fixed apologies, the latter naming the key when the failure mentions one. */
  function AskGemini(apiKey: string, call: Result<string, string>): (r: Result<string, string>)
    ensures r.Err? <==> apiKey == ""
    ensures r.Err? ==> r.error == ASK_KEY_MISSING
    ensures r.Ok? ==> r.value != ""
    ensures apiKey != "" && call.Ok? && call.value != "" ==> r == Ok(call.value)
  {
    if apiKey == "" then Err(ASK_KEY_MISSING)
    else match call
      case Ok(text) => Ok(if text == "" then NO_ANSWER else text)
      case Err(m) => Ok(if Contains(m, API_KEY_MARK) then BAD_KEY else CONNECTION_ERROR)
  }

  /** A failed call with a key is answered by one of the two fixed apologies, never by the
      reply of a successful one. */
  lemma AskFailureApologises(apiKey: string, m: string)
    requires apiKey != ""
    ensures AskGemini(apiKey, Err(m)) == Ok(BAD_KEY) <==> Contains(m, API_KEY_MARK)
    ensures AskGemini(apiKey, Err(m)) == Ok(CONNECTION_ERROR) <==> !Contains(m, API_KEY_MARK)
  {
  }
}

=== FILE: attendance.dfy ===
/** Daily attendance (`screens/Attendance.tsx`): toggling a student's presence for the
    selected day, and the presence shown for each student. The store's delete and insert are
    a success flag; the local list changes only when the insert succeeds. */
module AttendanceBook {
  import opened Wrappers
  import opened Lists
  import opened Types

  /** The record belongs to this day and this student. */
  predicate IsKey(date: string, name: string, d: DiemDanh) {
    d.ngay == date && d.hocSinh == name
  }

  predicate NotKey(date: string, name: string, d: DiemDanh) {
    !IsKey(date, name, d)
  }

  predicate OnDate(date: string, d: DiemDanh) {
    d.ngay == date
  }

  predicate ForStudent(name: string, d: DiemDanh) {
    d.hocSinh == name
  }

  /** `find`: the first record of the day and student. */
  function Existing(records: seq<DiemDanh>, date: string, name: string): (e: Option<DiemDanh>)
    ensures e.Some? ==> e.value in records && IsKey(date, name, e.value)
    ensures e.None? <==> forall i :: 0 <= i < |records| ==> !IsKey(date, name, records[i])
  {
    var m := Filter(records, d => IsKey(date, name, d));
    FilterMembers(records, d => IsKey(date, name, d));
    assert forall i :: 0 <= i < |records| ==> (records[i] in m <==> IsKey(date, name, records[i]));
    if m == [] then None else Some(m[0])
  }

  /** The status a click records: the opposite of the existing record, present when there is
      none. */
  function NewStatus(records: seq<DiemDanh>, date: string, name: string): bool {
    match Existing(records, date, name)
    case Some(d) => !d.coMat
    case None => true
  }

  /** `toggleAttendance`: on a successful insert, every record of the day and student is
      dropped and one record with the new status is appended; otherwise the list stays as it
      is. */
  function Toggle(records: seq<DiemDanh>, date: string, name: string, insertOk: bool): (r: seq<DiemDanh>)
    ensures !insertOk ==> r == records
    ensures insertOk ==> |r| >= 1 && r[|r| - 1] == DiemDanh("", date, name, NewStatus(records, date, name))
  {
    if insertOk then
      Filter(records, d => NotKey(date, name, d)) + [DiemDanh("", date, name, NewStatus(records, date, name))]
    else records
  }

  /** The presence shown in a student's row: the first record of the student among the
      day's records, absent meaning not present. */
  function Present(records: seq<DiemDanh>, date: string, name: string): bool {
    var current := Filter(records, d => OnDate(date, d));
    var mine := Filter(current, d => ForStudent(name, d));
    if mine == [] then false else mine[0].coMat
  }

  /** The row reads the record that the toggle reads. */
  lemma PresentIsExisting(records: seq<DiemDanh>, date: string, name: string)
    ensures Present(records, date, name) == (Existing(records, date, name).Some? && Existing(records, date, name).value.coMat)
  {
    FilterFilter(records, d => OnDate(date, d), d => ForStudent(name, d), d => IsKey(date, name, d));
  }

  /** After a successful toggle the day and student have exactly one record, carrying the
      new status, and the row shows the opposite of what it showed before. */
  lemma ToggleFlips(records: seq<DiemDanh>, date: string, name: string)
    ensures var r := Toggle(records, date, name, true);
      Filter(r, d => IsKey(date, name, d)) == [DiemDanh("", date, name, NewStatus(records, date, name))]
    ensures Present(Toggle(records, date, name, true), date, name) == !Present(records, date, name)
  {
    var kept := Filter(records, d => NotKey(date, name, d));
    var added := DiemDanh("", date, name, NewStatus(records, date, name));
    var r := Toggle(records, date, name, true);
    FilterAppend(kept, [added], d => IsKey(date, name, d));
    FilterNone(kept, d => IsKey(date, name, d));
    assert Filter([added], d => IsKey(date, name, d)) == [added];
    PresentIsExisting(records, date, name);
    PresentIsExisting(r, date, name);
  }

  /** The records of any other day or student are the same, in the same order, after a
      toggle. */
  lemma ToggleKeepsOthers(records: seq<DiemDanh>, date: string, name: string, insertOk: bool,
                          date2: string, name2: string)
    requires date2 != date || name2 != name
    ensures Filter(Toggle(records, date, name, insertOk), d => IsKey(date2, name2, d))
      == Filter(records, d => IsKey(date2, name2, d))
  {
    if insertOk {
      var kept := Filter(records, d => NotKey(date, name, d));
      var added := DiemDanh("", date, name, NewStatus(records, date, name));
      FilterAppend(kept, [added], d => IsKey(date2, name2, d));
      assert Filter([added], d => IsKey(date2, name2, d)) == [];
      FilterFilter(records, d => NotKey(date, name, d), d => IsKey(date2, name2, d), d => IsKey(date2, name2, d));
    }
  }
}

=== FILE: dashboard.dfy ===
/** The dashboard's worksheet cards (`screens/Dashboard.tsx`): the newest four worksheets a
    user may see, each with its type label, the first one marked as the newest. */
module DashboardView {
  import opened Wrappers
  import opened Text
  import opened Lists
  import opened Types
  import WorksheetLibrary

  /** The grade the dashboard filters by: the first digit run of the class, for anyone but
      a teacher whose class is not the placeholder `--`. */
  function DashboardGrade(teacher: bool, lop: string): (g: Option<string>)
    ensures g.Some? <==> !teacher && lop != "--" && FirstDigitRun(lop).Some?
    ensures g.Some? ==> g == FirstDigitRun(lop)
  {
    if !teacher && lop != "--" then FirstDigitRun(lop) else None
  }

  /** The self-practice labels, legacy "Củng cố" included. */
  predicate IsSelfPractice(monHoc: string) {
    monHoc == CUNG_CO || monHoc == TU_LUYEN
  }

  /** The worksheet types a student sees on the dashboard. */
  predicate StudentType(monHoc: string) {
    IsSelfPractice(monHoc) || monHoc == TU_LUAN
  }

  /** The card filter: the grade when there is one, and for students the self-practice and
      essay types only. */
  predicate DashboardShows(teacher: bool, grade: Option<string>, w: PhieuBaiTap) {
    (grade.None? || w.lop == grade.value) && (teacher || StudentType(w.monHoc))
  }

  /** `worksheetsToDisplay`: the first four matching worksheets of the newest-first list. */
  function WorksheetsToDisplay(ws: seq<PhieuBaiTap>, teacher: bool, lop: string): (r: seq<PhieuBaiTap>)
    ensures |r| <= 4
    ensures forall i :: 0 <= i < |r| ==> DashboardShows(teacher, DashboardGrade(teacher, lop), r[i])
  {
    var grade := DashboardGrade(teacher, lop);
    Take(Filter(ws, w => DashboardShows(teacher, grade, w)), 4)
  }

  /** The cards are the matching worksheets in their order, cut after four: every matching
      worksheet is shown when there are at most four. */
  lemma DisplayIsPrefix(ws: seq<PhieuBaiTap>, teacher: bool, lop: string)
    ensures var m := Filter(ws, w => DashboardShows(teacher, DashboardGrade(teacher, lop), w));
      var r := WorksheetsToDisplay(ws, teacher, lop);
      r == m[..|r|] && (|m| <= 4 ==> r == m) && (|m| > 4 ==> |r| == 4)
    ensures IsSubsequence(Filter(ws, w => DashboardShows(teacher, DashboardGrade(teacher, lop), w)), ws)
  {
    FilterIsSubsequence(ws, w => DashboardShows(teacher, DashboardGrade(teacher, lop), w));
  }

  /** A teacher sees the four newest worksheets of every grade and type. */
  lemma {:induction false} TeacherSeesNewest(ws: seq<PhieuBaiTap>, lop: string)
    ensures WorksheetsToDisplay(ws, true, lop) == Take(ws, 4)
  {
    FilterAll(ws, w => DashboardShows(true, DashboardGrade(true, lop), w));
  }

  /** A student only sees self-practice and essay worksheets of the student's own grade, when
      the class names one. */
  lemma StudentSeesPractice(ws: seq<PhieuBaiTap>, lop: string, w: PhieuBaiTap)
    requires w in WorksheetsToDisplay(ws, false, lop)
    ensures StudentType(w.monHoc)
    ensures lop != "--" && FirstDigitRun(lop).Some? ==> w.lop == FirstDigitRun(lop).value
  {
  }

  /** `getWorksheetLabel`. */
  function WorksheetLabel(monHoc: string): (l: string)
    ensures IsSelfPractice(monHoc) ==> l == "TỰ LUYỆN"
    ensures monHoc == TU_LUAN ==> l == "TỰ LUẬN"
    ensures !StudentType(monHoc) ==> l == "LUYỆN TẬP"
  {
    if IsSelfPractice(monHoc) then "TỰ LUYỆN"
    else if monHoc == TU_LUAN then "TỰ LUẬN"
    else "LUYỆN TẬP"
  }

  /** The labels agree with the library: a worksheet is labelled self practice exactly when
      the self-practice listing shows it, and essay exactly when the essay listing does. A
      card a student sees is never labelled as plain practice. */
  lemma LabelsAgreeWithLibrary(monHoc: string)
    ensures WorksheetLabel(monHoc) == "TỰ LUYỆN" <==> WorksheetLibrary.CategoryMatches(TU_LUYEN, monHoc)
    ensures WorksheetLabel(monHoc) == "TỰ LUẬN" <==> WorksheetLibrary.CategoryMatches(TU_LUAN, monHoc)
    ensures StudentType(monHoc) ==> WorksheetLabel(monHoc) != "LUYỆN TẬP"
  {
  }

  /** One dashboard card. */
  datatype Card = Card(worksheet: PhieuBaiTap, typeLabel: string, newest: bool)

  /** The cards of the dashboard; only the first carries the "newest" badge. */
  function Cards(ws: seq<PhieuBaiTap>, teacher: bool, lop: string): (cs: seq<Card>)
    ensures |cs| == |WorksheetsToDisplay(ws, teacher, lop)|
    ensures forall i :: 0 <= i < |cs| ==>
      cs[i].worksheet == WorksheetsToDisplay(ws, teacher, lop)[i]
      && cs[i].typeLabel == WorksheetLabel(cs[i].worksheet.monHoc)
  {
    var shown := WorksheetsToDisplay(ws, teacher, lop);
    seq(|shown|, i requires 0 <= i < |shown| => Card(shown[i], WorksheetLabel(shown[i].monHoc), i == 0))
  }

  /** Exactly one card is marked newest when there is any, and it is the first matching
      worksheet of the newest-first list. */
  lemma NewestBadgeOnce(ws: seq<PhieuBaiTap>, teacher: bool, lop: string)
    ensures var cs := Cards(ws, teacher, lop);
      forall i :: 0 <= i < |cs| ==> (cs[i].newest <==> i == 0)
    ensures var cs := Cards(ws, teacher, lop);
      |cs| > 0 ==> cs[0].worksheet == Filter(ws, w => DashboardShows(teacher, DashboardGrade(teacher, lop), w))[0]
  {
  }
}

=== FILE: exams.dfy ===
/** The exam list (`screens/Exams.tsx`): the stored exams followed by three sample exams,
    filtered by duration bucket, with a badge colour and an icon per duration. */
module ExamList {
  import opened Lists
  import opened Types

  /** The three sample exams shown after the stored ones: fifteen, forty-five and ninety
      minutes, for grade 9, created `now`. */
  function MockExams(now: string): (ms: seq<DeKiemTra>)
    ensures |ms| == 3
    ensures ms[0].thoiGian == 15 && ms[1].thoiGian == 45 && ms[2].thoiGian == 90
  {
    [ DeKiemTra("mock-1", "Kiểm tra 15 phút - Đại số Chương 1",
                "Ôn tập kiến thức về căn bậc hai và hằng đẳng thức.", "9", 15, "Thầy Thạch", now, []),
      DeKiemTra("mock-2", "Đề thi giữa Học kì 1",
                "Tổng hợp kiến thức Đại số và Hình học từ đầu năm.", "9", 45, "Thầy Thạch", now, []),
      DeKiemTra("mock-3", "Thi thử vào lớp 10 - Đề số 01",
                "Đề thi bám sát cấu trúc đề thi tuyển sinh của Sở GD&ĐT.", "9", 90, "Thầy Thạch", now, []) ]
  }

  /** `allExams`: the stored exams, then the samples. */
  function AllExams(stored: seq<DeKiemTra>, now: string): (r: seq<DeKiemTra>)
    ensures |r| == |stored| + 3
    ensures r[..|stored|] == stored && r[|stored|..] == MockExams(now)
  {
    stored + MockExams(now)
  }

  /** The filter buttons. */
  datatype DurationFilter = AllExamsFilter | Quiz15 | Test45 | TermExam

  /** The test of a filter: at most fifteen minutes, more than fifteen up to forty-five, or
      more than forty-five; "all" keeps everything. */
  predicate InFilter(f: DurationFilter, minutes: int) {
    match f
    case AllExamsFilter => true
    case Quiz15 => minutes <= 15
    case Test45 => minutes > 15 && minutes <= 45
    case TermExam => minutes > 45
  }

  predicate ExamIn(f: DurationFilter, e: DeKiemTra) {
    InFilter(f, e.thoiGian)
  }

  /** `filteredExams`. */
  function FilteredExams(exams: seq<DeKiemTra>, f: DurationFilter): (r: seq<DeKiemTra>)
    ensures forall i :: 0 <= i < |r| ==> InFilter(f, r[i].thoiGian)
  {
    Filter(exams, e => ExamIn(f, e))
  }

  /** The bucket of a duration. */
  function Bucket(minutes: int): (f: DurationFilter)
    ensures f != AllExamsFilter
  {
    if minutes <= 15 then Quiz15 else if minutes <= 45 then Test45 else TermExam
  }

  /** Every duration falls in exactly one of the three buckets. */
  lemma BucketExclusive(minutes: int, f: DurationFilter)
    requires f != AllExamsFilter
    ensures InFilter(f, minutes) <==> f == Bucket(minutes)
  {
  }

  /** The three bucket filters split the exam list between them, and "all" keeps it whole;
      every filter keeps the order. */
  lemma {:induction false} BucketsPartition(exams: seq<DeKiemTra>)
    ensures |FilteredExams(exams, Quiz15)| + |FilteredExams(exams, Test45)| + |FilteredExams(exams, TermExam)|
      == |exams|
    ensures FilteredExams(exams, AllExamsFilter) == exams
    ensures forall f :: IsSubsequence(FilteredExams(exams, f), exams)
    decreases |exams|
  {
    FilterAll(exams, e => ExamIn(AllExamsFilter, e));
    forall f {
      FilterIsSubsequence(exams, e => ExamIn(f, e));
    }
    if exams != [] {
      BucketsPartition(exams[1..]);
    }
  }

  /** Each sample exam lands in its own bucket, so no bucket of the full list is empty. */
  lemma SamplesFillBuckets(stored: seq<DeKiemTra>, now: string, f: DurationFilter)
    ensures |FilteredExams(AllExams(stored, now), f)| >= 1
  {
    var all := AllExams(stored, now);
    var p := e => ExamIn(f, e);
    var i := if f == Quiz15 || f == AllExamsFilter then 0 else if f == Test45 then 1 else 2;
    var m := MockExams(now)[i];
    assert all[|stored| + i] == m;
    FilterMembers(all, p);
    assert m in Filter(all, p);
  }

  const GREEN_BADGE: string := "bg-green-100 text-green-700 border-green-200"
  const BLUE_BADGE: string := "bg-blue-100 text-blue-700 border-blue-200"
  const PURPLE_BADGE: string := "bg-purple-100 text-purple-700 border-purple-200"

  /** `getBadgeColor`. */
  function BadgeColor(minutes: int): string {
    if minutes <= 15 then GREEN_BADGE else if minutes <= 45 then BLUE_BADGE else PURPLE_BADGE
  }

  /** `getIcon`. */
  function Icon(minutes: int): string {
    if minutes <= 15 then "timer" else if minutes <= 45 then "timelapse" else "history_edu"
  }

  /** The colour and the icon of an exam are those of its filter bucket. */
  lemma BadgeFollowsBucket(minutes: int)
    ensures BadgeColor(minutes) == GREEN_BADGE <==> InFilter(Quiz15, minutes)
    ensures BadgeColor(minutes) == BLUE_BADGE <==> InFilter(Test45, minutes)
    ensures BadgeColor(minutes) == PURPLE_BADGE <==> InFilter(TermExam, minutes)
    ensures Icon(minutes) == "timer" <==> InFilter(Quiz15, minutes)
    ensures Icon(minutes) == "timelapse" <==> InFilter(Test45, minutes)
    ensures Icon(minutes) == "history_edu" <==> InFilter(TermExam, minutes)
  {
    assert GREEN_BADGE[3] == 'g' && BLUE_BADGE[3] == 'b' && PURPLE_BADGE[3] == 'p';
  }
}

=== FILE: leaderboard.dfy ===
/** The leaderboard (`screens/Leaderboard.tsx`): students ranked by total score, the three
    podium places and the rest, and the initials shown in the avatars. */
module Leaderboard {
  import opened Wrappers
  import opened Text
  import opened Lists
  import opened Types
  import opened Scores

  // ---------------------------------------------------------------- ranking

  /** Non-increasing by total score. */
  predicate RankedOrder(s: seq<HocSinh>) {
    forall i, j :: 0 <= i < j < |s| ==> TotalScore(s[i]) >= TotalScore(s[j])
  }

  /** Inserts a student before the first one with a score not above it, so that students
      with equal scores keep their order. */
  function InsertByScore(x: HocSinh, s: seq<HocSinh>): (r: seq<HocSinh>)
    ensures |r| == |s| + 1
  {
    if s == [] || TotalScore(x) >= TotalScore(s[0]) then [x] + s
    else [s[0]] + InsertByScore(x, s[1..])
  }

  /** The stable sort by descending total score (`sort((a, b) => b.totalScore -
      a.totalScore)`). */
  function RankStudents(s: seq<HocSinh>): (r: seq<HocSinh>)
    ensures |r| == |s|
  {
    if s == [] then [] else InsertByScore(s[0], RankStudents(s[1..]))
  }

  lemma {:induction false} InsertKeepsStudents(x: HocSinh, s: seq<HocSinh>)
    ensures multiset(InsertByScore(x, s)) == multiset(s) + multiset{x}
    decreases |s|
  {
    if s != [] && TotalScore(x) < TotalScore(s[0]) {
      InsertKeepsStudents(x, s[1..]);
      assert s == [s[0]] + s[1..];
    }
  }

  lemma {:induction false} InsertKeepsOrder(x: HocSinh, s: seq<HocSinh>)
    requires RankedOrder(s)
    ensures RankedOrder(InsertByScore(x, s))
    decreases |s|
  {
    if s == [] || TotalScore(x) >= TotalScore(s[0]) {
      ConsKeepsOrder(x, s);
    } else {
      var t := s[1..];
      InsertKeepsOrder(x, t);
      InsertStaysBelow(s[0], x, t);
      ConsKeepsOrder(s[0], InsertByScore(x, t));
    }
  }

  /** A student scoring at least everyone of a ranked list can head it. */
  lemma ConsKeepsOrder(h: HocSinh, s: seq<HocSinh>)
    requires RankedOrder(s)
    requires forall j :: 0 <= j < |s| ==> TotalScore(h) >= TotalScore(s[j])
    ensures RankedOrder([h] + s)
  {
    var c := [h] + s;
    forall i, j | 0 <= i < j < |c|
      ensures TotalScore(c[i]) >= TotalScore(c[j])
    {
      assert c[j] == s[j - 1];
      if i > 0 {
        assert c[i] == s[i - 1];
      }
    }
  }

  /** Inserting never brings in a score above a bound that the student and the list keep. */
  lemma {:induction false} InsertStaysBelow(h: HocSinh, x: HocSinh, s: seq<HocSinh>)
    requires TotalScore(h) >= TotalScore(x)
    requires forall j :: 0 <= j < |s| ==> TotalScore(h) >= TotalScore(s[j])
    ensures forall j :: 0 <= j < |s| + 1 ==> TotalScore(h) >= TotalScore(InsertByScore(x, s)[j])
    decreases |s|
  {
    var r := InsertByScore(x, s);
    if s != [] && TotalScore(x) < TotalScore(s[0]) {
      InsertStaysBelow(h, x, s[1..]);
      assert forall j :: 1 <= j < |r| ==> r[j] == InsertByScore(x, s[1..])[j - 1];
    } else {
      assert forall j :: 1 <= j < |r| ==> r[j] == s[j - 1];
    }
  }

  /** `rankedStudents` holds exactly the students, each as often as in the input, from the
      highest total score down. */
  lemma {:induction false} RankingIsSortedPermutation(s: seq<HocSinh>)
    ensures multiset(RankStudents(s)) == multiset(s)
    ensures RankedOrder(RankStudents(s))
    decreases |s|
  {
    if s != [] {
      RankingIsSortedPermutation(s[1..]);
      InsertKeepsStudents(s[0], RankStudents(s[1..]));
      InsertKeepsOrder(s[0], RankStudents(s[1..]));
      assert s == [s[0]] + s[1..];
    }
  }

  // ---------------------------------------------------------------- podium

  /** The view: the empty state, or the podium (places 1 to 3, each present when the
      ranking is long enough) and the list of the others. */
  datatype Board =
    | EmptyBoard
    | Podium(top1: HocSinh, top2: Option<HocSinh>, top3: Option<HocSinh>, rest: seq<HocSinh>)

  function At(s: seq<HocSinh>, i: nat): Option<HocSinh> {
    if i < |s| then Some(s[i]) else None
  }

  function OptionList(o: Option<HocSinh>): seq<HocSinh> {
    match o
    case None => []
    case Some(x) => [x]
  }

  /** The leaderboard of a list of students. */
  function LeaderboardView(students: seq<HocSinh>): (b: Board)
    ensures b.EmptyBoard? <==> students == []
  {
    var ranked := RankStudents(students);
    if ranked == [] then EmptyBoard
    else Podium(ranked[0], At(ranked, 1), At(ranked, 2), ranked[if |ranked| < 3 then |ranked| else 3..])
  }

  /** The places and the rest split the ranking, in order, and the `i`th entry of the rest
      is the student of rank `i + 4`. */
  lemma PodiumPartition(students: seq<HocSinh>)
    requires students != []
    ensures var b := LeaderboardView(students);
      var ranked := RankStudents(students);
      [b.top1] + OptionList(b.top2) + OptionList(b.top3) + b.rest == ranked
    ensures var b := LeaderboardView(students);
      var ranked := RankStudents(students);
      forall i :: 0 <= i < |b.rest| ==> b.rest[i] == ranked[(i + 4) - 1]
  {
    var ranked := RankStudents(students);
    var b := LeaderboardView(students);
    if |ranked| == 1 {
      assert [b.top1] + OptionList(b.top2) + OptionList(b.top3) + b.rest == [ranked[0]];
    } else if |ranked| == 2 {
      assert [b.top1] + OptionList(b.top2) + OptionList(b.top3) + b.rest == [ranked[0], ranked[1]];
    } else {
      assert ranked == [ranked[0], ranked[1], ranked[2]] + ranked[3..];
    }
  }

  /** The podium is in ranking order: the first place's score is at least the second's, and
      that at least the third's and at least any of the rest's. */
  lemma PodiumOrdered(students: seq<HocSinh>)
    requires students != []
    ensures var b := LeaderboardView(students);
      (b.top2.Some? ==> TotalScore(b.top1) >= TotalScore(b.top2.value))
      && (b.top3.Some? ==> TotalScore(b.top2.value) >= TotalScore(b.top3.value))
      && (b.top3.Some? ==> forall i :: 0 <= i < |b.rest| ==> TotalScore(b.top3.value) >= TotalScore(b.rest[i]))
  {
    RankingIsSortedPermutation(students);
    var ranked := RankStudents(students);
    var b := LeaderboardView(students);
    if b.top3.Some? {
      forall i | 0 <= i < |b.rest|
        ensures TotalScore(b.top3.value) >= TotalScore(b.rest[i])
      {
        assert b.rest[i] == ranked[i + 3];
      }
    }
  }

  // ---------------------------------------------------------------- initials

  /** `n[0]` of each part: `n[0]` of an empty part is `undefined`, which `join('')` writes
      as the empty string. */
  function Heads(parts: seq<string>): (r: string)
    ensures |r| <= |parts|
  {
    if parts == [] then []
    else (if parts[0] == [] then [] else [parts[0][0]]) + Heads(parts[1..])
  }

  /** `getInitials`: the first character of each space-separated word of the trimmed name,
      the first two of them, upper-cased. The `'?'` branch is kept although `split` never
      returns an empty list. Characters are code points here, where `n[0]` and
      `substring(0, 2)` count UTF-16 code units, so a word starting outside the Basic
      Multilingual Plane is not modelled. */
  function Initials(name: string): (r: string)
    ensures |r| <= 2
    ensures forall i :: 0 <= i < |r| ==> !('a' <= r[i] <= 'z')
  {
    var parts := Split(Trim(name), ' ');
    if |parts| == 0 then "?" else Upper(Take(Heads(parts), 2))
  }

  /** A name of two or more words gives the upper-cased first letters of the first two. */
  lemma InitialsOfTwoWords(name: string)
    requires var parts := Split(Trim(name), ' ');
      |parts| >= 2 && parts[0] != [] && parts[1] != []
    ensures var parts := Split(Trim(name), ' ');
      Initials(name) == [UpperChar(parts[0][0]), UpperChar(parts[1][0])]
  {
    var parts := Split(Trim(name), ' ');
    HeadsOfTwo(parts);
    var t := Take(Heads(parts), 2);
    assert Initials(name) == Upper(t);
    assert |Upper(t)| == 2 && Upper(t)[0] == UpperChar(parts[0][0]) && Upper(t)[1] == UpperChar(parts[1][0]);
  }

  /** Two non-empty leading words give their first characters first. */
  lemma HeadsOfTwo(parts: seq<string>)
    requires |parts| >= 2 && parts[0] != [] && parts[1] != []
    ensures Take(Heads(parts), 2) == [parts[0][0], parts[1][0]]
  {
    assert Heads(parts) == [parts[0][0]] + ([parts[1][0]] + Heads(parts[2..])) by {
      assert parts[1..][1..] == parts[2..];
    }
  }

  /** The initials never fall back on `'?'`: they are made of the words' first letters. */
  lemma InitialsNeverUnknown(name: string)
    ensures Initials(name) == Upper(Take(Heads(Split(Trim(name), ' ')), 2))
  {
  }
}

=== FILE: lesson_detail.dfy ===
/** The lesson page's practice tab (`screens/LessonDetail.tsx`): the exercises split by
    kind, and the multiple-choice check, which records the last option clicked per exercise
    and compares it with the stored correct option, character for character. */
module LessonQuiz {
  import opened Wrappers
  import opened Text
  import opened Lists
  import opened Types

  predicate IsChoice(b: BaiTap) {
    b.loai == TracNghiem
  }

  predicate IsEssay(b: BaiTap) {
    b.loai == TuLuan
  }

  /** The two lists of the tab: multiple-choice exercises and essay exercises, each in
      lesson order. */
  function ChoiceExercises(lesson: BaiHoc): (r: seq<BaiTap>)
    ensures forall i :: 0 <= i < |r| ==> r[i].loai == TracNghiem
  {
    Filter(lesson.baiTap, IsChoice)
  }

  function EssayExercises(lesson: BaiHoc): (r: seq<BaiTap>)
    ensures forall i :: 0 <= i < |r| ==> r[i].loai == TuLuan
  {
    Filter(lesson.baiTap, IsEssay)
  }

  /** Every exercise of the lesson is in exactly one of the two lists. */
  lemma KindsPartition(lesson: BaiHoc)
    ensures |ChoiceExercises(lesson)| + |EssayExercises(lesson)| == |lesson.baiTap|
    ensures forall b :: b in lesson.baiTap ==> (b in ChoiceExercises(lesson) <==> b !in EssayExercises(lesson))
  {
    FilterPartition(lesson.baiTap, IsChoice, IsEssay);
    FilterMembers(lesson.baiTap, IsChoice);
    FilterMembers(lesson.baiTap, IsEssay);
  }

  /** The key of an exercise's answer state: its id, or the decimal index within the
      multiple-choice list when it has none. */
  function QuizKey(b: BaiTap, index: nat): (k: string)
    ensures k != []
    ensures b.id == [] ==> forall i :: 0 <= i < |k| ==> IsDigit(k[i])
  {
    if b.id != [] then b.id else NatToString(index)
  }

  /** The answers clicked so far and the exercises whose feedback is shown. */
  datatype QuizState = QuizState(results: map<string, string>, feedback: set<string>)

  const INITIAL_QUIZ: QuizState := QuizState(map[], {})

  /** `handleQuizSubmit`: the clicked option is recorded (replacing any earlier one, since
      nothing is locked) and the exercise's feedback is shown. */
  function Submit(st: QuizState, key: string, answer: string): (r: QuizState)
    ensures key in r.results && r.results[key] == answer && key in r.feedback
    ensures forall k :: k in st.results && k != key ==> k in r.results && r.results[k] == st.results[k]
    ensures forall k :: k in r.results ==> k in st.results || k == key
    ensures r.feedback == st.feedback + {key}
  {
    QuizState(st.results[key := answer], st.feedback + {key})
  }

  /** An option is right exactly when it is the stored correct option; an exercise without
      one has no right option. */
  predicate IsRightOption(b: BaiTap, answer: string) {
    b.dapAnDung == Some(answer)
  }

  /** The feedback line of an exercise: hidden, or whether the recorded option is right. */
  function Feedback(st: QuizState, b: BaiTap, key: string): (f: Option<bool>)
    requires st.feedback <= st.results.Keys
    ensures f.Some? <==> key in st.feedback
  {
    if key in st.feedback then Some(IsRightOption(b, st.results[key])) else None
  }

  /** Every shown feedback has a recorded answer, from the empty state on. */
  predicate Consistent(st: QuizState) {
    st.feedback <= st.results.Keys
  }

  lemma SubmitKeepsConsistent(st: QuizState, key: string, answer: string)
    requires Consistent(st)
    ensures Consistent(Submit(st, key, answer))
  {
  }

  /** After any click the feedback is visible and says whether the clicked option is
      exactly the stored correct option: "50 km" against a stored "50km" is wrong. */
  lemma FeedbackAfterSubmit(st: QuizState, b: BaiTap, key: string, answer: string)
    requires Consistent(st)
    ensures Feedback(Submit(st, key, answer), b, key) == Some(b.dapAnDung == Some(answer))
  {
  }

  /** Clicking again replaces the answer: the state is as if only the last click happened. */
  lemma ResubmitOverwrites(st: QuizState, key: string, first: string, second: string)
    ensures Submit(Submit(st, key, first), key, second) == Submit(st, key, second)
  {
    assert st.results[key := first][key := second] == st.results[key := second];
  }

  /** Clicking one exercise does not change the feedback shown for an exercise with
      another key. */
  lemma AnswersIndependent(st: QuizState, b: BaiTap, key: string, other: string, answer: string)
    requires Consistent(st) && other != key
    ensures Feedback(Submit(st, key, answer), b, other) == Feedback(st, b, other)
  {
  }

  /** Two exercises of the list with distinct ids, or both without an id, never share
      answer state. */
  lemma KeysOfListDistinct(exercises: seq<BaiTap>, i: nat, j: nat)
    requires i < j < |exercises|
    requires exercises[i].id != exercises[j].id || exercises[i].id == []
    requires exercises[i].id != [] <==> exercises[j].id != []
    ensures QuizKey(exercises[i], i) != QuizKey(exercises[j], j)
  {
    if exercises[i].id == [] {
      NatToStringInjective(i, j);
    }
  }

  /** Different naturals are written differently. */
  lemma {:induction false} NatToStringInjective(m: nat, n: nat)
    requires m != n
    ensures NatToString(m) != NatToString(n)
    decreases m + n
  {
    if m >= 10 && n >= 10 {
      var a := NatToString(m);
      var b := NatToString(n);
      if m / 10 != n / 10 {
        NatToStringInjective(m / 10, n / 10);
        NatToStringInit(m);
        NatToStringInit(n);
        assert a[..|a| - 1] != b[..|b| - 1];
      } else {
        assert a[|a| - 1] == DigitChar(m % 10);
        assert b[|b| - 1] == DigitChar(n % 10);
      }
    } else if m < 10 && n >= 10 {
      assert |NatToString(n)| >= 2 by { NatToStringLong(n); }
    } else if m >= 10 && n < 10 {
      assert |NatToString(m)| >= 2 by { NatToStringLong(m); }
    }
  }

  lemma NatToStringInit(n: nat)
    requires n >= 10
    ensures NatToString(n)[..|NatToString(n)| - 1] == NatToString(n / 10)
  {
    assert NatToString(n) == NatToString(n / 10) + [DigitChar(n % 10)];
  }

  lemma NatToStringLong(n: nat)
    requires n >= 10
    ensures |NatToString(n)| >= 2
  {
    assert NatToString(n) == NatToString(n / 10) + [DigitChar(n % 10)];
  }
}

=== FILE: lesson_list.dfy ===
/** The student lesson list (`screens/LessonList.tsx`): one collapsible section per grade,
    at most one of them open, and a case-blind search over lesson titles and chapters. */
module LessonCatalog {
  import opened Wrappers
  import opened Text
  import opened Lists
  import opened Types

  // ---------------------------------------------------------------- open section

  /** The section open when the screen appears. */
  const INITIAL_OPEN: Option<string> := Some("6")

  /** `toggleGrade` (the grade filter of the lesson administration behaves the same way):
      clicking the open grade closes it, clicking any other grade opens that one instead. A
      single optional grade means at most one section is ever open. */
  function ToggleGrade(open: Option<string>, grade: string): (r: Option<string>)
    ensures r.None? <==> open == Some(grade)
    ensures r.Some? ==> r.value == grade
  {
    if open == Some(grade) then None else Some(grade)
  }

  /** A second click on the same grade undoes the first exactly when that grade was open
      before; otherwise it closes the section the first click opened. */
  lemma ToggleTwice(open: Option<string>, grade: string)
    ensures ToggleGrade(ToggleGrade(open, grade), grade) == (if open == Some(grade) then open else None)
  {
  }

  // ---------------------------------------------------------------- search

  /** `toLowerCase` after `toUpperCase` is `toLowerCase` on the modelled characters. */
  lemma LowerOfUpperChar(c: char)
    ensures LowerChar(UpperChar(c)) == LowerChar(c)
  {
  }

  lemma LowerOfUpper(s: string)
    ensures Lower(Upper(s)) == Lower(s)
  {
    forall i | 0 <= i < |s|
      ensures Lower(Upper(s))[i] == Lower(s)[i]
    {
      LowerOfUpperChar(s[i]);
    }
  }

  /** The lesson is of the grade and its title or its chapter contains the search term,
      case aside. */
  predicate Matches(grade: string, term: string, l: BaiHoc) {
    l.lop == grade
    && (Contains(Lower(l.tenBai), Lower(term)) || Contains(Lower(l.chuong), Lower(term)))
  }

  predicate OfGrade(grade: string, l: BaiHoc) {
    l.lop == grade
  }

  /** `gradeLessons`: the lessons of the grade that match the search, in list order. */
  function GradeLessons(lessons: seq<BaiHoc>, grade: string, term: string): (r: seq<BaiHoc>)
    ensures forall i :: 0 <= i < |r| ==> r[i].lop == grade && r[i] in lessons
    ensures IsSubsequence(r, lessons)
  {
    FilterMembers(lessons, l => Matches(grade, term, l));
    FilterIsSubsequence(lessons, l => Matches(grade, term, l));
    Filter(lessons, l => Matches(grade, term, l))
  }

  /** An empty search shows every lesson of the grade. */
  lemma EmptySearchKeepsGrade(lessons: seq<BaiHoc>, grade: string)
    ensures GradeLessons(lessons, grade, "") == Filter(lessons, l => OfGrade(grade, l))
  {
    forall l: BaiHoc
      ensures Matches(grade, "", l) == OfGrade(grade, l)
    {
      ContainsEmpty(Lower(l.tenBai));
    }
    FilterExt(lessons, l => Matches(grade, "", l), l => OfGrade(grade, l));
  }

  /** The search ignores case on the characters whose case mapping is modelled: an
      upper-cased term finds the same lessons. */
  lemma SearchIgnoresCase(lessons: seq<BaiHoc>, grade: string, term: string)
    ensures GradeLessons(lessons, grade, Upper(term)) == GradeLessons(lessons, grade, term)
  {
    LowerOfUpper(term);
    FilterExt(lessons, l => Matches(grade, Upper(term), l), l => Matches(grade, term, l));
  }

  /** A lesson is listed exactly when it is one of the lessons and matches. */
  lemma ListedIffMatches(lessons: seq<BaiHoc>, grade: string, term: string, l: BaiHoc)
    ensures l in GradeLessons(lessons, grade, term) <==> l in lessons && Matches(grade, term, l)
  {
    FilterMembers(lessons, x => Matches(grade, term, x));
  }

  /** Whether a grade's section is rendered: not when a non-empty search finds nothing. */
  predicate SectionShown(lessons: seq<BaiHoc>, grade: string, term: string) {
    !(|GradeLessons(lessons, grade, term)| == 0 && term != "")
  }

  /** A section disappears exactly when the search is non-empty and no lesson of the grade
      matches it; with an empty search every section is shown, even an empty one. */
  lemma SectionHiddenIff(lessons: seq<BaiHoc>, grade: string, term: string)
    ensures !SectionShown(lessons, grade, term)
      <==> term != "" && forall i :: 0 <= i < |lessons| ==> !Matches(grade, term, lessons[i])
  {
    var r := Filter(lessons, l => Matches(grade, term, l));
    FilterMembers(lessons, l => Matches(grade, term, l));
    if r != [] {
      assert r[0] in lessons;
    } else {
      assert forall i :: 0 <= i < |lessons| ==> lessons[i] !in r;
    }
  }
}

=== FILE: lists.dfy ===
/** Order-preserving filtering of sequences (`Array.prototype.filter`) and the facts the
    screens' list views rely on. */
module Lists {
  import opened Wrappers

  /** `s.find(p)`: the first element that satisfies the predicate, if any. */
  function Find<T(==)>(s: seq<T>, p: T -> bool): (r: Option<T>)
    ensures r.Some? ==> r.value in s && p(r.value)
    ensures r.None? <==> forall i :: 0 <= i < |s| ==> !p(s[i])
    ensures r.Some? ==> exists i :: 0 <= i < |s| && s[i] == r.value && forall j :: 0 <= j < i ==> !p(s[j])
  {
    if s == [] then None
    else if p(s[0]) then Some(s[0])
    else
      var r := Find(s[1..], p);
      if r.Some? then
        var i :| 0 <= i < |s[1..]| && s[1..][i] == r.value && forall j :: 0 <= j < i ==> !p(s[1..][j]);
        assert s[i + 1] == r.value && forall j :: 0 <= j < i + 1 ==> !p(s[j]);
        r
      else r
  }

  /** `s.filter(p)`. */
  function Filter<T>(s: seq<T>, p: T -> bool): (r: seq<T>)
    ensures |r| <= |s|
    ensures forall i :: 0 <= i < |r| ==> p(r[i])
  {
    if s == [] then [] else (if p(s[0]) then [s[0]] else []) + Filter(s[1..], p)
  }

  /** `r` is `s` with some elements left out, the others in their order. */
  predicate IsSubsequence<T(==)>(r: seq<T>, s: seq<T>)
    decreases |s|
  {
    if r == [] then true
    else if s == [] then false
    else if r[0] == s[0] then IsSubsequence(r[1..], s[1..])
    else IsSubsequence(r, s[1..])
  }

  /** An element is kept exactly when it is in the input and satisfies the predicate. */
  lemma {:induction false} FilterMembers<T>(s: seq<T>, p: T -> bool)
    ensures forall x :: x in Filter(s, p) <==> x in s && p(x)
    decreases |s|
  {
    if s != [] {
      FilterMembers(s[1..], p);
      assert s == [s[0]] + s[1..];
    }
  }

  /** Filtering keeps the order of the kept elements. */
  lemma {:induction false} FilterIsSubsequence<T>(s: seq<T>, p: T -> bool)
    ensures IsSubsequence(Filter(s, p), s)
    decreases |s|
  {
    if s != [] {
      FilterIsSubsequence(s[1..], p);
      var r := Filter(s, p);
      if p(s[0]) {
        assert r[0] == s[0] && r[1..] == Filter(s[1..], p);
      } else {
        assert r == Filter(s[1..], p);
        SubsequenceDropHead(r, s);
      }
    }
  }

  /** A subsequence of the tail is a subsequence of the whole. */
  lemma {:induction false} SubsequenceDropHead<T>(r: seq<T>, s: seq<T>)
    requires s != [] && IsSubsequence(r, s[1..])
    ensures IsSubsequence(r, s)
    decreases |s|, 0
  {
    if r != [] && r[0] == s[0] {
      SubsequenceTail(r, s[1..]);
    }
  }

  /** Dropping the head of `r` keeps it a subsequence. */
  lemma {:induction false} SubsequenceTail<T>(r: seq<T>, s: seq<T>)
    requires r != [] && IsSubsequence(r, s)
    ensures IsSubsequence(r[1..], s)
    decreases |s|, 1
  {
    if s != [] {
      if r[0] == s[0] {
        if r[1..] != [] {
          SubsequenceDropHead(r[1..], s);
        }
      } else {
        SubsequenceTail(r, s[1..]);
        if r[1..] != [] {
          SubsequenceDropHead(r[1..], s);
        }
      }
    }
  }

  /** A predicate that holds everywhere keeps everything. */
  lemma {:induction false} FilterAll<T>(s: seq<T>, p: T -> bool)
    requires forall i :: 0 <= i < |s| ==> p(s[i])
    ensures Filter(s, p) == s
    decreases |s|
  {
    if s != [] {
      FilterAll(s[1..], p);
    }
  }

  /** Predicates that agree on the elements filter alike. */
  lemma {:induction false} FilterExt<T>(s: seq<T>, p: T -> bool, q: T -> bool)
    requires forall i :: 0 <= i < |s| ==> p(s[i]) == q(s[i])
    ensures Filter(s, p) == Filter(s, q)
    decreases |s|
  {
    if s != [] {
      FilterExt(s[1..], p, q);
    }
  }

  lemma {:induction false} FilterAppend<T>(a: seq<T>, b: seq<T>, p: T -> bool)
    ensures Filter(a + b, p) == Filter(a, p) + Filter(b, p)
    decreases |a|
  {
    if a != [] {
      assert (a + b)[1..] == a[1..] + b;
      FilterAppend(a[1..], b, p);
    } else {
      assert a + b == b;
    }
  }

  /** A predicate and its negation split the input between them. */
  lemma {:induction false} FilterPartition<T>(s: seq<T>, p: T -> bool, q: T -> bool)
    requires forall x :: q(x) == !p(x)
    ensures |Filter(s, p)| + |Filter(s, q)| == |s|
    decreases |s|
  {
    if s != [] {
      FilterPartition(s[1..], p, q);
    }
  }

  /** Filtering twice is filtering once by both tests. */
  lemma {:induction false} FilterFilter<T>(s: seq<T>, p: T -> bool, q: T -> bool, pq: T -> bool)
    requires forall x :: pq(x) == (p(x) && q(x))
    ensures Filter(Filter(s, p), q) == Filter(s, pq)
    decreases |s|
  {
    if s != [] {
      FilterFilter(s[1..], p, q, pq);
      var t := Filter(s, p);
      if p(s[0]) {
        assert t[0] == s[0] && t[1..] == Filter(s[1..], p);
        assert Filter(t, q) == (if q(s[0]) then [s[0]] else []) + Filter(t[1..], q);
      } else {
        assert t == Filter(s[1..], p);
      }
      assert pq(s[0]) == (p(s[0]) && q(s[0]));
      assert Filter(s, pq) == (if pq(s[0]) then [s[0]] else []) + Filter(s[1..], pq);
    }
  }

  /** A predicate that holds nowhere keeps nothing. */
  lemma {:induction false} FilterNone<T>(s: seq<T>, p: T -> bool)
    requires forall i :: 0 <= i < |s| ==> !p(s[i])
    ensures Filter(s, p) == []
    decreases |s|
  {
    if s != [] {
      FilterNone(s[1..], p);
    }
  }

  /** The first `n` elements, or all of them when there are fewer (`slice(0, n)`). */
  function Take<T>(s: seq<T>, n: nat): (r: seq<T>)
    ensures |r| == if n < |s| then n else |s|
    ensures r == s[..|r|]
  {
    if n < |s| then s[..n] else s
  }
}

=== FILE: matcher.dfy ===
/** The verdict of `handleImmediateCheck`: multiple choice by a three-step fallback chain,
    true/false and short answers by equality of normalised strings, true/false also through
    two synonym sets. */
module AnswerMatcher {
  import opened Wrappers
  import opened Text
  import opened AnswerNormalizer

  /** The `type` argument of the grading handler; application questions are submitted as
      short answers. */
  datatype GradingKind = ChoiceKind | TruthKind | ShortKind

  /** `String.prototype.charCodeAt`: the first UTF-16 code unit of a character. */
  function Utf16First(c: char): (u: int)
    ensures 0 <= u < 0x10000
    ensures c as int < 0x10000 ==> u == c as int
  {
    if c as int < 0x10000 then c as int else 0xD800 + (c as int - 0x10000) / 0x400
  }

  /** `userVal.charCodeAt(0) - 65`; `None` stands for NaN (empty input). */
  function SelectedIndex(userVal: string): (r: Option<int>)
    ensures r.None? <==> userVal == ""
    ensures r.Some? ==> -65 <= r.value < 0x10000 - 65
  {
    if userVal == "" then None else Some(Utf16First(userVal[0]) - 65)
  }

  /** `String.fromCharCode(65 + i)`: the button label of option `i` (labels stay below the
      surrogate range). */
  function Label(i: nat): (l: string)
    requires 65 + i < 0xD800
    ensures |l| == 1
  {
    [(65 + i) as char]
  }

  /** `options[idx]` when it is truthy: an index in range holding a non-empty string. */
  function SelectedOption(userVal: string, options: seq<string>): (r: Option<string>)
    ensures r.Some? ==> r.value != "" && r.value in options
    ensures r.Some? <==> (SelectedIndex(userVal).Some? && 0 <= SelectedIndex(userVal).value < |options|
                          && options[SelectedIndex(userVal).value] != "")
  {
    match SelectedIndex(userVal)
    case None => None
    case Some(idx) => if 0 <= idx < |options| && options[idx] != "" then Some(options[idx]) else None
  }

  const TRUE_WORDS: seq<string> := ["dung", "true", "t", "đúng"]
  const FALSE_WORDS: seq<string> := ["sai", "false", "f"]

  /** Strategy 3 of multiple choice: the chosen option's text and the expected answer
      contain one another after normalisation. */
  predicate OptionTextMatches(userVal: string, cleanCorrect: string, options: seq<string>) {
    |options| > 0 &&
    match SelectedOption(userVal, options)
    case None => false
    case Some(opt) =>
      var cleanOpt := CanonicalAnswer(opt);
      Contains(cleanOpt, cleanCorrect) || Contains(cleanCorrect, cleanOpt)
  }

  /** The verdict of the grading handler: an answer that normalises like the expected one
      is always accepted, and a short answer only then. */
  predicate IsCorrect(kind: GradingKind, userVal: string, correctAns: string, options: seq<string>)
    ensures CanonicalAnswer(userVal) == CanonicalAnswer(correctAns) ==> IsCorrect(kind, userVal, correctAns, options)
    ensures kind == ShortKind && IsCorrect(kind, userVal, correctAns, options) ==>
      CanonicalAnswer(userVal) == CanonicalAnswer(correctAns)
  {
    var cleanUser := CanonicalAnswer(userVal);
    var cleanCorrect := CanonicalAnswer(correctAns);
    match kind
    case ChoiceKind =>
      cleanUser == cleanCorrect
      || StartsWith(cleanCorrect, cleanUser)
      || OptionTextMatches(userVal, cleanCorrect, options)
    case _ =>
      cleanUser == cleanCorrect
      || (kind == TruthKind
          && ((cleanUser in TRUE_WORDS && cleanCorrect in TRUE_WORDS)
              || (cleanUser in FALSE_WORDS && cleanCorrect in FALSE_WORDS)))
  }

  /** Reference reading of a normalised true/false answer: a truth value, or the text. */
  datatype Reading = Yes | No | Literal(text: string)

  function ReadTruth(clean: string): Reading {
    if clean in TRUE_WORDS then Yes else if clean in FALSE_WORDS then No else Literal(clean)
  }

  lemma {:induction false} SameReading(u: string, c: string)
    ensures ReadTruth(u) == ReadTruth(c)
        <==> u == c || (u in TRUE_WORDS && c in TRUE_WORDS) || (u in FALSE_WORDS && c in FALSE_WORDS)
  {
    assert forall w :: w in TRUE_WORDS ==> w !in FALSE_WORDS;
  }

  /** True/false grading is "same reading": an equivalence, so symmetric and transitive. */
  lemma TruthIsSameReading(userVal: string, correctAns: string, options: seq<string>)
    ensures IsCorrect(TruthKind, userVal, correctAns, options)
        <==> ReadTruth(CanonicalAnswer(userVal)) == ReadTruth(CanonicalAnswer(correctAns))
  {
    SameReading(CanonicalAnswer(userVal), CanonicalAnswer(correctAns));
  }

  lemma TruthSymmetric(a: string, b: string, options: seq<string>)
    ensures IsCorrect(TruthKind, a, b, options) == IsCorrect(TruthKind, b, a, options)
  {
    TruthIsSameReading(a, b, options);
    TruthIsSameReading(b, a, options);
  }

  /** Short answers (and application questions) are graded by normalised equality only. */
  lemma ShortIsEquality(userVal: string, correctAns: string, options: seq<string>)
    ensures IsCorrect(ShortKind, userVal, correctAns, options)
        <==> CanonicalAnswer(userVal) == CanonicalAnswer(correctAns)
  {
  }

  /** An answer that normalises like the expected one is accepted under every kind. */
  lemma SameFormAccepted(kind: GradingKind, userVal: string, correctAns: string, options: seq<string>)
    requires CanonicalAnswer(userVal) == CanonicalAnswer(correctAns)
    ensures IsCorrect(kind, userVal, correctAns, options)
  {
  }

  /** The label of option `i` selects option `i`. */
  lemma LabelSelects(i: nat, options: seq<string>)
    requires 65 + i < 0xD800
    ensures SelectedIndex(Label(i)) == Some(i)
    ensures i < |options| && options[i] != "" ==> SelectedOption(Label(i), options) == Some(options[i])
  {
    assert Label(i)[0] as int == 65 + i;
  }

  /** A one-letter answer selects the option whose label it is. */
  lemma SelectedLabel(userVal: string)
    requires |userVal| == 1 && 'A' <= userVal[0] <= 'Z'
    ensures SelectedIndex(userVal).Some? && 0 <= SelectedIndex(userVal).value < 26
    ensures Label(SelectedIndex(userVal).value) == userVal
  {
    var i := SelectedIndex(userVal).value;
    assert Label(i) == [(65 + i) as char];
  }

  /** Choosing the option whose text normalises like the expected answer is accepted. */
  lemma OptionTextAccepted(i: nat, correctAns: string, options: seq<string>)
    requires 65 + i < 0xD800 && i < |options| && options[i] != ""
    requires CanonicalAnswer(options[i]) == CanonicalAnswer(correctAns)
    ensures IsCorrect(ChoiceKind, Label(i), correctAns, options)
  {
    LabelSelects(i, options);
    ContainsSelf(CanonicalAnswer(correctAns));
  }

  /** An expected answer that normalises to "" accepts every existing, non-empty option. */
  lemma EmptyCorrectAcceptsAnyOption(i: nat, correctAns: string, options: seq<string>)
    requires 65 + i < 0xD800 && i < |options| && options[i] != ""
    requires CanonicalAnswer(correctAns) == ""
    ensures IsCorrect(ChoiceKind, Label(i), correctAns, options)
  {
    LabelSelects(i, options);
    ContainsEmpty(CanonicalAnswer(options[i]));
  }

  /** A lower-case letter indexes past the end of any list of at most 32 options, so the
      option-text strategy never applies to it. */
  lemma LowerCaseSelectsNothing(userVal: string, options: seq<string>)
    requires |userVal| >= 1 && 'a' <= userVal[0] <= 'z' && |options| <= 32
    ensures SelectedOption(userVal, options) == None
    ensures !OptionTextMatches(userVal, CanonicalAnswer(userVal), options)
  {
  }

  lemma NormalizeUpperB()
    ensures CanonicalAnswer("B") == "b"
  {
    var s := "B";
    assert LowerChar('B') == 'b';
    CanonStep(s);
    assert s[1..] == [];
  }

  lemma NormalizeLowerB()
    ensures CanonicalAnswer("b") == "b"
  {
    var s := "b";
    CanonStep(s);
    assert s[1..] == [];
  }

  lemma Normalize60km()
    ensures CanonicalAnswer("60km") == "60km"
  {
    var s := "60km";
    CanonStep(s);
    CanonStep(s[1..]);
    CanonStep(s[2..]);
    CanonStep(s[3..]);
    assert s[4..] == [];
  }

  /** The expected answer given as the text of option B: a submitted upper-case label "B"
      is accepted through the option text, a submitted lower-case "b" is rejected. */
  lemma LabelCaseExample()
    ensures IsCorrect(ChoiceKind, "B", "60km", ["50km", "60km", "70km", "80km"])
    ensures !IsCorrect(ChoiceKind, "b", "60km", ["50km", "60km", "70km", "80km"])
  {
    var options := ["50km", "60km", "70km", "80km"];
    NormalizeUpperB();
    NormalizeLowerB();
    Normalize60km();
    assert !StartsWith("60km", "b");
    assert "B" == Label(1);
    OptionTextAccepted(1, "60km", options);
    LowerCaseSelectsNothing("b", options);
  }

  lemma Normalize45()
    ensures CanonicalAnswer("45") == "45"
  {
    var s := "45";
    CanonStep(s);
    CanonStep(s[1..]);
    assert s[2..] == [];
  }

  lemma Normalize5()
    ensures CanonicalAnswer("5") == "5"
  {
    var s := "5";
    CanonStep(s);
    assert s[1..] == [];
  }

  lemma NormalizeA()
    ensures CanonicalAnswer("A") == "a"
  {
    var s := "A";
    assert LowerChar('A') == 'a';
    CanonStep(s);
    assert s[1..] == [];
  }

  /** The containment test of strategy 3 accepts an option whose text is merely a part of
      the expected answer: "5" is accepted for "45". */
  lemma PartialTextAccepted()
    ensures IsCorrect(ChoiceKind, "A", "45", ["5", "45", "4", "6"])
  {
    Normalize45();
    Normalize5();
    NormalizeA();
    assert "A" == Label(0);
    LabelSelects(0, ["5", "45", "4", "6"]);
    assert "45"[1..2] == "5";
    ContainsAt("45", "5", 1);
  }

  lemma NormalizeDung()
    ensures CanonicalAnswer("Đúng") == "đúng"
  {
    var s := "Đúng";
    assert LowerChar('Đ') == 'đ';
    CanonStep(s);
    CanonStep(s[1..]);
    CanonStep(s[2..]);
    CanonStep(s[3..]);
    assert s[4..] == [];
  }

  lemma NormalizeSai()
    ensures CanonicalAnswer("Sai") == "sai"
  {
    var s := "Sai";
    assert LowerChar('S') == 's';
    CanonStep(s);
    CanonStep(s[1..]);
    CanonStep(s[2..]);
    assert s[3..] == [];
  }

  lemma NormalizeTrue()
    ensures CanonicalAnswer("True") == "true"
  {
    var s := "True";
    assert LowerChar('T') == 't';
    CanonStep(s);
    CanonStep(s[1..]);
    CanonStep(s[2..]);
    CanonStep(s[3..]);
    assert s[4..] == [];
  }

  /** The "Đúng" button is accepted exactly when the expected answer normalises to a word
      for true. */
  lemma TruthButtonYes(correctAns: string)
    ensures IsCorrect(TruthKind, "Đúng", correctAns, []) <==> CanonicalAnswer(correctAns) in TRUE_WORDS
  {
    NormalizeDung();
  }

  /** The "Sai" button is accepted exactly when the expected answer normalises to a word for
      false. */
  lemma TruthButtonNo(correctAns: string)
    ensures IsCorrect(TruthKind, "Sai", correctAns, []) <==> CanonicalAnswer(correctAns) in FALSE_WORDS
  {
    NormalizeSai();
  }

  /** A Vietnamese and an English truth word agree. */
  lemma TruthSynonymExample()
    ensures IsCorrect(TruthKind, "Đúng", "True", [])
  {
    TruthButtonYes("True");
    NormalizeTrue();
  }

  lemma NormalizeDungCaps()
    ensures CanonicalAnswer("ĐÚNG") == "đúng"
  {
    var s := "ĐÚNG";
    assert LowerChar('Đ') == 'đ' && LowerChar('Ú') == 'ú';
    assert LowerChar('N') == 'n' && LowerChar('G') == 'g';
    CanonStep(s);
    CanonStep(s[1..]);
    CanonStep(s[2..]);
    CanonStep(s[3..]);
    assert s[4..] == [];
  }

  /** The expected answer in capitals: "ĐÚNG" lower-cases to "đúng", a word for true. */
  lemma TruthCapitalsExample()
    ensures IsCorrect(TruthKind, "Đúng", "ĐÚNG", [])
  {
    TruthButtonYes("ĐÚNG");
    NormalizeDungCaps();
  }

  lemma NormalizeHalf()
    ensures CanonicalAnswer("1/2") == "1/2"
  {
    var s := "1/2";
    CanonStep(s);
    CanonStep(s[1..]);
    CanonStep(s[2..]);
    assert s[3..] == [];
  }

  lemma NormalizePointFive()
    ensures CanonicalAnswer("0.5") == "0.5"
  {
    var s := "0.5";
    CanonStep(s);
    CanonStep(s[1..]);
    CanonStep(s[2..]);
    assert s[3..] == [];
  }

  /** No numeric reading: a fraction does not match its decimal value. */
  lemma FractionNotDecimal()
    ensures !IsCorrect(ShortKind, "1/2", "0.5", [])
  {
    NormalizeHalf();
    NormalizePointFive();
  }
}

=== FILE: navigation.dfy ===
/** The application shell (`App.tsx`): the navigation bar of each role, the screen the
    worksheet editor returns to, the grade of a signed-in student, and the mapping of stored
    worksheet rows into library records. */
module Navigation {
  import opened Wrappers
  import opened Text
  import opened Types

  // ---------------------------------------------------------------- navigation bar

  /** `arr.splice(i, 0, x)`: `x` inserted before position `i`. */
  function Insert<T>(s: seq<T>, i: nat, x: T): (r: seq<T>)
    requires i <= |s|
    ensures |r| == |s| + 1 && r[i] == x
    ensures r[..i] == s[..i] && r[i + 1..] == s[i..]
  {
    s[..i] + [x] + s[i..]
  }

  /** The navigation bar: the four common tabs, the lessons tab for teachers, then the
      self-practice, essay and exam tabs spliced in after it (one position earlier without
      the lessons tab). */
  function NavItems(teacher: bool): (r: seq<Screen>)
    ensures teacher ==> r == [Dashboard, Lessons, Consolidation, AdminEssay, Exams, AiQa, Results, Leaderboard]
    ensures !teacher ==> r == [Dashboard, Consolidation, AdminEssay, Exams, AiQa, Results, Leaderboard]
  {
    var base := [Dashboard, AiQa, Results, Leaderboard];
    var withLessons := if teacher then Insert(base, 1, Lessons) else base;
    var withPractice := Insert(withLessons, if teacher then 2 else 1, Consolidation);
    var withEssay := Insert(withPractice, if teacher then 3 else 2, AdminEssay);
    Insert(withEssay, if teacher then 4 else 3, Exams)
  }

  predicate Distinct<T(==)>(s: seq<T>) {
    forall i, j :: 0 <= i < j < |s| ==> s[i] != s[j]
  }

  /** Students see the teachers' bar without the lessons tab, and no tab appears twice in
      either bar. */
  lemma NavRoles()
    ensures var t := NavItems(true);
      t[1] == Lessons && NavItems(false) == t[..1] + t[2..]
    ensures Distinct(NavItems(true)) && Distinct(NavItems(false))
    ensures Lessons !in NavItems(false)
  {
  }

  // ---------------------------------------------------------------- worksheet editor routing

  /** The part of the shell state that routing to and from the worksheet editor uses. */
  datatype Shell = Shell(
    active: Screen,
    selected: Option<PhieuBaiTap>,
    previousAdmin: Option<Screen>,
    worksheetGrade: string,
    worksheetType: string)

  /** The library listing of a worksheet type. */
  function TypeHome(worksheetType: string): (sc: Screen)
    ensures worksheetType == TU_LUAN ==> sc == AdminEssay
    ensures worksheetType == TU_LUYEN ==> sc == Consolidation
    ensures worksheetType != TU_LUAN && worksheetType != TU_LUYEN ==> sc == AdminWorksheets
  {
    if worksheetType == TU_LUAN then AdminEssay
    else if worksheetType == TU_LUYEN then Consolidation
    else AdminWorksheets
  }

  /** The editor's back button: students go to the dashboard; teachers go to the screen
      they came from when one is remembered, otherwise to the listing of the worksheet's
      type. */
  function Back(st: Shell, teacher: bool): (r: Shell)
    ensures r == st.(active := r.active)
    ensures !teacher ==> r.active == Dashboard
    ensures teacher && st.previousAdmin.Some? ==> r.active == st.previousAdmin.value
    ensures teacher && st.previousAdmin.None? ==> r.active == TypeHome(st.worksheetType)
  {
    if !teacher then st.(active := Dashboard)
    else match st.previousAdmin
      case Some(sc) => st.(active := sc)
      case None => st.(active := TypeHome(st.worksheetType))
  }

  /** Opening a worksheet from the dashboard forgets the screen to return to. */
  function OpenFromDashboard(st: Shell, w: PhieuBaiTap): (r: Shell)
    ensures r == st.(active := SmartWorksheet, selected := Some(w), previousAdmin := None)
  {
    st.(active := SmartWorksheet, selected := Some(w), previousAdmin := None)
  }

  /** The screens that list worksheets and can open one. */
  predicate IsListing(sc: Screen) {
    sc == Lessons || sc == AdminWorksheets || sc == Consolidation || sc == AdminConsolidation
    || sc == AdminEssay
  }

  /** The screens that can start a new worksheet: the listings and the lesson manager. */
  predicate CanCreate(sc: Screen) {
    IsListing(sc) || sc == AdminLessons
  }

  /** The screen a listing remembers as its own: the teachers' self-practice listing shares
      the screen of the self-practice tab. */
  function ListingHome(sc: Screen): Screen {
    if sc == AdminConsolidation then Consolidation else sc
  }

  /** The worksheet type of the editor opened by a screen's create button. */
  function ListingType(sc: Screen): string {
    if sc == Consolidation || sc == AdminConsolidation then TU_LUYEN
    else if sc == AdminEssay then TU_LUAN
    else LUYEN_TAP
  }

  /** Opening a worksheet from a listing remembers the listing; the worksheet type stays
      as it was. */
  function OpenFromListing(st: Shell, listing: Screen, w: PhieuBaiTap): (r: Shell)
    requires IsListing(listing)
    ensures r.active == SmartWorksheet && r.selected == Some(w)
    ensures r.previousAdmin == Some(ListingHome(listing))
    ensures r.worksheetGrade == st.worksheetGrade && r.worksheetType == st.worksheetType
  {
    st.(active := SmartWorksheet, selected := Some(w), previousAdmin := Some(ListingHome(listing)))
  }

  /** Creating a new worksheet clears the selection, opens the editor on the given grade
      (`'6'` when none is given) with the type of the screen, and remembers the screen. */
  function CreateNew(st: Shell, from: Screen, grade: string): (r: Shell)
    requires CanCreate(from)
    ensures r.active == SmartWorksheet && r.selected == None
    ensures r.worksheetGrade == (if grade != "" then grade else "6")
    ensures r.worksheetType == ListingType(from)
    ensures r.previousAdmin == Some(ListingHome(from))
  {
    Shell(SmartWorksheet, None, Some(ListingHome(from)), if grade != "" then grade else "6",
          ListingType(from))
  }

  /** A teacher who opens a worksheet from a listing comes back to that listing; a student
      comes back to the dashboard. */
  lemma BackAfterOpen(st: Shell, listing: Screen, w: PhieuBaiTap, teacher: bool)
    requires IsListing(listing)
    ensures Back(OpenFromListing(st, listing, w), teacher).active
      == (if teacher then ListingHome(listing) else Dashboard)
  {
  }

  /** A teacher who creates a worksheet comes back to the screen that created it. */
  lemma BackAfterCreate(st: Shell, from: Screen, grade: string, teacher: bool)
    requires CanCreate(from)
    ensures Back(CreateNew(st, from, grade), teacher).active
      == (if teacher then ListingHome(from) else Dashboard)
  {
  }

  /** From the type listings, the remembered screen and the worksheet type agree: without
      the remembered screen the back button would land on the same listing. Only the
      student-facing lessons tab and the lesson manager differ from the listing of their
      type. */
  lemma CreatedTypeLeadsHome(from: Screen)
    requires IsListing(from) && from != Lessons
    ensures TypeHome(ListingType(from)) == ListingHome(from)
  {
  }

  lemma LessonsTabNotTypeHome()
    ensures TypeHome(ListingType(Lessons)) == AdminWorksheets && ListingHome(Lessons) == Lessons
    ensures TypeHome(ListingType(AdminLessons)) == AdminWorksheets
  {
  }

  /** After a dashboard opening a teacher's back button falls back on the type of the last
      editor opened by a create button. */
  lemma BackAfterDashboard(st: Shell, w: PhieuBaiTap)
    ensures Back(OpenFromDashboard(st, w), true).active == TypeHome(st.worksheetType)
  {
  }

  // ---------------------------------------------------------------- student grade

  /** The grade passed to the student's listings: the first run of digits of the student's
      class, for a signed-in student whose class is not the placeholder `--`. */
  function StudentGrade(user: Option<NguoiDung>, lop: string): (g: Option<string>)
    ensures g.Some? ==> user.Some? && user.value.vaiTro == HocSinhRole && lop != "--"
    ensures g.Some? ==> g == FirstDigitRun(lop)
    ensures user.Some? && user.value.vaiTro == HocSinhRole && lop != "--" && FirstDigitRun(lop).Some?
      ==> g.Some?
  {
    if user.Some? && user.value.vaiTro == HocSinhRole && lop != "--" then FirstDigitRun(lop) else None
  }

  /** A student's grade is a non-empty run of digits taken from the class name, with no
      digit before it; teachers and placeholder classes have none. */
  lemma StudentGradeFromClass(user: Option<NguoiDung>, lop: string)
    requires StudentGrade(user, lop).Some?
    ensures var g := StudentGrade(user, lop).value;
      |g| > 0 && (forall i :: 0 <= i < |g| ==> IsDigit(g[i]))
      && DigitStart(lop) + |g| <= |lop| && lop[DigitStart(lop)..DigitStart(lop) + |g|] == g
      && (forall i :: 0 <= i < DigitStart(lop) ==> !IsDigit(lop[i]))
  {
    FirstDigitRunPosition(lop);
  }

  // ---------------------------------------------------------------- worksheet rows

  /** The stored class of a worksheet row: a number or a text. */
  datatype StoredLop = LopNumber(n: int) | LopText(text: string)

  /** A row of the worksheet table, in the store's column order. */
  datatype WorksheetRow = WorksheetRow(
    id: string,
    tenPhieu: string,
    lop: StoredLop,
    monHoc: string,
    noiDung: Option<WorksheetContent>,
    createdAt: string)

  /** `String(lop)`. */
  function LopString(l: StoredLop): string {
    match l
    case LopNumber(n) => IntToString(n)
    case LopText(t) => t
  }

  function MapRow(row: WorksheetRow): PhieuBaiTap {
    PhieuBaiTap(row.id, row.tenPhieu, LopString(row.lop), row.monHoc, row.noiDung, row.createdAt)
  }

  /** The mapped worksheet list: one record per row in the store's (newest first) order, the
      class turned into a string, the content passed on untouched; no rows at all give an
      empty list. */
  function MapWorksheetRows(rows: Option<seq<WorksheetRow>>): (ws: seq<PhieuBaiTap>)
    ensures rows.None? ==> ws == []
    ensures rows.Some? ==> |ws| == |rows.value|
    ensures rows.Some? ==> forall i :: 0 <= i < |ws| ==> (
      ws[i].id == rows.value[i].id && ws[i].tenPhieu == rows.value[i].tenPhieu
      && ws[i].monHoc == rows.value[i].monHoc && ws[i].noiDung == rows.value[i].noiDung
      && ws[i].ngayTao == rows.value[i].createdAt && ws[i].lop == LopString(rows.value[i].lop))
  {
    match rows
    case None => []
    case Some(rs) => seq(|rs|, i requires 0 <= i < |rs| => MapRow(rs[i]))
  }

  /** A grade stored as the number 6 to 9 becomes the one-digit text the grade filters
      compare with. */
  lemma NumericGradeText(n: int)
    requires 6 <= n <= 9
    ensures LopString(LopNumber(n)) == [DigitChar(n)]
    ensures |LopString(LopNumber(n))| == 1 && IsDigit(LopString(LopNumber(n))[0])
  {
  }

  /** Mapping the rows of two pages is mapping their concatenation: the order of the rows
      carries over. */
  lemma MapRowsAppend(a: seq<WorksheetRow>, b: seq<WorksheetRow>)
    ensures MapWorksheetRows(Some(a + b)) == MapWorksheetRows(Some(a)) + MapWorksheetRows(Some(b))
  {
    var l := MapWorksheetRows(Some(a + b));
    var r := MapWorksheetRows(Some(a)) + MapWorksheetRows(Some(b));
    assert |l| == |r|;
    forall i | 0 <= i < |l|
      ensures l[i] == r[i]
    {
      if i < |a| {
        assert (a + b)[i] == a[i];
      } else {
        assert (a + b)[i] == b[i - |a|];
      }
    }
  }
}

=== FILE: normalizer.dfy ===
/** `normalizeAnswer` of the smart worksheet: the canonical form in which a typed or chosen
    answer is compared with the expected one. */
module AnswerNormalizer {
  import opened Text

  /** The LaTeX leftovers `$`, `(`, `)` and `\` removed from answers. */
  predicate IsMathChar(c: char) {
    c == '$' || c == '(' || c == ')' || c == '\\'
  }

  /** Characters that never survive normalisation. */
  predicate IsJunk(c: char) {
    IsMathChar(c) || IsSpace(c)
  }

  /** The decimal comma written as a point. */
  function CommaToDot(c: char): (r: char)
    ensures r != ','
  {
    if c == ',' then '.' else c
  }

  /** A character that normalisation leaves as it is. */
  predicate CleanChar(c: char) {
    !IsJunk(c) && !IsUpperCase(c) && c != ','
  }

  /** A string with no upper-case letter, no whitespace, no `$()\` and no comma. */
  predicate Clean(r: string) {
    forall i :: 0 <= i < |r| ==> CleanChar(r[i])
  }

  /** The letters of a multiple-choice prefix (`[abcd]` under the `i` flag). */
  predicate IsOptionLetter(c: char) {
    c == 'a' || c == 'b' || c == 'c' || c == 'd' || c == 'A' || c == 'B' || c == 'C' || c == 'D'
  }

  predicate IsOptionSeparator(c: char) {
    c == '.' || c == ':' || c == ')'
  }

  /** `t.replace(/^([abcd])[\.:\)]/i, '$1')`: the separator after a leading option letter
      is removed; nothing else changes. */
  function StripOptionPrefix(t: string): (r: string)
    ensures r != t <==> |t| >= 2 && IsOptionLetter(t[0]) && IsOptionSeparator(t[1])
    ensures r != t ==> r == t[..1] + t[2..]
    ensures Clean(t) ==> Clean(r)
  {
    if |t| >= 2 && IsOptionLetter(t[0]) && IsOptionSeparator(t[1]) then [t[0]] + t[2..] else t
  }

  /** What one character becomes: nothing, or its lower-case form with a comma as a point. */
  function CanonChar(c: char): string {
    if IsJunk(c) then [] else [CommaToDot(LowerChar(c))]
  }

  /** Reference definition, one character at a time: whitespace and `$()\` vanish, every
      other character is lower-cased and a comma becomes a point. */
  function Canon(s: string): string {
    if s == [] then [] else CanonChar(s[0]) + Canon(s[1..])
  }

  /** The canonical form is clean. */
  lemma {:induction false} CanonClean(s: string)
    ensures Clean(Canon(s))
    decreases |s|
  {
    if s != [] {
      CanonClean(s[1..]);
      var a, b := CanonChar(s[0]), Canon(s[1..]);
      assert Clean(a) by {
        LowerKeepsJunk(s[0]);
      }
      assert forall i :: |a| <= i < |a + b| ==> (a + b)[i] == b[i - |a|];
    }
  }

  lemma LowerKeepsJunk(c: char)
    ensures IsJunk(LowerChar(c)) == IsJunk(c)
  {
  }

  lemma {:induction false} CanonOfLower(s: string)
    ensures MapChars(Drop(Lower(s), IsJunk), CommaToDot) == Canon(s)
    decreases |s|
  {
    if s != [] {
      var x := Lower(s);
      assert x[1..] == Lower(s[1..]);
      LowerKeepsJunk(s[0]);
      CanonOfLower(s[1..]);
      DropCons(x, IsJunk);
      var rest := Drop(x[1..], IsJunk);
      if !IsJunk(x[0]) {
        MapCharsCons([x[0]] + rest, CommaToDot);
        assert ([x[0]] + rest)[1..] == rest;
      }
    }
  }

  /** The string operations of `normalizeAnswer` before the option-prefix rewrite; they
      compute the one-pass canonical form. */
  function CleanPipeline(s: string): (r: string)
    ensures r == Canon(s)
  {
    var lowered := Lower(s);
    var trimmed := Trim(lowered);
    var noMath := Drop(trimmed, IsMathChar);
    var noSpace := Drop(noMath, IsSpace);
    DropDrop(trimmed, IsMathChar, IsSpace, IsJunk);
    DropTrim(lowered, IsJunk);
    CanonOfLower(s);
    MapChars(noSpace, CommaToDot)
  }

  /** The canonical form of an answer: the one-pass form followed by the option-prefix
      rewrite. `NormalizeAnswer` is proved to compute it. */
  function CanonicalAnswer(s: string): string {
    StripOptionPrefix(Canon(s))
  }

  /** `normalizeAnswer`: lower-case, trim, drop `$()\` and all whitespace, decimal comma to
      point, then drop the separator of a leading option letter. A null or empty input gives
      "" (absent inputs are represented by ""). The result is the one-pass canonical form
      followed by the option-prefix rewrite. */
  function NormalizeAnswer(s: string): (r: string)
    ensures r == CanonicalAnswer(s)
    ensures s == "" ==> r == ""
  {
    if s == "" then "" else StripOptionPrefix(CleanPipeline(s))
  }

  /** The output has no upper-case letter, whitespace, `$()\` or comma. */
  lemma NormalizeClean(s: string)
    ensures Clean(NormalizeAnswer(s))
  {
    CanonClean(s);
  }

  /** A string already in canonical form is its own canonical form. */
  lemma {:induction false} CanonFixed(r: string)
    requires Clean(r)
    ensures Canon(r) == r
    decreases |r|
  {
    if r != [] {
      assert CleanChar(r[0]);
      CanonFixed(r[1..]);
    }
  }

  /** The output starts with an option letter followed by `.` or `:`: the one shape that a
      second normalisation still rewrites. */
  predicate HasOptionPrefix(r: string) {
    |r| >= 2 && IsOptionLetter(r[0]) && (r[1] == '.' || r[1] == ':')
  }

  /** Normalising twice is normalising once, unless the output itself starts with an option
      letter and a separator. */
  lemma NormalizeIdempotent(s: string)
    ensures !HasOptionPrefix(NormalizeAnswer(s)) ==> NormalizeAnswer(NormalizeAnswer(s)) == NormalizeAnswer(s)
  {
    var r := NormalizeAnswer(s);
    if !HasOptionPrefix(r) {
      CanonClean(s);
      CanonFixed(r);
      if |r| >= 2 {
        assert CleanChar(r[1]);
      }
    }
  }

  /** Reads a literal example off the reference definition. */
  lemma NormalizeVia(s: string, c: string, r: string)
    requires Canon(s) == c && StripOptionPrefix(c) == r
    ensures NormalizeAnswer(s) == r
  {
  }

  /** One step of the reference definition, for reading literal examples off it. */
  lemma CanonStep(s: string)
    requires s != []
    ensures Canon(s) == CanonChar(s[0]) + Canon(s[1..])
  {
  }

  lemma CanonExamplesA1()
    ensures Canon("a..5") == "a..5"
  {
  }

  lemma CanonExamplesA2()
    ensures Canon("a.5") == "a.5"
  {
  }

  lemma CanonExamplesB()
    ensures Canon("A. 50km") == "a.50km"
  {
    assert LowerChar('A') == 'a';
  }

  lemma CanonExamplesC()
    ensures Canon("a)50 km") == "a50km"
  {
    CanonAppend("a)5", "0 km");
    assert "a)5" + "0 km" == "a)50 km";
    assert Canon("a)5") == "a5";
    assert Canon("0 km") == "0km";
  }

  /** Normalisation works piecewise: the canonical form of a concatenation is the
      concatenation of the canonical forms. */
  lemma {:induction false} CanonAppend(a: string, b: string)
    ensures Canon(a + b) == Canon(a) + Canon(b)
    decreases |a|
  {
    if a == [] {
      assert a + b == b;
    } else {
      assert (a + b)[0] == a[0] && (a + b)[1..] == a[1..] + b;
      CanonAppend(a[1..], b);
      var c := CanonChar(a[0]);
      assert c + (Canon(a[1..]) + Canon(b)) == (c + Canon(a[1..])) + Canon(b);
    }
  }

  lemma CanonExamplesD()
    ensures Canon(" 2,5 ") == "2.5"
  {
  }

  lemma StripExamples()
    ensures StripOptionPrefix("a..5") == "a.5"
    ensures StripOptionPrefix("a.5") == "a5"
    ensures StripOptionPrefix("a.50km") == "a50km"
    ensures StripOptionPrefix("a50km") == "a50km"
    ensures StripOptionPrefix("2.5") == "2.5"
  {
    StripLiteral("a..5", "a.5");
    StripLiteral("a.5", "a5");
    StripLiteral("a.50km", "a50km");
  }

  /** A literal with an option prefix loses its separator. */
  lemma StripLiteral(t: string, r: string)
    requires |t| >= 2 && IsOptionLetter(t[0]) && IsOptionSeparator(t[1]) && r == [t[0]] + t[2..]
    ensures StripOptionPrefix(t) == r
  {
  }

  /** The exception is real: "a..5" normalises to "a.5", which normalises to "a5". */
  lemma NotIdempotentExample()
    ensures NormalizeAnswer("a..5") == "a.5"
    ensures NormalizeAnswer("a.5") == "a5"
  {
    CanonExamplesA1();
    CanonExamplesA2();
    StripExamples();
    NormalizeVia("a..5", "a..5", "a.5");
    NormalizeVia("a.5", "a.5", "a5");
  }

  /** A chosen label with a point or a bracket, and spaces anywhere, meet the bare label
      form; a decimal comma is read as a point. */
  lemma PrefixExamples()
    ensures NormalizeAnswer("A. 50km") == "a50km"
    ensures NormalizeAnswer("a)50 km") == "a50km"
    ensures NormalizeAnswer(" 2,5 ") == "2.5"
  {
    CanonExamplesB();
    CanonExamplesC();
    CanonExamplesD();
    StripExamples();
    NormalizeVia("A. 50km", "a.50km", "a50km");
    NormalizeVia("a)50 km", "a50km", "a50km");
    NormalizeVia(" 2,5 ", "2.5", "2.5");
  }
}

=== FILE: remarks.dfy ===
/** Teacher remarks (`screens/Remarks.tsx`): picking a student fills the input with the
    student's remark, and saving writes the input as that student's remark, locally only
    when the store accepted it. */
module RemarkBook {
  import opened Wrappers
  import opened Lists
  import opened Types

  /** `find`: the first student with that id. */
  function SelectedStudent(students: seq<HocSinh>, id: string): (r: Option<HocSinh>)
    ensures r.Some? ==> r.value in students && r.value.id == id
    ensures r.None? <==> forall i :: 0 <= i < |students| ==> students[i].id != id
  {
    Find(students, (s: HocSinh) => s.id == id)
  }

  /** The search looks at the first student, then at the rest. */
  lemma SelectedCons(students: seq<HocSinh>, id: string)
    requires students != []
    ensures SelectedStudent(students, id) ==
      if students[0].id == id then Some(students[0]) else SelectedStudent(students[1..], id)
  {
  }

  /** The input-initialising effect: the selected student's remark, or "" without one. */
  function InitialInput(students: seq<HocSinh>, id: string): (r: string)
    ensures SelectedStudent(students, id).None? ==> r == ""
    ensures SelectedStudent(students, id).Some? ==> r == SelectedStudent(students, id).value.nhanXet
  {
    match SelectedStudent(students, id)
    case None => ""
    case Some(s) => s.nhanXet
  }

  /** The students with the remark of every student with that id replaced. */
  function SetRemark(students: seq<HocSinh>, id: string, remark: string): (r: seq<HocSinh>)
    ensures |r| == |students|
    ensures forall i :: 0 <= i < |r| && students[i].id == id ==> r[i] == students[i].(nhanXet := remark)
    ensures forall i :: 0 <= i < |r| && students[i].id != id ==> r[i] == students[i]
  {
    seq(|students|, i requires 0 <= i < |students| =>
      if students[i].id == id then students[i].(nhanXet := remark) else students[i])
  }

  /** `handleSave`: nothing without a selected student; after a successful store update the
      remark of every student with the selected id becomes the input; after a failed one the
      list is untouched. */
  function SaveRemark(students: seq<HocSinh>, selectedId: string, input: string, updateOk: bool): (r: seq<HocSinh>)
    ensures selectedId == "" || !updateOk ==> r == students
    ensures |r| == |students|
    ensures forall i :: 0 <= i < |r| ==> r[i].(nhanXet := students[i].nhanXet) == students[i]
    ensures forall i :: 0 <= i < |r| && students[i].id != selectedId ==> r[i] == students[i]
  {
    if selectedId == "" || !updateOk then students else SetRemark(students, selectedId, input)
  }

  /** After a successful save the input shows the saved remark again, and the selection is
      the same student as before. */
  lemma SavedRemarkReloads(students: seq<HocSinh>, id: string, input: string)
    requires id != ""
    ensures var r := SaveRemark(students, id, input, true);
      InitialInput(r, id) == (if SelectedStudent(students, id).Some? then input else "")
      && (SelectedStudent(students, id).Some? ==>
            SelectedStudent(r, id) == Some(SelectedStudent(students, id).value.(nhanXet := input)))
  {
    SavedSelection(students, id, input);
  }

  lemma {:induction false} SavedSelection(students: seq<HocSinh>, id: string, input: string)
    requires id != ""
    ensures SelectedStudent(SaveRemark(students, id, input, true), id) ==
      if SelectedStudent(students, id).Some? then Some(SelectedStudent(students, id).value.(nhanXet := input))
      else None
    decreases |students|
  {
    if students != [] {
      var r := SaveRemark(students, id, input, true);
      SavedSelection(students[1..], id, input);
      SaveRemarkCons(students, id, input);
      SelectedCons(students, id);
      SelectedCons(r, id);
    }
  }

  /** A successful save treats the first student, then the rest. */
  lemma SaveRemarkCons(students: seq<HocSinh>, id: string, input: string)
    requires id != "" && students != []
    ensures var r := SaveRemark(students, id, input, true);
      r != [] && r[1..] == SaveRemark(students[1..], id, input, true)
      && r[0] == if students[0].id == id then students[0].(nhanXet := input) else students[0]
  {
    var r := SaveRemark(students, id, input, true);
    assert r[1..] == SetRemark(students[1..], id, input);
  }

  /** The remark of every student other than the selected one is the same before and after
      a save, whatever the store answers. */
  lemma OthersKeepRemarks(students: seq<HocSinh>, selectedId: string, input: string, updateOk: bool, other: string)
    requires other != selectedId
    ensures InitialInput(SaveRemark(students, selectedId, input, updateOk), other) == InitialInput(students, other)
  {
    OthersKeepSelection(students, selectedId, input, updateOk, other);
  }

  lemma {:induction false} OthersKeepSelection(students: seq<HocSinh>, selectedId: string, input: string,
                                                updateOk: bool, other: string)
    requires other != selectedId
    ensures SelectedStudent(SaveRemark(students, selectedId, input, updateOk), other) == SelectedStudent(students, other)
    decreases |students|
  {
    if students != [] {
      var r := SaveRemark(students, selectedId, input, updateOk);
      OthersKeepSelection(students[1..], selectedId, input, updateOk, other);
      assert r[1..] == SaveRemark(students[1..], selectedId, input, updateOk);
      SelectedCons(students, other);
      SelectedCons(r, other);
    }
  }
}

=== FILE: results.dfy ===
/** The progress screen (`screens/Results.tsx`): the chart of a student's marks, the
    accumulated score, the number of exercises done, and the progress bar against the
    worksheets available for the student's grade. */
module ResultsView {
  import opened Wrappers
  import opened Text
  import opened Lists
  import opened Types
  import opened Scores
  import DashboardView

  /** One bar of the chart. */
  datatype ChartEntry = ChartEntry(name: string, value: real, semester: string)

  /** The bars of one term: the subject name with the term suffix, the mark. */
  function TermEntries(xs: seq<DiemSo>, semester: string): (r: seq<ChartEntry>)
    ensures |r| == |xs|
    ensures forall i :: 0 <= i < |r| ==>
      r[i] == ChartEntry(xs[i].monHoc + " (" + semester + ")", xs[i].diem, semester)
  {
    seq(|xs|, i requires 0 <= i < |xs| => ChartEntry(xs[i].monHoc + " (" + semester + ")", xs[i].diem, semester))
  }

  /** `chartData`: the bars of the first term, then those of the second. */
  function ChartData(h: HocSinh): (r: seq<ChartEntry>)
    ensures |r| == |h.diemSo.hocKy1| + |h.diemSo.hocKy2|
    ensures r[..|h.diemSo.hocKy1|] == TermEntries(h.diemSo.hocKy1, "HK1")
    ensures r[|h.diemSo.hocKy1|..] == TermEntries(h.diemSo.hocKy2, "HK2")
  {
    TermEntries(h.diemSo.hocKy1, "HK1") + TermEntries(h.diemSo.hocKy2, "HK2")
  }

  /** The left-to-right sum of the bar values (`totalScore`). */
  function SumValues(es: seq<ChartEntry>): real
    decreases |es|
  {
    if es == [] then 0.0 else SumValues(es[..|es| - 1]) + es[|es| - 1].value
  }

  lemma {:induction false} SumValuesAppend(a: seq<ChartEntry>, b: seq<ChartEntry>)
    ensures SumValues(a + b) == SumValues(a) + SumValues(b)
    decreases |b|
  {
    if b == [] {
      assert a + b == a;
    } else {
      var b' := b[..|b| - 1];
      assert (a + b)[..|a + b| - 1] == a + b';
      SumValuesAppend(a, b');
    }
  }

  lemma {:induction false} TermSum(xs: seq<DiemSo>, semester: string)
    ensures SumValues(TermEntries(xs, semester)) == SumDiem(xs)
    decreases |xs|
  {
    if xs != [] {
      var ys := xs[..|xs| - 1];
      TermSum(ys, semester);
      assert TermEntries(xs, semester)[..|xs| - 1] == TermEntries(ys, semester);
    }
  }

  /** The accumulated score of the progress screen is the leaderboard's total score, and
      the number of exercises done is its lesson count. */
  lemma ProgressMatchesLeaderboard(h: HocSinh)
    ensures SumValues(ChartData(h)) == TotalScore(h)
    ensures |ChartData(h)| == LessonCount(h)
  {
    SumValuesAppend(TermEntries(h.diemSo.hocKy1, "HK1"), TermEntries(h.diemSo.hocKy2, "HK2"));
    TermSum(h.diemSo.hocKy1, "HK1");
    TermSum(h.diemSo.hocKy2, "HK2");
  }

  /** The student's grade: the first digit run of the class unless it is the placeholder. */
  function ClassGrade(lop: string): (g: Option<string>)
    ensures g.Some? <==> lop != "--" && FirstDigitRun(lop).Some?
  {
    if lop != "--" then FirstDigitRun(lop) else None
  }

  /** The progress screen and the student dashboard read the same grade off the class. */
  lemma GradeAsOnDashboard(lop: string)
    ensures ClassGrade(lop) == DashboardView.DashboardGrade(false, lop)
  {
  }

  predicate Available(grade: Option<string>, w: PhieuBaiTap) {
    grade.None? || w.lop == grade.value
  }

  /** `totalAvailable`: the worksheets of the student's grade, or all of them when the class
      names no grade. */
  function TotalAvailable(ws: seq<PhieuBaiTap>, lop: string): (n: nat)
    ensures n <= |ws|
    ensures ClassGrade(lop).None? ==> n == |ws|
    ensures ClassGrade(lop).Some? ==> n == |Filter(ws, (w: PhieuBaiTap) => w.lop == ClassGrade(lop).value)|
  {
    var grade := ClassGrade(lop);
    assert grade.None? ==> Filter(ws, w => Available(grade, w)) == ws by {
      if grade.None? {
        FilterAll(ws, w => Available(grade, w));
      }
    }
    assert grade.Some? ==> Filter(ws, w => Available(grade, w)) == Filter(ws, (w: PhieuBaiTap) => w.lop == grade.value) by {
      if grade.Some? {
        FilterExt(ws, w => Available(grade, w), (w: PhieuBaiTap) => w.lop == grade.value);
      }
    }
    |Filter(ws, w => Available(grade, w))|
  }

  /** `displayTotal`: the available count, but at least five more than the exercises done. */
  function DisplayTotal(available: nat, completed: nat): (d: nat)
    ensures d >= available && d >= completed + 5
    ensures d == available || d == completed + 5
  {
    if available > completed + 5 then available else completed + 5
  }

  /** Done over total, for fewer done than the total. */
  lemma RatioBelowOne(c: nat, d: nat)
    requires c < d
    ensures (c as real) / (d as real) < 1.0
    ensures (c as real) / (d as real) * 100.0 < 100.0
  {
    var q := (c as real) / (d as real);
    assert q * (d as real) == c as real;
  }

  /** The divisor of the progress bar is positive and the bar never fills up: done over
      total stays below one, so the width is never clamped at 100%. */
  lemma ProgressBelowFull(h: HocSinh, ws: seq<PhieuBaiTap>)
    ensures var completed := |ChartData(h)|;
      var d := DisplayTotal(TotalAvailable(ws, h.lop), completed);
      d > 0 && (completed as real) / (d as real) < 1.0
      && (completed as real) / (d as real) * 100.0 < 100.0
  {
    var completed := |ChartData(h)|;
    RatioBelowOne(completed, DisplayTotal(TotalAvailable(ws, h.lop), completed));
  }
}

=== FILE: scores.dfy ===
/** The score sums of a student that the ranking and the progress screen share: the sum of
    the marks of a term (`reduce((sum, item) => sum + item.diem, 0)`), the total over both
    terms and the number of marks. Marks are exact reals. */
module Scores {
  import opened Types

  /** The left-to-right sum of the marks. */
  function SumDiem(xs: seq<DiemSo>): real
    decreases |xs|
  {
    if xs == [] then 0.0 else SumDiem(xs[..|xs| - 1]) + xs[|xs| - 1].diem
  }

  /** The sum of a concatenation is the sum of the sums. */
  lemma {:induction false} SumDiemAppend(a: seq<DiemSo>, b: seq<DiemSo>)
    ensures SumDiem(a + b) == SumDiem(a) + SumDiem(b)
    decreases |b|
  {
    if b == [] {
      assert a + b == a;
    } else {
      var b' := b[..|b| - 1];
      assert (a + b)[..|a + b| - 1] == a + b';
      SumDiemAppend(a, b');
    }
  }

  /** Marks that are all at least zero sum to at least zero. */
  lemma {:induction false} SumDiemNonNegative(xs: seq<DiemSo>)
    requires forall i :: 0 <= i < |xs| ==> xs[i].diem >= 0.0
    ensures SumDiem(xs) >= 0.0
    decreases |xs|
  {
    if xs != [] {
      SumDiemNonNegative(xs[..|xs| - 1]);
    }
  }

  /** `calculateTotalScore`: the sum of the first term's marks plus the sum of the second's. */
  function TotalScore(h: HocSinh): real {
    SumDiem(h.diemSo.hocKy1) + SumDiem(h.diemSo.hocKy2)
  }

  /** `calculateLessonCount`: the number of marks of both terms. */
  function LessonCount(h: HocSinh): nat {
    |h.diemSo.hocKy1| + |h.diemSo.hocKy2|
  }

  /** The total score is the sum of all the marks of the year, in term order. */
  lemma TotalIsYearSum(h: HocSinh)
    ensures TotalScore(h) == SumDiem(h.diemSo.hocKy1 + h.diemSo.hocKy2)
    ensures LessonCount(h) == |h.diemSo.hocKy1 + h.diemSo.hocKy2|
  {
    SumDiemAppend(h.diemSo.hocKy1, h.diemSo.hocKy2);
  }
}

=== FILE: session.dfy ===
/** The state of one smart-worksheet screen: the worksheet on display, the per-question
    answers, verdicts and locks, the running score, and the transitions that change them
    (submit, edit, reset, load, generate, save). The score is kept in half-points. */
module WorksheetSession {
  import opened Wrappers
  import opened Types
  import opened AnswerMatcher

  datatype Step = InputStep | WorksheetStep

  datatype Verdict = Correct | Wrong

  /** `answers`, `status` and `locked` are keyed by question id; `explanations` and `hints`
      are the ids whose explanation or hint is open. */
  datatype Session = Session(
    step: Step,
    data: Option<WorksheetContent>,
    selectedClass: string,
    lessonName: string,
    hasFile: bool,
    answers: map<int, string>,
    status: map<int, Verdict>,
    locked: set<int>,
    explanations: set<int>,
    hints: set<int>,
    scoreHalves: nat,
    correctCount: nat,
    wrongCount: nat,
    isSaved: bool)

  /** The screen as first mounted, before the initial-data effect runs. */
  function Initial(): (s: Session)
    ensures s.step == InputStep && s.data == None && s.selectedClass == "6"
    ensures Valid(s)
  {
    Session(InputStep, None, "6", "", false, map[], map[], {}, {}, {}, 0, 0, 0, false)
  }

  /** The number of questions the point value is based on: `questions.length || 1`. */
  function QuestionTotal(data: Option<WorksheetContent>): (n: nat)
    ensures n >= 1
    ensures data.Some? && data.value.questions.Some? && |data.value.questions.value| > 0
        ==> n == |data.value.questions.value|
  {
    if data.Some? && data.value.questions.Some? && |data.value.questions.value| > 0
    then |data.value.questions.value|
    else 1
  }

  /** The point value of one question, in half-points: half a point from twenty questions
      on, one point below. */
  function PointHalves(data: Option<WorksheetContent>): (h: nat)
    ensures h == 1 <==> QuestionTotal(data) >= 20
    ensures h == 2 <==> QuestionTotal(data) < 20
  {
    if QuestionTotal(data) >= 20 then 1 else 2
  }

  /** The ids with a correct verdict. */
  function CorrectIds(status: map<int, Verdict>): set<int> {
    set q | q in status && status[q] == Correct
  }

  /** The bookkeeping the screen keeps consistent: one verdict per locked question, every
      locked question has its answer, the counts add up, and (on the worksheet step) the
      score is the correct count times the point value. */
  predicate Valid(s: Session) {
    s.status.Keys == s.locked
    && s.locked <= s.answers.Keys
    && s.correctCount + s.wrongCount == |s.locked|
    && s.correctCount == |CorrectIds(s.status)|
    && (s.step == WorksheetStep ==> s.scoreHalves == s.correctCount * PointHalves(s.data))
  }

  /** `resetGrading`: no answer, verdict, lock, open explanation or hint; zero score and
      counts; not saved. Nothing else changes. */
  function ResetGrading(s: Session): (r: Session)
    ensures r.answers == map[] && r.status == map[] && r.locked == {}
    ensures r.explanations == {} && r.hints == {}
    ensures r.scoreHalves == 0 && r.correctCount == 0 && r.wrongCount == 0 && !r.isSaved
    ensures r.step == s.step && r.data == s.data && r.selectedClass == s.selectedClass
    ensures r.lessonName == s.lessonName && r.hasFile == s.hasFile
    ensures Valid(r)
  {
    s.(answers := map[], status := map[], locked := {}, explanations := {}, hints := {},
       scoreHalves := 0, correctCount := 0, wrongCount := 0, isSaved := false)
  }

  /** What the grading handler does once the verdict `ok` is known: a locked question is
      left alone; otherwise the verdict, the lock and the answer are recorded, exactly one
      count goes up, and the point value is added when the verdict is correct. */
  function RecordVerdict(s: Session, qId: int, userVal: string, ok: bool): (r: Session)
    ensures qId in s.locked ==> r == s
    ensures qId !in s.locked ==>
      && r.locked == s.locked + {qId}
      && r.status == s.status[qId := if ok then Correct else Wrong]
      && r.answers == s.answers[qId := userVal]
      && r.correctCount == s.correctCount + (if ok then 1 else 0)
      && r.wrongCount == s.wrongCount + (if ok then 0 else 1)
      && r.scoreHalves == s.scoreHalves + (if ok then PointHalves(s.data) else 0)
      && r.step == s.step && r.data == s.data && r.isSaved == s.isSaved
      && r.explanations == s.explanations && r.hints == s.hints
      && r.selectedClass == s.selectedClass && r.lessonName == s.lessonName
      && r.hasFile == s.hasFile
  {
    if qId in s.locked then s
    else
      s.(status := s.status[qId := if ok then Correct else Wrong],
         locked := s.locked + {qId},
         answers := s.answers[qId := userVal],
         correctCount := if ok then s.correctCount + 1 else s.correctCount,
         wrongCount := if ok then s.wrongCount else s.wrongCount + 1,
         scoreHalves := if ok then s.scoreHalves + PointHalves(s.data) else s.scoreHalves)
  }

  /** `handleImmediateCheck`: the verdict of the matcher, recorded for an unlocked question. */
  function Submit(s: Session, qId: int, userVal: string, kind: GradingKind, correctAns: string,
                  options: seq<string>): (r: Session)
    ensures r == RecordVerdict(s, qId, userVal, IsCorrect(kind, userVal, correctAns, options))
    ensures qId in s.locked ==> r == s
    ensures qId !in s.locked ==> (r.status[qId] == Correct <==> IsCorrect(kind, userVal, correctAns, options))
  {
    RecordVerdict(s, qId, userVal, IsCorrect(kind, userVal, correctAns, options))
  }

  /** `handleInputChange`: the typed answer of an unlocked question; a locked one is left
      alone. */
  function Edit(s: Session, qId: int, value: string): (r: Session)
    ensures qId in s.locked ==> r == s
    ensures qId !in s.locked ==> r == s.(answers := s.answers[qId := value])
  {
    if qId in s.locked then s else s.(answers := s.answers[qId := value])
  }

  /** Toggle of the hint of a question. */
  function ToggleHint(s: Session, qId: int): (r: Session)
    ensures qId in r.hints <==> qId !in s.hints
    ensures forall p :: p != qId ==> (p in r.hints <==> p in s.hints)
    ensures r == s.(hints := r.hints)
  {
    if qId in s.hints then s.(hints := s.hints - {qId}) else s.(hints := s.hints + {qId})
  }

  /** "Xem kết quả": opens the explanation of a question for good. */
  function ShowExplanation(s: Session, qId: int): (r: Session)
    ensures r.explanations == s.explanations + {qId}
    ensures r == s.(explanations := r.explanations)
  {
    s.(explanations := s.explanations + {qId})
  }

  /** The initial-data effect. A worksheet opens on the worksheet step with the grade of the
      worksheet (when it has one) and a clean grading state; no worksheet means the input
      step, the given grade (when there is one), and no data, lesson name or file, with the
      grading state left as it was. */
  function LoadInitial(s: Session, initialData: Option<PhieuBaiTap>, initialGrade: string): (r: Session)
    ensures initialData.Some? ==>
      && r.step == WorksheetStep && r.data == initialData.value.noiDung
      && r.selectedClass == (if initialData.value.lop != "" then initialData.value.lop else s.selectedClass)
      && r == ResetGrading(s).(step := r.step, data := r.data, selectedClass := r.selectedClass)
    ensures initialData.None? ==>
      && r.step == InputStep && r.data == None && r.lessonName == "" && !r.hasFile
      && r.selectedClass == (if initialGrade != "" then initialGrade else s.selectedClass)
      && r == s.(step := r.step, data := r.data, lessonName := r.lessonName, hasFile := r.hasFile,
                 selectedClass := r.selectedClass)
  {
    match initialData
    case Some(w) =>
      var cls := if w.lop != "" then w.lop else s.selectedClass;
      ResetGrading(s.(data := w.noiDung, selectedClass := cls, step := WorksheetStep))
    case None =>
      var cls := if initialGrade != "" then initialGrade else s.selectedClass;
      s.(step := InputStep, selectedClass := cls, data := None, lessonName := "", hasFile := false)
  }

  /** The lesson title sent to the generator: the bare lesson name with a file attached,
      otherwise "chapter - lesson" when a chapter is selected. */
  function GenerateTitle(hasFile: bool, chapter: string, lessonName: string): (t: string)
    ensures hasFile || chapter == "" ==> t == lessonName
    ensures !hasFile && chapter != "" ==> t == chapter + " - " + lessonName
  {
    if hasFile then lessonName
    else if chapter != "" then chapter + " - " + lessonName
    else lessonName
  }

  /** `handleGenerate`, with the generator's outcome as a parameter: nothing happens without a
      lesson name or a file; otherwise grading is reset before the call and the worksheet and
      step are replaced only on success. */
  function Generate(s: Session, outcome: Result<WorksheetContent, string>): (r: Session)
    ensures s.lessonName == "" && !s.hasFile ==> r == s
    ensures (s.lessonName != "" || s.hasFile) && outcome.Err? ==> r == ResetGrading(s)
    ensures (s.lessonName != "" || s.hasFile) && outcome.Ok? ==>
      r == ResetGrading(s).(data := Some(outcome.value), step := WorksheetStep)
  {
    if s.lessonName == "" && !s.hasFile then s
    else
      var cleared := ResetGrading(s);
      match outcome
      case Ok(content) => cleared.(data := Some(content), step := WorksheetStep)
      case Err(_) => cleared
  }

  /** The name under which a worksheet is saved: its own lesson name, else the typed lesson
      name, else "Bài tập mới". */
  function SaveName(content: WorksheetContent, lessonName: string): (n: string)
    ensures n != ""
    ensures content.lessonName != "" ==> n == content.lessonName
    ensures content.lessonName == "" && lessonName != "" ==> n == lessonName
    ensures content.lessonName == "" && lessonName == "" ==> n == "Bài tập mới"
  {
    if content.lessonName != "" then content.lessonName
    else if lessonName != "" then lessonName
    else "Bài tập mới"
  }

  /** The row a save would insert; `None` when the double-save guard stops it (no worksheet,
      or already saved). */
  function SaveRequest(s: Session, targetType: string): (r: Option<NewWorksheet>)
    ensures r.None? <==> s.data.None? || s.isSaved
    ensures r.Some? ==> (r.value.noiDung == s.data.value && r.value.lop == s.selectedClass
                         && r.value.monHoc == targetType && r.value.tenPhieu == SaveName(s.data.value, s.lessonName))
  {
    if s.data.None? || s.isSaved then None
    else Some(NewWorksheet(SaveName(s.data.value, s.lessonName), s.selectedClass, targetType, s.data.value))
  }

  /** `handleSaveToLibrary`, with the insert's success as a parameter: the session is marked
      saved only when a guarded-in insert succeeds; nothing else changes. */
  function Save(s: Session, targetType: string, insertOk: bool): (r: Session)
    ensures r.isSaved <==> s.isSaved || (SaveRequest(s, targetType).Some? && insertOk)
    ensures r == s.(isSaved := r.isSaved)
  {
    if SaveRequest(s, targetType).Some? && insertOk then s.(isSaved := true) else s
  }

  /** The three-second timer after a save. */
  function SavedTimerElapsed(s: Session): (r: Session)
    ensures !r.isSaved && r == s.(isSaved := false)
  {
    s.(isSaved := false)
  }

  /** `isFileMode`: an uploaded file, or a non-empty string payload without questions. */
  predicate IsFileMode(data: Option<WorksheetContent>) {
    data.Some? &&
    (data.value.kind == UPLOADED_FILE
     || (data.value.data.TextData? && data.value.data.text != ""
         && (data.value.questions.None? || |data.value.questions.value| == 0)))
  }

  /** The questions rendered as interactive cards: none in file mode. */
  function RenderedQuestions(s: Session): (qs: seq<Question>)
    ensures IsFileMode(s.data) || s.data.None? ==> qs == []
    ensures !IsFileMode(s.data) && s.data.Some? ==> qs == s.data.value.questions.GetOr([])
  {
    if s.data.None? || IsFileMode(s.data) then [] else s.data.value.questions.GetOr([])
  }

  /** The fixed scoreboard: on the worksheet step, with a worksheet, outside file mode. */
  predicate ScoreboardShown(s: Session) {
    s.step == WorksheetStep && !IsFileMode(s.data) && s.data.Some?
  }

  /** The actions footer (finish, redo, save): inside the worksheet view, which needs the
      worksheet step and a worksheet, and outside file mode. */
  predicate FooterShown(s: Session) {
    s.step == WorksheetStep && s.data.Some? && !IsFileMode(s.data)
  }

  /** The file viewer and the graded view are exclusive. */
  lemma FileModeExclusive(s: Session)
    ensures IsFileMode(s.data) ==> RenderedQuestions(s) == [] && !ScoreboardShown(s) && !FooterShown(s)
    ensures s.step == WorksheetStep && s.data.Some? && !IsFileMode(s.data) ==> FooterShown(s)
    ensures FooterShown(s) <==> ScoreboardShown(s)
  {
  }

  /** A click on a question card. */
  datatype Click =
    | OptionClick(q: Question, i: nat)
    | TruthClick(q: Question, yes: bool)
    | TypeText(q: Question, text: string)
    | ConfirmClick(q: Question)
    | HintClick(q: Question)
    | ExplainClick(q: Question)

  function ClickQuestion(c: Click): Question {
    c.q
  }

  /** The control behind a click is on screen: the card is rendered, the question has that
      kind of control, and hint and explanation buttons follow the worksheet category. */
  predicate Available(s: Session, c: Click, selfPractice: bool) {
    var q := ClickQuestion(c);
    q in RenderedQuestions(s) && s.step == WorksheetStep &&
    match c
    case OptionClick(_, i) =>
      q.qtype == MultipleChoice && q.options.Some? && i < |q.options.value| && 65 + i < 0xD800
    case TruthClick(_, _) => q.qtype == TrueFalse
    case TypeText(_, _) => (q.qtype == ShortAnswer || q.qtype == Application) && q.id !in s.locked
    case ConfirmClick(_) =>
      (q.qtype == ShortAnswer || q.qtype == Application) && q.id !in s.locked
      && q.id in s.answers && s.answers[q.id] != ""
    case HintClick(_) => selfPractice && q.explanation != ""
    case ExplainClick(_) => !selfPractice && q.id in s.locked
  }

  /** The screen's response to a click; a click on a control that is not there does nothing. */
  function Dispatch(s: Session, c: Click, selfPractice: bool): (r: Session)
    ensures !Available(s, c, selfPractice) ==> r == s
    ensures Available(s, c, selfPractice) && c.OptionClick? ==>
      r == Submit(s, c.q.id, Label(c.i), ChoiceKind, c.q.correctAnswer, c.q.options.value)
    ensures Available(s, c, selfPractice) && c.TruthClick? ==>
      r == Submit(s, c.q.id, if c.yes then "Đúng" else "Sai", TruthKind, c.q.correctAnswer, [])
    ensures Available(s, c, selfPractice) && c.ConfirmClick? ==>
      r == Submit(s, c.q.id, s.answers[c.q.id], ShortKind, c.q.correctAnswer, [])
    ensures Available(s, c, selfPractice) && c.TypeText? ==> r == Edit(s, c.q.id, c.text)
    ensures Available(s, c, selfPractice) && c.HintClick? ==> r == ToggleHint(s, c.q.id)
    ensures Available(s, c, selfPractice) && c.ExplainClick? ==> r == ShowExplanation(s, c.q.id)
  {
    if !Available(s, c, selfPractice) then s
    else
      match c
      case OptionClick(q, i) => Submit(s, q.id, Label(i), ChoiceKind, q.correctAnswer, q.options.value)
      case TruthClick(q, yes) => Submit(s, q.id, if yes then "Đúng" else "Sai", TruthKind, q.correctAnswer, [])
      case TypeText(q, text) => Edit(s, q.id, text)
      case ConfirmClick(q) => Submit(s, q.id, s.answers[q.id], ShortKind, q.correctAnswer, [])
      case HintClick(q) => ToggleHint(s, q.id)
      case ExplainClick(q) => ShowExplanation(s, q.id)
  }

  /** Adding one verdict for a fresh id adds it to the correct ids exactly when it is correct. */
  lemma CorrectIdsAdd(status: map<int, Verdict>, q: int, v: Verdict)
    requires q !in status
    ensures |CorrectIds(status[q := v])| == |CorrectIds(status)| + (if v == Correct then 1 else 0)
  {
    if v == Correct {
      assert CorrectIds(status[q := v]) == CorrectIds(status) + {q};
    } else {
      assert CorrectIds(status[q := v]) == CorrectIds(status);
    }
  }

  lemma RecordPreservesValid(s: Session, qId: int, userVal: string, ok: bool)
    requires Valid(s)
    ensures Valid(RecordVerdict(s, qId, userVal, ok))
  {
    if qId !in s.locked {
      var r := RecordVerdict(s, qId, userVal, ok);
      CorrectIdsAdd(s.status, qId, if ok then Correct else Wrong);
      assert r.status.Keys == r.locked;
      assert |r.locked| == |s.locked| + 1;
      if ok {
        assert (s.correctCount + 1) * PointHalves(s.data) == s.correctCount * PointHalves(s.data) + PointHalves(s.data);
      }
    }
  }

  lemma SubmitPreservesValid(s: Session, qId: int, userVal: string, kind: GradingKind,
                             correctAns: string, options: seq<string>)
    requires Valid(s)
    ensures Valid(Submit(s, qId, userVal, kind, correctAns, options))
  {
    RecordPreservesValid(s, qId, userVal, IsCorrect(kind, userVal, correctAns, options));
  }

  lemma EditPreservesValid(s: Session, qId: int, value: string)
    requires Valid(s)
    ensures Valid(Edit(s, qId, value))
  {
  }

  /** Every transition of the screen keeps the bookkeeping consistent. */
  lemma TransitionsPreserveValid(s: Session, c: Click, selfPractice: bool,
                                 initialData: Option<PhieuBaiTap>, initialGrade: string,
                                 outcome: Result<WorksheetContent, string>, targetType: string, insertOk: bool)
    requires Valid(s)
    ensures Valid(Dispatch(s, c, selfPractice))
    ensures Valid(LoadInitial(s, initialData, initialGrade))
    ensures Valid(Generate(s, outcome))
    ensures Valid(Save(s, targetType, insertOk))
    ensures Valid(SavedTimerElapsed(s))
  {
    DispatchPreservesValid(s, c, selfPractice);
  }

  lemma DispatchPreservesValid(s: Session, c: Click, selfPractice: bool)
    requires Valid(s)
    ensures Valid(Dispatch(s, c, selfPractice))
  {
    if Available(s, c, selfPractice) {
      match c
      case OptionClick(q, i) =>
        SubmitPreservesValid(s, q.id, Label(i), ChoiceKind, q.correctAnswer, q.options.value);
      case TruthClick(q, yes) =>
        SubmitPreservesValid(s, q.id, if yes then "Đúng" else "Sai", TruthKind, q.correctAnswer, []);
      case ConfirmClick(q) =>
        SubmitPreservesValid(s, q.id, s.answers[q.id], ShortKind, q.correctAnswer, []);
      case TypeText(q, text) =>
        EditPreservesValid(s, q.id, text);
      case HintClick(_) =>
      case ExplainClick(_) =>
    }
  }

  /** A locked question is frozen: no click changes its answer or verdict, and it stays
      locked. */
  lemma LockedFrozen(s: Session, c: Click, selfPractice: bool, qId: int)
    requires Valid(s) && qId in s.locked
    ensures var r := Dispatch(s, c, selfPractice);
      qId in r.locked && qId in r.answers && r.answers[qId] == s.answers[qId]
      && r.status[qId] == s.status[qId]
  {
    assert qId in s.status.Keys;
  }

  /** A click on a locked question changes nothing at all, except opening its explanation
      or toggling its hint. */
  lemma LockedClickNoOp(s: Session, c: Click, selfPractice: bool)
    requires c.q.id in s.locked && !c.HintClick? && !c.ExplainClick?
    ensures Dispatch(s, c, selfPractice) == s
  {
  }

  /** One graded submission: the question, the answer and the verdict. */
  datatype Graded = Graded(qId: int, userVal: string, ok: bool)

  /** A sequence of graded submissions, recorded in order. */
  function RecordAll(s: Session, subs: seq<Graded>): Session
    decreases |subs|
  {
    if subs == [] then s
    else RecordAll(RecordVerdict(s, subs[0].qId, subs[0].userVal, subs[0].ok), subs[1..])
  }

  predicate AllCorrect(subs: seq<Graded>) {
    forall k :: 0 <= k < |subs| ==> subs[k].ok
  }

  predicate DistinctIds(subs: seq<Graded>) {
    forall j, k :: 0 <= j < k < |subs| ==> subs[j].qId != subs[k].qId
  }

  function Ids(subs: seq<Graded>): set<int> {
    set k | 0 <= k < |subs| :: subs[k].qId
  }

  lemma IdsCons(subs: seq<Graded>)
    requires subs != []
    ensures Ids(subs) == {subs[0].qId} + Ids(subs[1..])
  {
    var rest := subs[1..];
    forall y | y in Ids(subs) ensures y in {subs[0].qId} + Ids(rest) {
      var k :| 0 <= k < |subs| && subs[k].qId == y;
      if k > 0 {
        assert rest[k - 1].qId == y;
      }
    }
    forall y | y in Ids(rest) ensures y in Ids(subs) {
      var k :| 0 <= k < |rest| && rest[k].qId == y;
      assert subs[k + 1].qId == y;
    }
  }

  /** Correct first submissions of distinct, unlocked questions each add one correct answer
      and one point value, and lock their questions. */
  lemma {:induction false} RecordAllCorrect(s: Session, subs: seq<Graded>)
    requires AllCorrect(subs) && DistinctIds(subs)
    requires forall k :: 0 <= k < |subs| ==> subs[k].qId !in s.locked
    ensures var r := RecordAll(s, subs);
      r.correctCount == s.correctCount + |subs| && r.wrongCount == s.wrongCount
      && r.scoreHalves == s.scoreHalves + |subs| * PointHalves(s.data)
      && r.locked == s.locked + Ids(subs) && r.data == s.data
    decreases |subs|
  {
    if subs != [] {
      var x := subs[0];
      assert x.ok;
      var t := RecordVerdict(s, x.qId, x.userVal, x.ok);
      var rest := subs[1..];
      assert forall k :: 0 <= k < |rest| ==> rest[k] == subs[k + 1];
      assert forall k :: 0 <= k < |rest| ==> rest[k].qId !in t.locked;
      RecordAllCorrect(t, rest);
      IdsCons(subs);
      var p := PointHalves(s.data);
      assert |subs| * p == |rest| * p + p;
    }
  }

  /** A whole sheet of ten, or of twenty, questions answered correctly from a fresh grading
      state totals ten points. */
  lemma FullMarksIsTen(s: Session, subs: seq<Graded>)
    requires s.data.Some? && s.data.value.questions.Some?
    requires |s.data.value.questions.value| == 10 || |s.data.value.questions.value| == 20
    requires |subs| == |s.data.value.questions.value|
    requires s.locked == {} && s.scoreHalves == 0
    requires AllCorrect(subs) && DistinctIds(subs)
    ensures RecordAll(s, subs).scoreHalves == 20
  {
    RecordAllCorrect(s, subs);
  }
}

=== FILE: text.dfy ===
/** The JavaScript string operations the application relies on, over `string = seq<char>`:
    case mapping, `\s`, `trim`, `includes`, `startsWith`, global `replace`, `split`/`join`,
    the first `\d+` match and `String(n)` for naturals. */
module Text {
  import opened Wrappers

  /** A character matched by `\s` in a JavaScript regular expression; the same set is removed
      by `String.prototype.trim`. */
  predicate IsSpace(c: char) {
    var n := c as int;
    (9 <= n <= 13) || n == 32 || n == 0xA0 || n == 0x1680 || (0x2000 <= n <= 0x200A)
    || n == 0x2028 || n == 0x2029 || n == 0x202F || n == 0x205F || n == 0x3000 || n == 0xFEFF
  }

  /** `\d` (ASCII digits only). */
  predicate IsDigit(c: char) {
    '0' <= c <= '9'
  }

  /** An upper-case letter of the blocks that hold the Vietnamese alphabet, paired with the
      next code point as its lower case: Latin Extended-A (without `İ`, whose lower case is
      two characters), `Ơ`, `Ư` and Latin Extended Additional. */
  predicate PairedUpper(n: int) {
    (0x100 <= n < 0x130 && n % 2 == 0) || (0x132 <= n < 0x138 && n % 2 == 0)
    || (0x139 <= n < 0x149 && n % 2 == 1) || (0x14A <= n < 0x178 && n % 2 == 0)
    || (0x179 <= n < 0x17F && n % 2 == 1) || n == 0x1A0 || n == 0x1AF
    || (0x1E00 <= n < 0x1E96 && n % 2 == 0) || (0x1EA0 <= n < 0x1F00 && n % 2 == 0)
  }

  /** An upper-case letter of Basic Latin, Latin-1 or the paired blocks, or `Ÿ` or `ẞ`. */
  predicate IsUpperCase(c: char) {
    var n := c as int;
    ('A' <= c <= 'Z') || (0xC0 <= n <= 0xDE && n != 0xD7) || PairedUpper(n) || n == 0x178 || n == 0x1E9E
  }

  /** `toLowerCase` on one character, for the Latin blocks that hold every Vietnamese letter;
      other characters are left as they are. */
  function LowerChar(c: char): (r: char)
    ensures !('A' <= r <= 'Z') && r != 'Đ'
    ensures !IsUpperCase(r)
    ensures r != c <==> IsUpperCase(c)
    ensures IsSpace(r) <==> IsSpace(c)
  {
    var n := c as int;
    if 'A' <= c <= 'Z' || (0xC0 <= n <= 0xDE && n != 0xD7) then (n + 32) as char
    else if PairedUpper(n) then (n + 1) as char
    else if n == 0x178 then 0xFF as char
    else if n == 0x1E9E then 0xDF as char
    else c
  }

  /** `toUpperCase` on one character: the inverse of `LowerChar` on its image, except `ß`,
      whose upper case is two characters. */
  function UpperChar(c: char): (r: char)
    ensures !('a' <= r <= 'z') && r != 'đ'
    ensures IsUpperCase(c) ==> r == c
  {
    var n := c as int;
    if 'a' <= c <= 'z' || (0xE0 <= n <= 0xFE && n != 0xF7) then (n - 32) as char
    else if PairedUpper(n - 1) then (n - 1) as char
    else if n == 0xFF then 0x178 as char
    else c
  }

  function Lower(s: string): (r: string)
    ensures |r| == |s|
    ensures forall i :: 0 <= i < |s| ==> r[i] == LowerChar(s[i])
  {
    seq(|s|, i requires 0 <= i < |s| => LowerChar(s[i]))
  }

  function Upper(s: string): (r: string)
    ensures |r| == |s|
    ensures forall i :: 0 <= i < |s| ==> r[i] == UpperChar(s[i])
  {
    seq(|s|, i requires 0 <= i < |s| => UpperChar(s[i]))
  }

  /** Leading whitespace removed. */
  function TrimStart(s: string): (r: string)
    ensures |r| <= |s| && r == s[|s| - |r|..]
    ensures r == [] || !IsSpace(r[0])
  {
    if |s| > 0 && IsSpace(s[0]) then TrimStart(s[1..]) else s
  }

  /** Trailing whitespace removed. */
  function TrimEnd(s: string): (r: string)
    ensures |r| <= |s| && r == s[..|r|]
    ensures r == [] || !IsSpace(r[|r| - 1])
  {
    if |s| > 0 && IsSpace(s[|s| - 1]) then TrimEnd(s[..|s| - 1]) else s
  }

  /** `TrimStart` removes whitespace only. */
  lemma {:induction false} TrimStartSpaces(s: string)
    ensures forall i :: 0 <= i < |s| - |TrimStart(s)| ==> IsSpace(s[i])
    decreases |s|
  {
    if |s| > 0 && IsSpace(s[0]) {
      TrimStartSpaces(s[1..]);
      assert forall i :: 1 <= i < |s| - |TrimStart(s)| ==> s[i] == s[1..][i - 1];
    }
  }

  /** `TrimEnd` removes whitespace only. */
  lemma {:induction false} TrimEndSpaces(s: string)
    ensures forall i :: |TrimEnd(s)| <= i < |s| ==> IsSpace(s[i])
    decreases |s|
  {
    if |s| > 0 && IsSpace(s[|s| - 1]) {
      TrimEndSpaces(s[..|s| - 1]);
    }
  }

  /** Number of leading whitespace characters. */
  function TrimOffset(s: string): nat {
    |s| - |TrimStart(s)|
  }

  /** `String.prototype.trim`: an infix of `s` with no whitespace at either end. */
  function Trim(s: string): (r: string)
    ensures r == [] || (!IsSpace(r[0]) && !IsSpace(r[|r| - 1]))
    ensures TrimOffset(s) + |r| <= |s| && r == s[TrimOffset(s)..TrimOffset(s) + |r|]
  {
    var t := TrimStart(s);
    var r := TrimEnd(t);
    assert r == s[|s| - |t|..][..|r|];
    r
  }

  /** `trim` removes whitespace only, so it removes the longest whitespace prefix and
      suffix. */
  lemma TrimRemovesSpaces(s: string)
    ensures forall i :: 0 <= i < TrimOffset(s) ==> IsSpace(s[i])
    ensures forall i :: TrimOffset(s) + |Trim(s)| <= i < |s| ==> IsSpace(s[i])
  {
    var t := TrimStart(s);
    var r := Trim(s);
    var k := |s| - |t|;
    TrimStartSpaces(s);
    TrimEndSpaces(t);
    forall i | k + |r| <= i < |s|
      ensures IsSpace(s[i])
    {
      assert s[i] == t[i - k];
    }
  }

  /** Every character satisfying `d` removed, as `s.replace(/[...]/g, '')` does. */
  function Drop(s: string, d: char -> bool): (r: string)
    ensures |r| <= |s|
    ensures forall i :: 0 <= i < |r| ==> !d(r[i])
  {
    if s == [] then []
    else if d(s[0]) then Drop(s[1..], d)
    else [s[0]] + Drop(s[1..], d)
  }

  lemma {:induction false} DropAppend(a: string, b: string, d: char -> bool)
    ensures Drop(a + b, d) == Drop(a, d) + Drop(b, d)
    decreases |a|
  {
    if a == [] {
      assert a + b == b;
    } else {
      assert (a + b)[1..] == a[1..] + b;
      DropAppend(a[1..], b, d);
    }
  }

  lemma DropCons(s: string, d: char -> bool)
    requires s != []
    ensures Drop(s, d) == (if d(s[0]) then [] else [s[0]]) + Drop(s[1..], d)
  {
  }

  /** Dropping with `p` and then with `q` is dropping with their union `u`. */
  lemma {:induction false} DropDrop(s: string, p: char -> bool, q: char -> bool, u: char -> bool)
    requires forall c :: u(c) == (p(c) || q(c))
    ensures Drop(Drop(s, p), q) == Drop(s, u)
    decreases |s|
  {
    if s != [] {
      DropDrop(s[1..], p, q, u);
      if !p(s[0]) {
        assert Drop(s, p) == [s[0]] + Drop(s[1..], p);
        assert Drop(Drop(s, p), q) == Drop([s[0]], q) + Drop(Drop(s[1..], p), q) by {
          DropAppend([s[0]], Drop(s[1..], p), q);
        }
        assert [s[0]][1..] == [];
      }
    }
  }

  /** A `d`-free string is left alone by `Drop`. */
  lemma {:induction false} DropNone(s: string, d: char -> bool)
    requires forall i :: 0 <= i < |s| ==> !d(s[i])
    ensures Drop(s, d) == s
    decreases |s|
  {
    if s != [] {
      DropNone(s[1..], d);
    }
  }

  /** A string made only of `d` characters vanishes. */
  lemma {:induction false} DropAll(s: string, d: char -> bool)
    requires forall i :: 0 <= i < |s| ==> d(s[i])
    ensures Drop(s, d) == []
    decreases |s|
  {
    if s != [] {
      DropAll(s[1..], d);
    }
  }

  /** Trimming before dropping every whitespace character changes nothing. */
  lemma DropTrim(s: string, d: char -> bool)
    requires forall c :: IsSpace(c) ==> d(c)
    ensures Drop(Trim(s), d) == Drop(s, d)
  {
    var k := TrimOffset(s);
    var r := Trim(s);
    InfixPieces(s, k, r);
    TrimRemovesSpaces(s);
    DropSpaces(s[..k], d);
    DropSpaces(s[k + |r|..], d);
    DropAppend(s[..k] + r, s[k + |r|..], d);
    DropAppend(s[..k], r, d);
  }

  /** The string is what comes before an infix, the infix, and what comes after it. */
  lemma InfixPieces(s: string, k: nat, r: string)
    requires k + |r| <= |s| && r == s[k..k + |r|]
    ensures s == s[..k] + r + s[k + |r|..]
  {
    assert s == s[..k] + s[k..k + |r|] + s[k + |r|..];
  }

  /** Whitespace vanishes under a drop that removes all whitespace. */
  lemma DropSpaces(t: string, d: char -> bool)
    requires forall c :: IsSpace(c) ==> d(c)
    requires forall i :: 0 <= i < |t| ==> IsSpace(t[i])
    ensures Drop(t, d) == []
  {
    DropAll(t, d);
  }

  /** Every character replaced through `f`. */
  function MapChars(s: string, f: char -> char): (r: string)
    ensures |r| == |s|
    ensures forall i :: 0 <= i < |s| ==> r[i] == f(s[i])
  {
    seq(|s|, i requires 0 <= i < |s| => f(s[i]))
  }

  lemma MapCharsCons(s: string, f: char -> char)
    requires s != []
    ensures MapChars(s, f) == [f(s[0])] + MapChars(s[1..], f)
  {
  }

  predicate StartsWith(s: string, p: string) {
    |p| <= |s| && s[..|p|] == p
  }

  /** `s.includes(p)`. */
  predicate Contains(s: string, p: string)
    decreases |s|
  {
    StartsWith(s, p) || (|s| > 0 && Contains(s[1..], p))
  }

  lemma {:induction false} ContainsAt(s: string, p: string, k: nat)
    requires k + |p| <= |s| && s[k..k + |p|] == p
    ensures Contains(s, p)
    decreases k
  {
    if k == 0 {
      assert s[..|p|] == p;
    } else {
      assert s[1..][k - 1..k - 1 + |p|] == s[k..k + |p|];
      ContainsAt(s[1..], p, k - 1);
    }
  }

  lemma {:induction false} ContainsWitness(s: string, p: string) returns (k: nat)
    requires Contains(s, p)
    ensures k + |p| <= |s| && s[k..k + |p|] == p
    decreases |s|
  {
    if StartsWith(s, p) {
      k := 0;
    } else {
      var k' := ContainsWitness(s[1..], p);
      k := k' + 1;
      assert s[k..k + |p|] == s[1..][k'..k' + |p|];
    }
  }

  lemma ContainsInfix(a: string, p: string, b: string)
    ensures Contains(a + p + b, p)
  {
    var s := a + p + b;
    assert s[|a|..|a| + |p|] == p;
    ContainsAt(s, p, |a|);
  }

  lemma ContainsEmpty(s: string)
    ensures Contains(s, "")
  {
    ContainsAt(s, "", 0);
  }

  lemma ContainsSelf(s: string)
    ensures Contains(s, s)
  {
    ContainsAt(s, s, 0);
  }

  lemma ContainsLast(a: string, p: string)
    ensures Contains(a + p, p)
  {
    ContainsSelf(p);
    ContainsConcatRight(a, p, p);
  }

  lemma SliceOfSlice(s: string, a: nat, b: nat, c: nat, d: nat)
    requires a <= b <= |s| && c <= d <= b - a
    ensures s[a..b][c..d] == s[a + c..a + d]
  {
    var x := s[a..b][c..d];
    var y := s[a + c..a + d];
    forall i | 0 <= i < |x|
      ensures x[i] == y[i]
    {
    }
  }

  /** A part of the infix `a` of `s` is a part of `s`. */
  lemma ContainsWithin(s: string, a: string, k: nat, p: string)
    requires k + |a| <= |s| && s[k..k + |a|] == a
    requires Contains(a, p)
    ensures Contains(s, p)
  {
    var j := ContainsWitness(a, p);
    SliceOfSlice(s, k, k + |a|, j, j + |p|);
    ContainsAt(s, p, k + j);
  }

  lemma ContainsConcatLeft(a: string, b: string, p: string)
    requires Contains(a, p)
    ensures Contains(a + b, p)
  {
    assert (a + b)[0..|a|] == a;
    ContainsWithin(a + b, a, 0, p);
  }

  lemma ContainsConcatRight(a: string, b: string, p: string)
    requires Contains(b, p)
    ensures Contains(a + b, p)
  {
    assert (a + b)[|a|..|a| + |b|] == b;
    ContainsWithin(a + b, b, |a|, p);
  }

  /** A string that lacks one of the characters of `p` does not contain `p`. */
  lemma MissingCharNotContained(s: string, p: string, j: nat)
    requires j < |p| && p[j] !in s
    ensures !Contains(s, p)
  {
    if Contains(s, p) {
      var k := ContainsWitness(s, p);
    }
  }

  /** A string containing `p + q` contains `p`. */
  lemma ContainsPrefixPart(s: string, p: string, q: string)
    requires Contains(s, p + q)
    ensures Contains(s, p)
  {
    var k := ContainsWitness(s, p + q);
    SliceOfSlice(s, k, k + |p + q|, 0, |p|);
    assert (p + q)[..|p|] == p;
    ContainsAt(s, p, k);
  }

  /** Removing every match of a pattern that does not occur changes nothing. */
  lemma {:induction false} ReplaceAbsent(s: string, pat: string, rep: string)
    requires |pat| > 0 && !Contains(s, pat)
    ensures ReplaceAll(s, pat, rep) == s
    decreases |s|
  {
    if |s| > 0 {
      ReplaceAbsent(s[1..], pat, rep);
    }
  }

  /** `trim` leaves a trimmed string as it is. */
  lemma TrimTrimmed(r: string)
    requires r == [] || (!IsSpace(r[0]) && !IsSpace(r[|r| - 1]))
    ensures Trim(r) == r
  {
  }

  /** Trimming twice is trimming once. */
  lemma TrimIdempotent(s: string)
    ensures Trim(Trim(s)) == Trim(s)
  {
    TrimTrimmed(Trim(s));
  }

  /** `trim` keeps an absent pattern absent. */
  lemma TrimKeepsAbsent(s: string, p: string)
    requires !Contains(s, p)
    ensures !Contains(Trim(s), p)
  {
    if Contains(Trim(s), p) {
      ContainsWithin(s, Trim(s), TrimOffset(s), p);
    }
  }

  /** `s.replace(/pat/g, rep)` for a literal pattern: matches are found left to right and do
      not overlap. */
  function ReplaceAll(s: string, pat: string, rep: string): string
    requires |pat| > 0
    decreases |s|
  {
    if |s| == 0 then []
    else if StartsWith(s, pat) then rep + ReplaceAll(s[|pat|..], pat, rep)
    else [s[0]] + ReplaceAll(s[1..], pat, rep)
  }

  /** Index of the first occurrence of `c`. */
  function IndexOf(s: string, c: char): (r: Option<nat>)
    ensures r.None? <==> c !in s
    ensures r.Some? ==> r.value < |s| && s[r.value] == c && c !in s[..r.value]
  {
    if s == [] then None
    else if s[0] == c then Some(0)
    else match IndexOf(s[1..], c)
      case None => None
      case Some(i) =>
        assert s[..i + 1] == [s[0]] + s[1..][..i];
        Some(i + 1)
  }

  /** `s.split(c)` for a one-character separator: never empty, no part holds `c`. */
  function Split(s: string, c: char): (r: seq<string>)
    ensures |r| >= 1
    ensures forall k :: 0 <= k < |r| ==> c !in r[k]
    decreases |s|
  {
    match IndexOf(s, c)
    case None => [s]
    case Some(i) => [s[..i]] + Split(s[i + 1..], c)
  }

  /** A string without the separator is a single part. */
  lemma SplitAbsent(s: string, c: char)
    requires c !in s
    ensures Split(s, c) == [s]
  {
  }

  /** A separator that occurs splits the string in at least two parts. */
  lemma SplitOnPresent(s: string, c: char)
    requires c in s
    ensures |Split(s, c)| >= 2
  {
    match IndexOf(s, c)
    case Some(i) =>
      var rest := Split(s[i + 1..], c);
      assert |rest| >= 1;
      assert Split(s, c) == [s[..i]] + rest;
  }

  /** The first part of a split runs up to the first separator, or to the end. */
  lemma SplitHead(s: string, c: char)
    ensures StartsWith(s, Split(s, c)[0])
    ensures |Split(s, c)[0]| == |s| || s[|Split(s, c)[0]|] == c
  {
    match IndexOf(s, c)
    case None =>
    case Some(i) =>
      assert Split(s, c)[0] == s[..i];
  }

  /** The first occurrence is the one with no earlier occurrence. */
  lemma IndexOfAt(s: string, c: char, i: nat)
    requires i < |s| && s[i] == c && c !in s[..i]
    ensures IndexOf(s, c) == Some(i)
  {
  }

  /** `parts.join(sep)`. */
  function Join(parts: seq<string>, sep: string): string {
    if |parts| == 0 then ""
    else if |parts| == 1 then parts[0]
    else parts[0] + sep + Join(parts[1..], sep)
  }

  /** Splitting and re-joining on the same character gives the input back. */
  lemma {:induction false} JoinSplit(s: string, c: char)
    ensures Join(Split(s, c), [c]) == s
    decreases |s|
  {
    match IndexOf(s, c)
    case None =>
    case Some(i) =>
      var rest := s[i + 1..];
      SplitUnfold(s, c, i);
      JoinSplit(rest, c);
      RejoinAt(s, c, i, Split(s, c), Split(rest, c));
  }

  lemma SplitUnfold(s: string, c: char, i: nat)
    requires IndexOf(s, c) == Some(i)
    ensures i < |s| && s[i] == c && Split(s, c) == [s[..i]] + Split(s[i + 1..], c)
  {
  }

  /** One step of the round trip: the part before the first separator, the separator, and
      the rest re-joined. */
  lemma RejoinAt(s: string, c: char, i: nat, parts: seq<string>, rest: seq<string>)
    requires i < |s| && s[i] == c
    requires |rest| >= 1 && parts == [s[..i]] + rest && Join(rest, [c]) == s[i + 1..]
    ensures Join(parts, [c]) == s
  {
    assert parts[1..] == rest;
    assert s == s[..i] + [c] + s[i + 1..];
  }

  lemma JoinAppendLast(parts: seq<string>, last: string, sep: string)
    requires |parts| >= 1
    ensures Join(parts + [last], sep) == Join(parts, sep) + sep + last
  {
    if |parts| == 1 {
      assert parts + [last] == [parts[0], last];
    } else {
      assert (parts + [last])[1..] == parts[1..] + [last];
      JoinAppendLast(parts[1..], last, sep);
    }
  }

  /** `s.join('')` of a sequence of strings. */
  function Concat(parts: seq<string>): string {
    if |parts| == 0 then "" else parts[0] + Concat(parts[1..])
  }

  /** A sequence of strings joined: the parts before `i`, part `i`, the parts after. */
  lemma {:induction false} ConcatAt(parts: seq<string>, i: nat)
    requires i < |parts|
    ensures Concat(parts) == Concat(parts[..i]) + parts[i] + Concat(parts[i + 1..])
    decreases i
  {
    if i == 0 {
      assert parts[..0] == [];
    } else {
      var tail := parts[1..];
      ConcatAt(tail, i - 1);
      assert tail[..i - 1] == parts[1..i] && tail[i - 1] == parts[i] && tail[i..] == parts[i + 1..];
      assert parts[..i][1..] == parts[1..i];
      var left, right := Concat(parts[1..i]), Concat(parts[i + 1..]);
      assert Concat(parts) == parts[0] + (left + parts[i] + right);
      assert Concat(parts[..i]) == parts[0] + left;
      assert parts[0] + (left + parts[i] + right) == (parts[0] + left) + parts[i] + right;
    }
  }

  /** Every part stands in the joined string. */
  lemma ConcatContains(parts: seq<string>, i: nat)
    requires i < |parts|
    ensures Contains(Concat(parts), parts[i])
  {
    ConcatAt(parts, i);
    ContainsInfix(Concat(parts[..i]), parts[i], Concat(parts[i + 1..]));
  }

  /** Index of the first digit, or `|s|`. */
  function DigitStart(s: string): (k: nat)
    ensures k <= |s|
    ensures forall i :: 0 <= i < k ==> !IsDigit(s[i])
    ensures k < |s| ==> IsDigit(s[k])
  {
    if s == [] then 0
    else if IsDigit(s[0]) then 0
    else 1 + DigitStart(s[1..])
  }

  /** Length of the run of digits that starts `s`. */
  function DigitRunLength(s: string): (n: nat)
    ensures n <= |s|
    ensures forall i :: 0 <= i < n ==> IsDigit(s[i])
    ensures n < |s| ==> !IsDigit(s[n])
  {
    if s == [] || !IsDigit(s[0]) then 0 else 1 + DigitRunLength(s[1..])
  }

  /** `s.match(/\d+/)?.[0]`: the first maximal run of digits, if any. */
  function FirstDigitRun(s: string): (r: Option<string>)
    ensures r.None? <==> forall i :: 0 <= i < |s| ==> !IsDigit(s[i])
    ensures r.Some? ==> |r.value| > 0 && forall i :: 0 <= i < |r.value| ==> IsDigit(r.value[i])
  {
    var k := DigitStart(s);
    if k == |s| then None
    else Some(s[k..k + DigitRunLength(s[k..])])
  }

  /** The first digit run sits in `s` after a digit-free prefix and is not followed by a digit. */
  lemma FirstDigitRunPosition(s: string)
    requires FirstDigitRun(s).Some?
    ensures var r := FirstDigitRun(s).value; var k := DigitStart(s);
      k + |r| <= |s| && s[k..k + |r|] == r
        && (forall i :: 0 <= i < k ==> !IsDigit(s[i]))
        && (k + |r| == |s| || !IsDigit(s[k + |r|]))
  {
    var k := DigitStart(s);
    var n := DigitRunLength(s[k..]);
    assert k + n == |s| || s[k + n] == s[k..][n];
  }

  function DigitChar(d: nat): (c: char)
    requires d < 10
    ensures IsDigit(c)
  {
    ('0' as int + d) as char
  }

  /** `String(n)` for a natural number: its decimal digits, no leading zero. */
  function NatToString(n: nat): (r: string)
    ensures |r| >= 1
    ensures forall i :: 0 <= i < |r| ==> IsDigit(r[i])
    ensures r[0] == '0' ==> n == 0
  {
    if n < 10 then [DigitChar(n)] else NatToString(n / 10) + [DigitChar(n % 10)]
  }

  /** `String(i)` for any integer. */
  function IntToString(i: int): (r: string)
    ensures |r| >= 1
  {
    if i < 0 then "-" + NatToString(-i) else NatToString(i)
  }
}

=== FILE: types.dfy ===
/** The records of the application (students, classes, lessons, exercises, exams,
    attendance, worksheets, accounts) and the worksheet content produced by the AI or by an
    upload. Absent optional string fields are represented by "" wherever the application
    treats absent and empty alike. */
module Types {
  import opened Wrappers

  /** One graded subject entry of a term. */
  datatype DiemSo = DiemSo(monHoc: string, diem: real)

  datatype BangDiem = BangDiem(hocKy1: seq<DiemSo>, hocKy2: seq<DiemSo>)

  datatype ThoiGianHoc = ThoiGianHoc(ngay: string, soPhut: int)

  /** A student profile. `userId` and `username` are "" when absent. */
  datatype HocSinh = HocSinh(
    id: string,
    ten: string,
    lop: string,
    diemSo: BangDiem,
    thoiGianHoc: ThoiGianHoc,
    nhanXet: string,
    userId: string,
    username: string)

  /** A class; `khoi` is its grade. */
  datatype LopHoc = LopHoc(id: string, tenLop: string, khoi: string, ngayTao: string)

  datatype LoaiBaiTap = TracNghiem | TuLuan

  /** An exercise attached to a lesson. `id` is "" when absent; `dapAnDung` is the exact
      correct option, when there is one. */
  datatype BaiTap = BaiTap(
    id: string,
    baiHocId: string,
    loai: LoaiBaiTap,
    deBai: string,
    dapAn: seq<string>,
    dapAnDung: Option<string>,
    doKho: string,
    chuDe: string,
    mucDo: string)

  /** An exam; `thoiGian` is its duration in minutes. */
  datatype DeKiemTra = DeKiemTra(
    id: string,
    tenDe: string,
    moTa: string,
    lop: string,
    thoiGian: int,
    taoBoi: string,
    ngayTao: string,
    cauHoiIds: seq<string>)

  datatype BaiHoc = BaiHoc(
    id: string,
    tenBai: string,
    lop: string,
    chuong: string,
    lyThuyet: string,
    yeuCauCanDat: string,
    baiTap: seq<BaiTap>)

  datatype VaiTro = HocSinhRole | GiaoVien

  datatype NguoiDung = NguoiDung(id: string, username: string, password: string, vaiTro: VaiTro)

  /** One attendance record: student `hocSinh` was present (`coMat`) on day `ngay`. */
  datatype DiemDanh = DiemDanh(id: string, ngay: string, hocSinh: string, coMat: bool)

  /** The type of an AI question, as enumerated by the response schema. */
  datatype QuestionType = MultipleChoice | TrueFalse | ShortAnswer | Application

  /** One AI-generated question. `options` is `None` when the schema's nullable array is null. */
  datatype Question = Question(
    id: int,
    qtype: QuestionType,
    level: string,
    question: string,
    options: Option<seq<string>>,
    correctAnswer: string,
    explanation: string)

  /** The `data` field of worksheet content: absent/null, a string (base64 or text), or some
      other truthy JSON value. */
  datatype Payload = NoData | TextData(text: string) | OtherData

  /** Worksheet content (`noiDung`): either AI output with questions or an uploaded file. */
  datatype WorksheetContent = WorksheetContent(
    lessonName: string,
    kind: string,
    fileName: string,
    fileType: string,
    fileSize: int,
    data: Payload,
    questions: Option<seq<Question>>)

  /** A library worksheet; `noiDung` is `None` when the stored JSON is null. */
  datatype PhieuBaiTap = PhieuBaiTap(
    id: string,
    tenPhieu: string,
    lop: string,
    monHoc: string,
    noiDung: Option<WorksheetContent>,
    ngayTao: string)

  /** A worksheet row as inserted into the library; the store adds `id` and `ngayTao`. */
  datatype NewWorksheet = NewWorksheet(tenPhieu: string, lop: string, monHoc: string, noiDung: WorksheetContent)

  /** The application's screens. `Exams` is used by the navigation bar although the enum of
      the types file does not list it. */
  datatype Screen =
    | Dashboard | Lessons | LessonDetail | Results | Leaderboard | AiQa | Attendance | Remarks
    | AdminDashboard | AdminLessons | AdminStudents | AdminClasses | AdminQuizzes
    | AdminWorksheets | AdminConsolidation | AdminEssay | Consolidation | TakeQuiz
    | SmartWorksheet | Exams

  /** The worksheet categories and their labels. */
  const LUYEN_TAP: string := "Luyện tập"
  const TU_LUYEN: string := "Tự luyện"
  const TU_LUAN: string := "Tự luận"
  const CUNG_CO: string := "Củng cố"
  const TOAN: string := "Toán"
  const UPLOADED_FILE: string := "uploaded_file"
}

=== FILE: worksheet_library.dfy ===
/** The worksheet library screen: the category, grade and search filters, the per-grade
    counts, uploads, the read-only and delete guards, and the download of a worksheet as its
    uploaded file or as an HTML exam with an answer key. */
module WorksheetLibrary {
  import opened Wrappers
  import opened Text
  import opened Lists
  import opened Types
  import AnswerMatcher
  import WorksheetSession

  /** The category a library view saves under: "Tự luyện", "Tự luận", or "Luyện tập" for any
      other view type. */
  function CurrentCategory(worksheetType: string): (c: string)
    ensures c == TU_LUYEN || c == TU_LUAN || c == LUYEN_TAP
    ensures worksheetType == TU_LUYEN || worksheetType == TU_LUAN ==> c == worksheetType
  {
    if worksheetType == TU_LUYEN then TU_LUYEN
    else if worksheetType == TU_LUAN then TU_LUAN
    else LUYEN_TAP
  }

  /** The category test of a view, legacy labels included: "Củng cố" is shown with
      "Tự luyện", and "Toán" with "Luyện tập". */
  predicate CategoryMatches(worksheetType: string, monHoc: string) {
    if worksheetType == TU_LUYEN then monHoc == TU_LUYEN || monHoc == CUNG_CO
    else if worksheetType == TU_LUAN then monHoc == TU_LUAN
    else monHoc == TOAN || monHoc == LUYEN_TAP
  }

  /** The equivalence table of the categories, and the fact that a label outside it is shown
      in no view. */
  lemma CategoryTable(worksheetType: string, monHoc: string)
    ensures worksheetType == TU_LUYEN ==> (CategoryMatches(worksheetType, monHoc) <==> monHoc in {TU_LUYEN, CUNG_CO})
    ensures worksheetType == TU_LUAN ==> (CategoryMatches(worksheetType, monHoc) <==> monHoc == TU_LUAN)
    ensures worksheetType != TU_LUYEN && worksheetType != TU_LUAN
        ==> (CategoryMatches(worksheetType, monHoc) <==> monHoc in {TOAN, LUYEN_TAP})
    ensures monHoc !in {TU_LUYEN, CUNG_CO, TU_LUAN, TOAN, LUYEN_TAP} ==> !CategoryMatches(worksheetType, monHoc)
  {
  }

  /** A worksheet saved under a view's category is shown in that view. */
  lemma OwnCategoryShown(worksheetType: string)
    ensures CategoryMatches(worksheetType, CurrentCategory(worksheetType))
  {
  }

  /** The test of `filteredWorksheets`: category, grade (when one is selected; "" selects
      none), and the case-insensitive search in the name. */
  predicate Shown(worksheetType: string, grade: string, search: string, w: PhieuBaiTap) {
    CategoryMatches(worksheetType, w.monHoc)
    && (grade == "" || w.lop == grade)
    && Contains(Lower(w.tenPhieu), Lower(search))
  }

  function FilteredWorksheets(ws: seq<PhieuBaiTap>, worksheetType: string, grade: string, search: string)
    : (r: seq<PhieuBaiTap>)
    ensures forall i :: 0 <= i < |r| ==> Shown(worksheetType, grade, search, r[i])
  {
    Filter(ws, w => Shown(worksheetType, grade, search, w))
  }

  /** The filtered list is the order-preserving sublist of the shown worksheets. */
  lemma FilteredIsSublist(ws: seq<PhieuBaiTap>, worksheetType: string, grade: string, search: string)
    ensures IsSubsequence(FilteredWorksheets(ws, worksheetType, grade, search), ws)
    ensures forall w :: (w in FilteredWorksheets(ws, worksheetType, grade, search)
                         <==> w in ws && Shown(worksheetType, grade, search, w))
  {
    FilterIsSubsequence(ws, w => Shown(worksheetType, grade, search, w));
    FilterMembers(ws, w => Shown(worksheetType, grade, search, w));
  }

  /** An empty search keeps every worksheet of the category and grade. */
  lemma EmptySearchKeepsAll(w: PhieuBaiTap, worksheetType: string, grade: string)
    ensures Shown(worksheetType, grade, "", w)
        <==> CategoryMatches(worksheetType, w.monHoc) && (grade == "" || w.lop == grade)
  {
    ContainsEmpty(Lower(w.tenPhieu));
  }

  /** The test of the folder count of grade `g`. */
  predicate InFolder(worksheetType: string, g: string, w: PhieuBaiTap) {
    w.lop == g && CategoryMatches(worksheetType, w.monHoc)
  }

  /** The number shown on the folder of grade `g`. */
  function GradeCount(ws: seq<PhieuBaiTap>, worksheetType: string, g: string): nat {
    |Filter(ws, w => InFolder(worksheetType, g, w))|
  }

  /** `gradeCounts`: the folders 6 to 9. */
  function GradeCounts(ws: seq<PhieuBaiTap>, worksheetType: string): (m: map<string, nat>)
    ensures m.Keys == {"6", "7", "8", "9"}
    ensures forall g :: g in m ==> m[g] == GradeCount(ws, worksheetType, g)
  {
    map g | g in {"6", "7", "8", "9"} :: GradeCount(ws, worksheetType, g)
  }

  /** The folder count of a grade is the length of the list that opening the folder shows. */
  lemma GradeCountAgrees(ws: seq<PhieuBaiTap>, worksheetType: string, g: string)
    requires g != ""
    ensures GradeCount(ws, worksheetType, g) == |FilteredWorksheets(ws, worksheetType, g, "")|
  {
    forall i | 0 <= i < |ws|
      ensures InFolder(worksheetType, g, ws[i]) == Shown(worksheetType, g, "", ws[i])
    {
      EmptySearchKeepsAll(ws[i], worksheetType, g);
    }
    FilterExt(ws, w => InFolder(worksheetType, g, w), w => Shown(worksheetType, g, "", w));
  }

  /** A chosen file. */
  datatype FileInfo = FileInfo(name: string, mimeType: string, size: int)

  /** The state of the library screen. `selectedGrade` is "" in the folder view. */
  datatype LibraryState = LibraryState(
    selectedGrade: string,
    deleteTarget: Option<string>,
    showOptionModal: bool,
    showUploadModal: bool,
    uploadName: string,
    uploadGrade: string,
    file: Option<FileInfo>)

  function InitialLibrary(): (st: LibraryState)
    ensures st.selectedGrade == "" && st.deleteTarget.None? && st.uploadGrade == "6"
  {
    LibraryState("", None, false, false, "", "6", None)
  }

  /** A student's own grade is selected for them. */
  function ApplyUserGrade(st: LibraryState, userGrade: string): (r: LibraryState)
    ensures userGrade != "" ==> r == st.(selectedGrade := userGrade)
    ensures userGrade == "" ==> r == st
  {
    if userGrade != "" then st.(selectedGrade := userGrade) else st
  }

  /** The file name without its last `.`-segment: `name.split('.').slice(0, -1).join('.')`. */
  function StripExtension(fileName: string): (r: string)
    ensures '.' !in fileName ==> r == ""
  {
    var parts := Split(fileName, '.');
    Join(parts[..|parts| - 1], ".")
  }

  /** With a `.` in the name, the stripped name, a `.` and the last segment give the name
      back, and the last segment holds no `.`. */
  lemma StripExtensionSplits(fileName: string)
    requires '.' in fileName
    ensures var parts := Split(fileName, '.');
      && '.' !in parts[|parts| - 1]
      && StripExtension(fileName) + "." + parts[|parts| - 1] == fileName
  {
    var parts := Split(fileName, '.');
    SplitOnPresent(fileName, '.');
    var init, last := parts[..|parts| - 1], parts[|parts| - 1];
    assert parts == init + [last];
    JoinAppendLast(init, last, ".");
    JoinSplit(fileName, '.');
  }

  /** Choosing a file: the upload name is filled from the file name only when it is empty. */
  function ChooseFile(st: LibraryState, f: FileInfo): (r: LibraryState)
    ensures r.file == Some(f)
    ensures st.uploadName != "" ==> r.uploadName == st.uploadName
    ensures st.uploadName == "" ==> r.uploadName == StripExtension(f.name)
    ensures r == st.(file := r.file, uploadName := r.uploadName)
  {
    st.(file := Some(f), uploadName := if st.uploadName == "" then StripExtension(f.name) else st.uploadName)
  }

  const UPLOAD_MISSING: string := "Vui lòng nhập tên phiếu và chọn file!"

  /** The content stored for an uploaded file. */
  function UploadContent(name: string, f: FileInfo, dataUrl: string): (c: WorksheetContent)
    ensures c.kind == UPLOADED_FILE && c.questions == Some([]) && c.lessonName == name
    ensures c.fileName == f.name && c.fileType == f.mimeType && c.fileSize == f.size
    ensures c.data == TextData(dataUrl)
  {
    WorksheetContent(name, UPLOADED_FILE, f.name, f.mimeType, f.size, TextData(dataUrl), Some([]))
  }

  /** `handleUploadSave`: refused without a name or a file; otherwise the row to insert, under
      the view's category and the upload grade. `dataUrl` is what the file reader produced. */
  function UploadRequest(st: LibraryState, worksheetType: string, dataUrl: string): (r: Result<NewWorksheet, string>)
    ensures r.Err? <==> st.uploadName == "" || st.file.None?
    ensures r.Err? ==> r.error == UPLOAD_MISSING
    ensures r.Ok? ==> r.value == NewWorksheet(st.uploadName, st.uploadGrade, CurrentCategory(worksheetType),
                                              UploadContent(st.uploadName, st.file.value, dataUrl))
  {
    if st.uploadName == "" || st.file.None? then Err(UPLOAD_MISSING)
    else Ok(NewWorksheet(st.uploadName, st.uploadGrade, CurrentCategory(worksheetType),
                         UploadContent(st.uploadName, st.file.value, dataUrl)))
  }

  /** After the insert: on success the form closes and is cleared; on failure it stays. */
  function UploadDone(st: LibraryState, insertOk: bool): (r: LibraryState)
    ensures insertOk ==> r == st.(showUploadModal := false, uploadName := "", file := None)
    ensures !insertOk ==> r == st
  {
    if insertOk then st.(showUploadModal := false, uploadName := "", file := None) else st
  }

  /** Uploaded content always opens in the file viewer, never as a graded worksheet, and the
      uploaded row is listed in its own view under its grade. */
  lemma UploadIsFileMode(st: LibraryState, worksheetType: string, dataUrl: string)
    requires UploadRequest(st, worksheetType, dataUrl).Ok?
    ensures var row := UploadRequest(st, worksheetType, dataUrl).value;
      WorksheetSession.IsFileMode(Some(row.noiDung))
      && CategoryMatches(worksheetType, row.monHoc) && row.lop == st.uploadGrade
  {
  }

  /** `handleCreateClick`: nothing in read-only mode; otherwise the option dialog opens with
      the upload grade set to the selected grade, if any. */
  function CreateClick(st: LibraryState, readOnly: bool): (r: LibraryState)
    ensures readOnly ==> r == st
    ensures !readOnly ==> (r.showOptionModal
                           && r.uploadGrade == (if st.selectedGrade != "" then st.selectedGrade else st.uploadGrade)
                           && r == st.(showOptionModal := true, uploadGrade := r.uploadGrade))
  {
    if readOnly then st
    else st.(showOptionModal := true, uploadGrade := if st.selectedGrade != "" then st.selectedGrade else st.uploadGrade)
  }

  /** "Create with AI": the dialog closes and the creator opens with the selected grade. */
  function SelectAi(st: LibraryState): (r: (LibraryState, Option<string>))
    ensures !r.0.showOptionModal && r.0 == st.(showOptionModal := false)
    ensures r.1 == (if st.selectedGrade != "" then Some(st.selectedGrade) else None)
  {
    (st.(showOptionModal := false), if st.selectedGrade != "" then Some(st.selectedGrade) else None)
  }

  /** `confirmDelete`: nothing in read-only mode; otherwise the worksheet becomes the target
      of the confirmation dialog. */
  function ConfirmDelete(st: LibraryState, readOnly: bool, id: string): (r: LibraryState)
    ensures readOnly ==> r == st
    ensures !readOnly ==> r == st.(deleteTarget := Some(id))
  {
    if readOnly then st else st.(deleteTarget := Some(id))
  }

  /** `executeDelete`: without a target nothing happens and no delete is issued; otherwise
      the target is cleared and the delete of its id is issued. */
  function ExecuteDelete(st: LibraryState): (r: (LibraryState, Option<string>))
    ensures st.deleteTarget.None? ==> r == (st, None)
    ensures st.deleteTarget.Some? ==> r == (st.(deleteTarget := None), Some(st.deleteTarget.value))
  {
    match st.deleteTarget
    case None => (st, None)
    case Some(id) => (st.(deleteTarget := None), Some(id))
  }

  /** In read-only mode no delete can ever be issued from a state without a target. */
  lemma ReadOnlyNeverDeletes(st: LibraryState, id: string)
    requires st.deleteTarget.None?
    ensures ExecuteDelete(ConfirmDelete(st, true, id)).1 == None
    ensures CreateClick(st, true) == st
  {
  }

  /** A JS truthy payload. */
  predicate Truthy(p: Payload) {
    (p.TextData? && p.text != "") || p.OtherData?
  }

  /** What the download button produces. */
  datatype Download =
    | Alert(message: string)
    | RawFile(payload: Payload, name: string)
    | HtmlFile(html: string, name: string)

  const BROKEN_DATA: string := "Dữ liệu phiếu " + "bị lỗi."
  const NO_CONTENT: string := "Phiếu này không " + "có nội dung " + "để tải xuống."

  /** `String.fromCharCode(65 + i)`: the code is taken modulo 2^16, as the conversion to an
      unsigned 16-bit unit does; a lone surrogate has no `char`, and is shown as the
      replacement character. */
  function HtmlLabel(i: nat): (l: string)
    ensures |l| == 1
    ensures 65 + i < 0xD800 ==> l == AnswerMatcher.Label(i)
    ensures var code := (65 + i) % 0x1_0000;
      (code < 0xD800 || 0xE000 <= code) ==> l == [code as char]
    ensures var code := (65 + i) % 0x1_0000;
      0xD800 <= code < 0xE000 ==> l == "�"
  {
    var code := (65 + i) % 0x1_0000;
    if code < 0xD800 || 0xE000 <= code then [code as char] else "�"
  }

  function OptionLine(k: nat, opt: string): string {
    "<div><strong>" + HtmlLabel(k) + ".</strong> " + opt + "</div>"
  }

  const TRUE_FALSE_LINE: string := "[ Đúng ] / [ Sai ]"
  const TRUE_FALSE_OPEN: string := "<div style=\"margin-left: 20px;\">"
  const BLOCK_OPEN: string := "<div style=\"margin-bottom: 20px; page-break-inside: avoid;\"><p><strong>"
  const EXPLANATION_OPEN: string := " <br/> <i style=\"color: #666;\">Giải thích: "
  const HEAD_OPEN: string := "<!DOCTYPE html><html><head><meta charset=\"UTF-8\"><title>"
  const HEAD_SCRIPT: string := "</title><script src=\"https://cdn.jsdelivr.net/npm/mathjax@3/es5/tex-mml-chtml.js\"></script></head><body><h1>"
  const INFO_OPEN: string := "<div class=\"header-info\">Môn: "
  const DATE_LABEL: string := " <br/>Ngày tạo: "
  const EXAM_HEADING: string := "<h2 class=\"section-title\">I. ĐỀ BÀI</h2>"
  const OPTIONS_OPEN: string := "<div style=\"margin-left: 20px; display: grid; grid-template-columns: 1fr 1fr; gap: 10px;\">"

  /** One labelled line per option, in order. */
  function OptionLines(opts: seq<string>): (r: seq<string>)
    ensures |r| == |opts|
    ensures forall k :: 0 <= k < |opts| ==> r[k] == OptionLine(k, opts[k])
  {
    seq(|opts|, k requires 0 <= k < |opts| => OptionLine(k, opts[k]))
  }

  /** The choices under a question: labelled options for multiple choice, the true/false
      line, or nothing. */
  function OptionsHtml(q: Question): string {
    if q.qtype == MultipleChoice && q.options.Some? then
      OPTIONS_OPEN + Concat(OptionLines(q.options.value)) + "</div>"
    else if q.qtype == TrueFalse then
      TRUE_FALSE_OPEN + TRUE_FALSE_LINE + "</div>"
    else ""
  }

  /** The heading of question `i` (0-based): "Câu i+1 (level):". */
  function QuestionHeading(q: Question, i: nat): string {
    "Câu " + NatToString(i + 1) + " (" + q.level + "):"
  }

  function QuestionBlock(q: Question, i: nat): string {
    BLOCK_OPEN + QuestionHeading(q, i)
    + "</strong> " + q.question + "</p>" + OptionsHtml(q) + "</div>"
  }

  function AnswerEntry(q: Question, i: nat): string {
    "<p><strong>Câu " + NatToString(i + 1) + ":</strong> " + q.correctAnswer
    + EXPLANATION_OPEN + q.explanation + "</i></p>"
  }

  function QuestionBlocks(qs: seq<Question>): (r: seq<string>)
    ensures |r| == |qs|
    ensures forall i :: 0 <= i < |qs| ==> r[i] == QuestionBlock(qs[i], i)
  {
    seq(|qs|, i requires 0 <= i < |qs| => QuestionBlock(qs[i], i))
  }

  function AnswerEntries(qs: seq<Question>): (r: seq<string>)
    ensures |r| == |qs|
    ensures forall i :: 0 <= i < |qs| ==> r[i] == AnswerEntry(qs[i], i)
  {
    seq(|qs|, i requires 0 <= i < |qs| => AnswerEntry(qs[i], i))
  }

  const PAGE_BREAK: string := "<div style=\"page-break-before: always;\"></div>"

  /** Everything before the exam section: head, title, subject, grade and date (`dateText`
      is the formatted creation date). */
  function HtmlHeader(w: PhieuBaiTap, c: WorksheetContent, dateText: string): string {
    HEAD_OPEN + w.tenPhieu + HEAD_SCRIPT
    + (if c.lessonName != "" then c.lessonName else w.tenPhieu) + "</h1>"
    + INFO_OPEN + w.monHoc + " - Lớp: " + w.lop + DATE_LABEL + dateText + "</div>"
    + EXAM_HEADING
  }

  const ANSWER_HEADING: string := "<h2 class=\"section-title\">II. ĐÁP ÁN & HƯỚNG DẪN</h2>"

  /** The exam part of the document: the header and one block per question. */
  function ExamSection(w: PhieuBaiTap, c: WorksheetContent, qs: seq<Question>, dateText: string): string {
    HtmlHeader(w, c, dateText) + Concat(QuestionBlocks(qs))
  }

  /** The answer key: one entry per question. */
  function AnswerSection(qs: seq<Question>): string {
    ANSWER_HEADING + Concat(AnswerEntries(qs)) + "</body></html>"
  }

  /** The exported document: the exam, a page break, then the answer key. */
  function ExamHtml(w: PhieuBaiTap, c: WorksheetContent, qs: seq<Question>, dateText: string): string {
    ExamSection(w, c, qs, dateText) + PAGE_BREAK + AnswerSection(qs)
  }

  /** `handleDownloadFile`: broken data first, then an uploaded file with a payload, then a
      worksheet with questions, otherwise nothing to download. */
  function ExportWorksheet(w: PhieuBaiTap, dateText: string): (d: Download)
    ensures w.noiDung.None? <==> d == Alert(BROKEN_DATA)
    ensures d.RawFile? <==> w.noiDung.Some? && w.noiDung.value.kind == UPLOADED_FILE && Truthy(w.noiDung.value.data)
    ensures d.RawFile? ==> (d.payload == w.noiDung.value.data
                            && d.name == (if w.noiDung.value.fileName != "" then w.noiDung.value.fileName else w.tenPhieu))
    ensures d.HtmlFile? <==> (w.noiDung.Some? && !d.RawFile?
                              && w.noiDung.value.questions.Some? && |w.noiDung.value.questions.value| > 0)
    ensures d.HtmlFile? ==> d.name == w.tenPhieu + ".html"
    ensures d.HtmlFile? ==> d.html == ExamHtml(w, w.noiDung.value, w.noiDung.value.questions.value, dateText)
    ensures d == Alert(NO_CONTENT) <==> w.noiDung.Some? && !d.RawFile? && !d.HtmlFile?
  {
    assert BROKEN_DATA[0] != NO_CONTENT[0];
    match w.noiDung
    case None => Alert(BROKEN_DATA)
    case Some(c) =>
      if c.kind == UPLOADED_FILE && Truthy(c.data) then
        RawFile(c.data, if c.fileName != "" then c.fileName else w.tenPhieu)
      else if c.questions.Some? && |c.questions.value| > 0 then
        HtmlFile(ExamHtml(w, c, c.questions.value, dateText), w.tenPhieu + ".html")
      else Alert(NO_CONTENT)
  }

  /** An uploaded worksheet downloads as the stored file, under the file's own name. */
  lemma UploadExportsRaw(st: LibraryState, worksheetType: string, dataUrl: string, id: string, ngayTao: string,
                         dateText: string)
    requires UploadRequest(st, worksheetType, dataUrl).Ok? && dataUrl != ""
    ensures var row := UploadRequest(st, worksheetType, dataUrl).value;
      var w := PhieuBaiTap(id, row.tenPhieu, row.lop, row.monHoc, Some(row.noiDung), ngayTao);
      ExportWorksheet(w, dateText)
        == RawFile(TextData(dataUrl), if st.file.value.name != "" then st.file.value.name else st.uploadName)
  {
  }

  /** Question `i`'s block stands in the exam section, before the page break, after the
      blocks of the earlier questions; its answer stands in the answer key, after the
      earlier answers. */
  lemma ExamLayout(w: PhieuBaiTap, c: WorksheetContent, qs: seq<Question>, dateText: string, i: nat)
    requires i < |qs|
    ensures Contains(ExamSection(w, c, qs, dateText), QuestionBlock(qs[i], i))
    ensures Contains(AnswerSection(qs), AnswerEntry(qs[i], i))
    ensures Concat(QuestionBlocks(qs))
        == Concat(QuestionBlocks(qs)[..i]) + QuestionBlock(qs[i], i) + Concat(QuestionBlocks(qs)[i + 1..])
    ensures Concat(AnswerEntries(qs))
        == Concat(AnswerEntries(qs)[..i]) + AnswerEntry(qs[i], i) + Concat(AnswerEntries(qs)[i + 1..])
  {
    var blocks, answers := QuestionBlocks(qs), AnswerEntries(qs);
    ConcatAt(blocks, i);
    ConcatAt(answers, i);
    ConcatContains(blocks, i);
    ContainsConcatRight(HtmlHeader(w, c, dateText), Concat(blocks), blocks[i]);
    ConcatContains(answers, i);
    ContainsConcatRight(ANSWER_HEADING, Concat(answers), answers[i]);
    ContainsConcatLeft(ANSWER_HEADING + Concat(answers), "</body></html>", answers[i]);
  }

  /** The block of question `i` is headed "Câu i+1 (level):" and holds the question text. */
  lemma QuestionBlockMentions(q: Question, i: nat)
    ensures Contains(QuestionBlock(q, i), QuestionHeading(q, i))
    ensures Contains(QuestionBlock(q, i), q.question)
  {
    var l1 := BLOCK_OPEN;
    var h := QuestionHeading(q, i);
    var x := q.question;
    ContainsLast(l1, h);
    ContainsConcatLeft(l1 + h, "</strong> ", h);
    ContainsConcatLeft(l1 + h + "</strong> ", x, h);
    ContainsLast(l1 + h + "</strong> ", x);
    ContainsConcatLeft(l1 + h + "</strong> " + x, "</p>", h);
    ContainsConcatLeft(l1 + h + "</strong> " + x, "</p>", x);
    ContainsConcatLeft(l1 + h + "</strong> " + x + "</p>", OptionsHtml(q), h);
    ContainsConcatLeft(l1 + h + "</strong> " + x + "</p>", OptionsHtml(q), x);
    ContainsConcatLeft(l1 + h + "</strong> " + x + "</p>" + OptionsHtml(q), "</div>", h);
    ContainsConcatLeft(l1 + h + "</strong> " + x + "</p>" + OptionsHtml(q), "</div>", x);
  }

  /** The answer entry of question `i` holds its expected answer and its explanation. */
  lemma AnswerEntryMentions(q: Question, i: nat)
    ensures Contains(AnswerEntry(q, i), q.correctAnswer)
    ensures Contains(AnswerEntry(q, i), q.explanation)
  {
    var l1 := "<p><strong>Câu " + NatToString(i + 1) + ":</strong> ";
    var a := q.correctAnswer;
    var l2 := EXPLANATION_OPEN;
    var e := q.explanation;
    ContainsLast(l1, a);
    ContainsConcatLeft(l1 + a, l2, a);
    ContainsConcatLeft(l1 + a + l2, e, a);
    ContainsLast(l1 + a + l2, e);
    ContainsConcatLeft(l1 + a + l2 + e, "</i></p>", a);
    ContainsConcatLeft(l1 + a + l2 + e, "</i></p>", e);
  }

  /** The options of a multiple-choice question are listed in its block, labelled A, B, ...
      in order; a true/false question shows the true/false line. */
  lemma OptionsLabelled(q: Question, i: nat, k: nat)
    ensures q.qtype == MultipleChoice && q.options.Some? && k < |q.options.value|
        ==> Contains(QuestionBlock(q, i), OptionLine(k, q.options.value[k]))
    ensures q.qtype == TrueFalse ==> Contains(QuestionBlock(q, i), TRUE_FALSE_LINE)
  {
    var pre := BLOCK_OPEN + QuestionHeading(q, i)
               + "</strong> " + q.question + "</p>";
    var opts := OptionsHtml(q);
    ContainsInfix(pre, opts, "</div>");
    assert QuestionBlock(q, i) == pre + opts + "</div>";
    if q.qtype == MultipleChoice && q.options.Some? && k < |q.options.value| {
      var lines := OptionLines(q.options.value);
      ConcatContains(lines, k);
      ContainsConcatRight(OPTIONS_OPEN, Concat(lines), lines[k]);
      ContainsConcatLeft(OPTIONS_OPEN + Concat(lines), "</div>", lines[k]);
      ContainsWithin(QuestionBlock(q, i), opts, |pre|, lines[k]);
    } else if q.qtype == TrueFalse {
      ContainsInfix(TRUE_FALSE_OPEN, TRUE_FALSE_LINE, "</div>");
      ContainsWithin(QuestionBlock(q, i), opts, |pre|, TRUE_FALSE_LINE);
    }
  }
}

=== FILE: wrappers.dfy ===
/** Failure-compatible wrappers used throughout the model: an optional value and a
    value-or-error result (the source's `throw`/`alert` paths become `Err`). */
module Wrappers {

  datatype Option<+T> = None | Some(value: T) {
    function GetOr(default: T): T {
      match this
      case Some(v) => v
      case None => default
    }
  }

  datatype Result<+R, +E> = Ok(value: R) | Err(error: E) {
    predicate IsFailure() {
      Err?
    }
  }
}
